=== FILE: README.md ===
# financial-monitor-agent: a Dafny model of its deterministic core

financial-monitor-agent is a chain of agents.

1. A gatherer searches the web for financial news and keeps hits from whitelisted outlets. It uses DuckDuckGo in `gather_demo.py` and Tavily in `gather_tavily_demo.py`.
2. An analyst asks a language model to cluster the article titles into scored events (`analyst_demo.py`).
3. A journalist has a language model write one research report per event (`journalist_demo.py`).
4. An auditor checks each report against its event's sources (`auditor_demo.py`). It runs an entity pre-check, has a model review the report, and forces a correction whenever the pre-check fired.

This project models what those agents decide for themselves, as pure functions over immutable data. Strings are `seq<char>` and amounts are `real`.

Everything outside the process is a function-valued parameter:

- the search engines;
- the page extractor;
- the md5 hash;
- the clock;
- the three language models.

A parameter returns `Err` where the source would catch an exception.

The files:

- `results.dfy`: `Option` and `Result`.
- `text.dfy`: the Python string operations the code relies on (`in`, `replace`, `split`, `strip`, `upper`, slicing).
- `seqs.dfy`: distinctness, first-occurrence deduplication and subsequences.
- `number_guard.dfy`: `NumberGuard.normalize_cn_number` and `NumberGuard.extract_financial_numbers`.
- `sources.dfy`: the article records, the whitelist and `resolve_source` of gather_demo.py.
- `strategy.dfy`: the time window and the search fallback of `_multi_strategy_search`.
- `gather.dfy`: the filter, deduplication and cap loop of gather_demo.py's `gather`.
- `env.dfy`: `load_env`.
- `tavily.dfy`: the Tavily variant of `resolve_source`, the full-text rule and its `gather`.
- `analyst.dfy`: `AnalystAgent.cluster_articles`.
- `journalist.dfy`: `JournalistAgent.write_reports`.
- `auditor.dfy`: `AuditorAgent.audit_single_report` and `AuditorAgent.batch_audit`.
- `pipeline.dfy`: the three agents chained as the application runs them.

## Model

| member | source | states |
|---|---|---|
| NumberGuard.Search | auditor_demo.py:56 | `re.search` of `[-+]?\d*\.?\d+`: the match starts at the leftmost position where the pattern matches; no position before it matches; no match means no position matches |
| NumberGuard.NumeralHasDigit | auditor_demo.py:56 | anything the number pattern matches contains a digit |
| NumberGuard.UnitOf | auditor_demo.py:63-72 | the first test that holds picks the scale, each as an iff: trillion iff 万亿 occurs; hundred million iff 亿 occurs without 万亿; ten thousand iff 万 occurs without either; percent iff % occurs without any of those; basis points iff "BP" occurs in the upper-cased text or 基点 occurs, without any of those; no scale iff none of them occurs |
| NumberGuard.NormalizeNoDigit | auditor_demo.py:56-58 | a text with no digit normalizes to 0.0 |
| NumberGuard.NormalizeIgnoresCommas | auditor_demo.py:53 | thousands separators never change the value: a text reads the same as the text with every comma deleted |
| NumberGuard.CommaExample | auditor_demo.py:53-60 | "1,000" and "1000" both read as 1000 |
| NumberGuard.DigitsThenUnit | auditor_demo.py:53-72 | a run of digits followed by a unit suffix reads as the digits' decimal value times the scale of the unit found in the text |
| NumberGuard.TrillionRewrite | auditor_demo.py:60-66 | for every digit string d, "d万亿" and "d0000亿" normalize to the same amount, d × 10^12 |
| NumberGuard.HundredMillionRewrite | auditor_demo.py:60-68 | for every digit string d, "d亿" and "d0000万" normalize to the same amount, d × 10^8 |
| NumberGuard.TenThousandRewrite | auditor_demo.py:60-68 | for every digit string d, "d万" and "d0000" normalize to the same amount, d × 10^4 |
| NumberGuard.TrillionExample | auditor_demo.py:44-66 | the stated goal: "3万亿" and "30000亿" both normalize to 3 × 10^12 |
| NumberGuard.TrillionFractionExample | auditor_demo.py:44-66 | the documented example "3.5万亿" reads its fraction and is 3.5 × 10^12 |
| NumberGuard.PercentOf | auditor_demo.py:69-70 | for every digit string d, "d%" is d × 0.01 |
| NumberGuard.PercentExample | auditor_demo.py:69-70 | "50%" is 0.5 |
| NumberGuard.HalfPercentExample | auditor_demo.py:56-70 | "0.5%" reads its fraction and is 0.005 |
| NumberGuard.BasisPointsOf | auditor_demo.py:71-72 | "bp" is recognised in lower case through upper-casing, so "dbp" is d × 0.0001 |
| NumberGuard.BasisPointExample | auditor_demo.py:71-72 | "100bp" is 0.01 |
| NumberGuard.BasisPointUpperUnit | auditor_demo.py:71-72 | for every digit string d, "dBP" is read with the basis-point scale |
| NumberGuard.BasisPointUpperExample | auditor_demo.py:71-72 | "100BP" is 0.01 |
| NumberGuard.BasisPointWordOf | auditor_demo.py:71-72 | for every digit string d, "d个基点" is d × 0.0001 |
| NumberGuard.BasisPointWordExample | auditor_demo.py:71-72 | "1个基点" is 0.0001 |
| NumberGuard.NoUnitScale | auditor_demo.py:63-74 | a bare digit string has no scale, so its value is returned unscaled |
| NumberGuard.UnitEnd | auditor_demo.py:81 | the optional unit group never stops after 万 when 亿 follows, because the alternative 万亿 is tried first |
| NumberGuard.TokenEnd | auditor_demo.py:81 | a token ends after its first character, and never between 万 and a following 亿 |
| NumberGuard.TokenSpanIsToken | auditor_demo.py:81-82 | each token span starts at a digit inside the text and ends where the token pattern stops |
| NumberGuard.TokenSpansOrdered | auditor_demo.py:81-82 | each token ends no later than the next one starts |
| NumberGuard.TokenSpanAt | auditor_demo.py:81-82 | every `findall` token starts at a digit, ends no later than the next token starts, and keeps 万亿 whole |
| NumberGuard.DigitsCovered | auditor_demo.py:81-82 | every digit of the text lies inside some token |
| NumberGuard.ExtractFinancialNumbersSpec | auditor_demo.py:77-82 | the tokens are the text's substrings at the reported spans, in left-to-right order, do not overlap, start with a digit and together cover every digit |
| Sources.HostSegment | gather_demo.py:77-80 | `url.split("/")[2]` exists exactly when the url holds at least two "/"; that piece holds no "/" and occurs in the url |
| Sources.HostSegmentOf | gather_demo.py:77-78 | in a url written as p0/p1/h followed by nothing or by "/…", with no "/" in p0, p1 or h, the piece taken is exactly h |
| Sources.StripWwwAbsent | gather_demo.py:78 | a host without "www." is kept as it is |
| Sources.StripWwwFirst | gather_demo.py:78 | "www." is removed from the left: the text before the first occurrence is kept, that occurrence is dropped, and the rest is treated the same way |
| Sources.StripWwwPrefix | gather_demo.py:78 | a host written with a leading "www." loses exactly that prefix |
| Sources.FirstTier | gather_demo.py:85-89 | the tier chosen is the first in whitelist order that names a fragment of the domain; no earlier tier matches; no choice means no tier matches |
| Sources.ResolveSource | gather_demo.py:75-97 | the url is kept and the outlet is named by the domain; a source that is not whitelisted has the tier "unknown" |
| Sources.ResolveSourceTiers | gather_demo.py:75-97 | an unsplittable url gives the domain "unknown"; `whitelisted` holds iff some tier matches the domain; a whitelisted source takes the name of the first matching tier |
| Sources.ResolveSourceDomain | gather_demo.py:77-78 | the domain of a url p0/p1/h… is its host piece h with every "www." removed |
| Sources.CentralBankExample | gather_demo.py:34-97 | "https://www.pbc.gov.cn/x" gets the domain "pbc.gov.cn" and is whitelisted in tier1 |
| Sources.WhitelistedIffKnownTier | gather_demo.py:82-89 | when no tier is itself called "unknown", a source is whitelisted iff its tier is not "unknown" |
| Sources.DuckDomainsHaveDot | gather_demo.py:34-45 | every whitelisted fragment contains a "." |
| Sources.UnknownMatchesNoTier | gather_demo.py:79-89 | the fallback domain "unknown" matches no tier |
| Sources.NoHostNeverWhitelisted | gather_demo.py:77-89 | a url with fewer than three "/"-separated pieces gets the domain and tier "unknown" and is never whitelisted |
| Sources.GovCnIsTier1 | gather_demo.py:82-89 | since matching is by fragment, any domain containing "gov.cn" is tier1 and whitelisted |
| Strategy.TimeLimit | gather_demo.py:137-147 | there is no window exactly when days > 365; otherwise the window covers the look-back and is the narrowest of d, w, m, y that does |
| Strategy.TimeLimitMonotone | gather_demo.py:137-147 | looking further back never gives a narrower window |
| Strategy.Plan | gather_demo.py:151-172 | the call order: two windowed attempts only when a window exists, then one unwindowed call for each of the regions wt-wt, us-en and cn-zh, with consecutive call numbers |
| Strategy.FirstHit | gather_demo.py:151-172 | the step chosen is the first in the plan whose call has hits; every earlier step had none; no choice means every step had none |
| Strategy.MultiStrategySearchFollowsPlan | gather_demo.py:130-174 | the search as written equals walking the plan in order and returning the first non-empty result, with the path of the strategies opened so far; if all are empty it returns [] and the full path marked "(失败)" |
| Strategy.FailedSearchIsMarked | gather_demo.py:167-174 | an empty result means every call of the plan came back empty, and the path ends in "(失败)" |
| Gather.AdmitItems | gather_demo.py:229-269 | one query's loop extends what it has already added and never adds more than max(1, max_results) articles, because the cap is checked only after appending |
| Gather.AdmitItemsAdmitted | gather_demo.py:234-263 | every article added has a non-empty url and title, a whitelisted source, the hashed url as id, no full text, and is eligible for events |
| Gather.AdmitItemsDistinct | gather_demo.py:246-248 | a url already gathered, in this query or an earlier one, is never added again |
| Gather.AdmitItemsInOrder | gather_demo.py:229-265 | the added urls are a subsequence of the hit urls: hit order is preserved |
| Gather.HitAdmitted | gather_demo.py:234-263 | a hit with a url, a title and a whitelisted source gives an admitted article |
| Gather.AdmitItemsIsCappedPassing | gather_demo.py:229-269 | the loop adds exactly the articles of the hits that are not passed over, given everything gathered before each, in hit order, cut after the first max(1, max_results) |
| Gather.QueryArticles | gather_demo.py:216-269 | one query adds at most max(1, max_results) articles |
| Gather.QueryArticlesSpec | gather_demo.py:212-269 | one query adds only admitted articles, keeps the urls of everything gathered pairwise distinct, and keeps hit order |
| Gather.QueryArticlesArePassing | gather_demo.py:216-269 | one query adds exactly the first max(1, max_results) articles of its hits that are not passed over |
| Gather.QueryAdmitsFirstPassing | gather_demo.py:229-269 | the first article a query adds is made from its first hit that is not passed over, and there is one as soon as such a hit exists |
| Gather.QueryAdmitsSome | gather_demo.py:265-269 | a query with a hit that is not passed over adds at least one article, even when max_results is 0 or negative, because the cap is checked after adding |
| Gather.GatherFrom | gather_demo.py:212-277 | the queries are processed in order, each appending to the articles so far; all are admitted and no url occurs twice |
| Gather.Gather | gather_demo.py:177-297 | every returned article is admitted and carries the whitelist's resolution of its url, which is whitelisted; urls are pairwise distinct across all queries; at most len(queries) × max(1, max_results) articles in all |
| Gather.GatherNonEmpty | gather_demo.py:212-269 | as soon as any query's hits include one with a url, a title and a whitelisted source, the result is not empty |
| Env.FirstIndex | gather_tavily_demo.py:38 | finds the first occurrence of the separator |
| Env.SplitFirst | gather_tavily_demo.py:38 | `split("=", 1)`: the two parts rebuild the line around the first "=", and the key part has no "=" |
| Env.ParseLine | gather_tavily_demo.py:33-41 | a line is ignored exactly when, once trimmed, it is empty, starts with "#" or has no "=" |
| Env.ParseLineSplit | gather_tavily_demo.py:33-41 | a line that, once trimmed, is k "=" v with no "=" in k and not starting with "#" reads as k trimmed and v trimmed of spaces, then double quotes, then single quotes |
| Env.ParseLineReadsBack | gather_tavily_demo.py:33-41 | `key=value` reads back as that key and value when the key is non-empty, has no "=" and does not start with "#", and neither key nor value has a space or a quote at either end; the value may itself contain "=" |
| Env.QuotedLineReadsBack | gather_tavily_demo.py:33-41 | `key = "value"` reads back as that key and value under the same conditions: the spaces around "=" and the double quotes are dropped |
| Env.FirstValue | gather_tavily_demo.py:32-44 | a name has a value in the file iff some assignment in the file sets it |
| Env.SetDefault | gather_tavily_demo.py:44 | `setdefault`: a name already set keeps its value; otherwise it is set, unless the environment refuses the name or value |
| Env.LoadLinesApplies | gather_tavily_demo.py:31-44 | reading the file applies the assignments of its lines in order |
| Env.ApplySpec | gather_tavily_demo.py:44 | names set before loading keep their values; a new name is set iff the file assigns it, and it takes the first value assigned |
| Env.ApplyFails | gather_tavily_demo.py:44 | loading fails iff some new name's first assignment is one the environment refuses |
| Env.LoadEnvSpec | gather_tavily_demo.py:25-44 | the two statements above for a whole file |
| Tavily.LastMatch | gather_tavily_demo.py:101-106 | the tier found is the last in whitelist order that names a fragment of the domain; no later tier matches |
| Tavily.TierScanIsLast | gather_tavily_demo.py:101-106 | the nested loop, whose `break` leaves only the inner loop, ends with the last matching tier, or the initial values when none matches |
| Tavily.ResolveSource | gather_tavily_demo.py:96-108 | succeeds exactly when the url has at least two "/" (`split("/")[2]` raises otherwise); keeps the url; takes the domain the same way as gather_demo.py; names the outlet by the domain |
| Tavily.ResolveSourceLastTier | gather_tavily_demo.py:96-108 | `whitelisted` holds iff some tier matches; a whitelisted source takes the name of the last matching tier; otherwise the tier is "unknown" |
| Tavily.EditionsDisagree | gather_tavily_demo.py:101-106 | a host containing both "gov.cn" and "cls.cn" is tier1 for gather_demo.py but tier2 here |
| Tavily.FullText | gather_tavily_demo.py:139 | the full text is the extracted body when that is longer than 50 characters, and the item's content otherwise |
| Tavily.MakerOf | gather_tavily_demo.py:126-142 | the conversion of the loop is defined on every well-formed hit and makes the article `ArticleOfSpec` describes |
| Tavily.ArticleOfSpec | gather_tavily_demo.py:127-142 | an article keeps the item's url, title and content; its id is the url's hash; it is eligible; only a whitelisted source has its page extracted; a non-whitelisted one has the snippet as full text |
| Tavily.ItemArticlesSpec | gather_tavily_demo.py:126-146 | there is no filter and no deduplication: each item becomes exactly one article, in order, until the first item missing a key or with an unsplittable url ends that query |
| Tavily.ItemArticlesStop | gather_tavily_demo.py:126-146 | the items of a query stop being converted only at a malformed item |
| Tavily.ItemArticlesAt | gather_tavily_demo.py:126-143 | the article at position k is the conversion of item k, which is well formed |
| Tavily.NoFilterNoDedup | gather_tavily_demo.py:115-143 | when every search succeeds and every item is well formed, there is exactly one article per result item over all queries |
| Tavily.Gather | gather_tavily_demo.py:75-80 | gathering fails exactly when TAVILY_API_KEY is unset or empty |
| Tavily.KeyFromFile | gather_tavily_demo.py:25-80 | a non-empty key assigned in the .env file, with none set before, lets gathering proceed |
| Analyst.PyIndex | analyst_demo.py:95 | Python indexing: a negative index counts from the end |
| Analyst.Kept | analyst_demo.py:95 | the `i < len(articles)` filter keeps only indices below the length |
| Analyst.PickFails | analyst_demo.py:95 | building an event's articles raises exactly when some listed index is below -len(articles) |
| Analyst.PickValues | analyst_demo.py:95 | otherwise the event's articles are the inputs at the kept indices, in listed order, with repeats and negative indices wrapping |
| Analyst.EventOf | analyst_demo.py:95-104 | an item raises iff it has no index list, an index is below -len(articles), or it keeps articles but lacks a title, summary or score; it gives an event iff it does not raise and keeps an article; that event has the given id, the picked articles, the item's title, summary and score, and its category, "general" when it gives none |
| Analyst.BuildEvents | analyst_demo.py:93-104 | a build adds at most one event per remaining item and keeps the events already made, in front |
| Analyst.Making | analyst_demo.py:94-97 | the positions of the items that give an event, increasing, each giving one |
| Analyst.MakingComplete | analyst_demo.py:94-97 | no item that gives an event is missing from those positions |
| Analyst.BuildEventsNone | analyst_demo.py:94-104 | building fails iff some item raises |
| Analyst.BuildEventsCount | analyst_demo.py:94-104 | a successful build has one event per item that gives one |
| Analyst.BuildEventsStep | analyst_demo.py:94-104 | in a successful build each item either appends its event or is passed over |
| Analyst.BuildEventAt | analyst_demo.py:94-104 | event k is the event of the k-th item that gives one, stamped with the clock reading taken when k events existed |
| Analyst.BuildEventAtMade | analyst_demo.py:94-104 | the same, when the item at the start gives an event: it is the first one added and the rest follow |
| Analyst.BuildEventsSpec | analyst_demo.py:93-104 | the answer's items become events in order; any raising item gives nothing; otherwise event k is the event of the k-th item that keeps an article |
| Analyst.EventOfWellMade | analyst_demo.py:95-104 | an event made from an item is well made: it has articles, all drawn from the input, and an id "evt_" plus a clock reading |
| Analyst.BuildEventsWellMade | analyst_demo.py:93-104 | every event built from a response is well made |
| Analyst.Insert | analyst_demo.py:106 | inserting adds exactly the one event |
| Analyst.InsertSorted | analyst_demo.py:106 | inserting into a score-descending list keeps it descending |
| Analyst.InsertStable | analyst_demo.py:106 | inserting puts the new event after the events of equal score already in the list |
| Analyst.SortByScore | analyst_demo.py:106 | the sort is a permutation of its input |
| Analyst.SortByScoreSorted | analyst_demo.py:106 | the sorted list's scores do not increase |
| Analyst.SortByScoreStable | analyst_demo.py:106 | events of equal score keep their input order |
| Analyst.SortByScoreSpec | analyst_demo.py:106 | `sort(key=score, reverse=True)`: scores do not increase, and events of equal score keep their order, as Python's stable sort does |
| Analyst.ClusterArticles | analyst_demo.py:58-59 | no articles give no events |
| Analyst.ClusterArticlesSpec | analyst_demo.py:58-116 | the result is sorted by score, every event is well made, and there are no more events than response items; any exception (a failed model call or decode, or an item that raises) gives [], and so does an answer without "events"; otherwise the result is a stable reordering of the events built |
| Journalist.BodyText | journalist_demo.py:80 | an article contributes its full text, or its snippet when that is empty |
| Journalist.Outlets | journalist_demo.py:88 | the outlet of every article, in order |
| Journalist.Complete | journalist_demo.py:86-90 | a drafted report gets the event's outlets without repeats as `source_refs` and the event's score; the id is copied only in the linked variant; every other field is the model's |
| Journalist.Drafts | journalist_demo.py:75-97 | at most one report per event |
| Journalist.WriteReports | journalist_demo.py:66-99 | no events give no reports; at most one report per event among the first `max_events` |
| Journalist.WriteLinkedReports | journalist_demo.py:84-90 | the corrected version, with the same bounds |
| Journalist.Drafted | journalist_demo.py:75-97 | the positions whose draft succeeded, increasing, each a success |
| Journalist.DraftedComplete | journalist_demo.py:86-97 | no successful draft is missing from those positions |
| Journalist.DraftsCount | journalist_demo.py:75-97 | one report per successful draft |
| Journalist.DraftAt | journalist_demo.py:75-97 | report k is the completed draft of the k-th event whose draft succeeded |
| Journalist.DraftsSpec | journalist_demo.py:75-97 | events are taken in order, and a failing or empty draft drops only its own report |
| Journalist.WriteReportsSpec | journalist_demo.py:66-99 | report k belongs to the k-th successful event among the first `max_events`: its refs are distinct and are exactly that event's outlets, its score is the event's, and its id is whatever the model's answer gave |
| Journalist.DraftsAll | journalist_demo.py:75-97 | when every draft succeeds, each event gives a report |
| Journalist.AllDraftedAllReported | journalist_demo.py:72-97 | when every draft succeeds there are exactly len(events[:max_events]) reports, with Python slicing, so a negative max_events drops that many events from the end |
| Auditor.EvidenceContains | auditor_demo.py:109-115 | anything in one article's text is in the evidence the pre-check searches |
| Auditor.FlagEntities | auditor_demo.py:119-123 | an entity is flagged iff it is in the registry, occurs in the summary and does not occur in the evidence; flags follow registry order |
| Auditor.Warnings | auditor_demo.py:99-123 | one warning per flagged critical entity, in registry order |
| Auditor.NamedEntityNotWarned | auditor_demo.py:119-123 | an entity absent from the summary, or present in some article's text, is never warned about |
| Auditor.WarningNamesEntity | auditor_demo.py:123 | different entities give different warnings |
| Auditor.RequestFor | auditor_demo.py:144-156 | the model sees at most the first 25000 characters of the labelled sources, all of them when shorter, the draft's title and summary, and "实体检查通过。" exactly when there are no warnings |
| Auditor.Get | auditor_demo.py:170-172 | `dict.get` with a default: a missing key gives the default, a `null` gives `None`, a string gives itself |
| Auditor.AuditSingle | auditor_demo.py:158-196 | a result keeps its report and id; a revised summary is present only when the status is FIXED, and then exactly when the model's revision is not `null`; the notes are never empty; a warning means the status is never PASS |
| Auditor.AuditSingleCases | auditor_demo.py:168-196 | an exception gives FLAGGED, "System Error: " notes and no revision; a `null` status gives FLAGGED with the validation error as notes; a PASS (or missing status) with warnings becomes FIXED with notes "实体错误修正: …"; otherwise the model's status is kept and the notes are its detail, or "数据与事实核对一致" when that is empty or `null` |
| Auditor.NullRevisionStaysNone | auditor_demo.py:172-187 | a `null` revision never gives a revised summary, whatever the status; with warnings, a PASS whose revision is `null` becomes FIXED with no revision |
| Auditor.CleanReportPasses | auditor_demo.py:170-186 | with no warnings, a model PASS stays PASS with no revision |
| Auditor.EventMap | auditor_demo.py:205 | the map holds exactly the ids of the events |
| Auditor.EventMapLastWins | auditor_demo.py:205 | with duplicate ids, the map holds the last event of that id |
| Auditor.AuditFrom | auditor_demo.py:207-212 | at most one result per report |
| Auditor.BatchAudit | auditor_demo.py:198-214 | no reports give no results; never more results than reports |
| Auditor.Matched | auditor_demo.py:207-209 | the positions of the reports whose id is in the map, increasing |
| Auditor.MatchedComplete | auditor_demo.py:207-209 | no report with a known id is missing from those positions |
| Auditor.AuditFromSpec | auditor_demo.py:207-212 | result k is the audit of the k-th matched report against its mapped event |
| Auditor.BatchAuditSpec | auditor_demo.py:198-214 | unmatched reports are skipped; results are in report order; each keeps its report and id and is the single audit against the mapped event |
| Auditor.NoMatchNoAudit | auditor_demo.py:207-209 | when no id is in the map, nothing is audited |
| Auditor.MatchedBatchKeepsReports | auditor_demo.py:198-214 | when every report's id is in the map, there is one result per report, in order, each keeping its report and id |
| Auditor.AllMatchAllAudited | auditor_demo.py:207-212 | when every id is in the map, every report is audited, in order |
| Pipeline.UnlinkedReportsKeepDefaultId | journalist_demo.py:84-90 | when the model's answers carry no id, every report written keeps the default id "" |
| Pipeline.ClusteredIdsAreNotDefault | analyst_demo.py:98 | clustered events have ids "evt_…", never "" |
| Pipeline.UnlinkedReportsAreNeverAudited | auditor_demo.py:205-209 | as written, reports on events with non-empty ids are never audited |
| Pipeline.PipelineAuditsNothing | auditor_demo.py:198-214 | the chain cluster, write, audit as written returns no audit results at all when the writing model's answers carry no event_id |
| Pipeline.OneReportNoAudit | journalist_demo.py:84-90 | one event "evt_1" and a model that always drafts give one report and an empty audit |
| Pipeline.LinkedReportIds | journalist_demo.py:84-90 | with the fix, every report carries the id of the event it was written from |
| Pipeline.LinkedReportsAreAllAudited | auditor_demo.py:198-214 | with the fix, every report is audited, in order, each result keeping its report and id |
| Pipeline.LinkedReportSources | auditor_demo.py:205-208 | with distinct event ids, the map sends each linked report to its own event |
| Pipeline.LinkedReportsAuditedAgainstOwnEvent | auditor_demo.py:205-212 | with the fix and distinct event ids, each report is audited against the event it was written from |

## Left out

- Network and foreign calls are parameters. These cover the DuckDuckGo and Tavily searches, `extract_body`, the md5 hash, `datetime.now()`, and the DeepSeek and LangChain calls. Their sleeps, retries with random backoff, and search arguments are left out (`fetch_count`, `search_depth`, `topic`, and the `max_results` handed to Tavily). A failed DuckDuckGo search is an empty result, as `_search_ddgs` returns [] on an exception.
- Prompt wording is not modelled. The analyst prompt is modelled as text. The journalist and auditor prompts are modelled by what they carry: the context and guideline, or the `Request` record. The models' JSON answers are decoded values, and a missing key is `None`.
- Pydantic validation is not modelled beyond the `null` status of an audit, whose message is modelled by its first lines only. JSON values of an unexpected type (a number where a string is expected, say) and `bool` indices are not modelled. A response with no `"events"` key behaves like one with an empty list. A score is a `real`, and NaN is not modelled.
- Console output is not modelled (`_log`, `console.print`, the dashboards, `_print_realtime_card`, the statistics in `gather`). Neither is the JSON file `gather` may save.
- Reading `.env` from disk is not modelled: the file is a sequence of lines, or `None` when it is missing. Lines are assumed already split as Python's line iteration splits them.
- frontend.py, server.py, main.py and duck_debug.py are not part of this model. The whitelist is a parameter of `Gather.Gather`, so duck_debug.py's smaller whitelist is an instance of it.
- NumberGuard.Search: `\d` is modelled as the ASCII digits 0-9, not every Unicode decimal digit Python's `re` accepts.
- NumberGuard.TokenEnd, NumberGuard.TokenSpans, NumberGuard.ExtractFinancialNumbers and NumberGuard.DigitsCovered: the same ASCII reading of `\d` governs the `findall` tokens, so a number written in other decimal digits (full-width "１２３亿", say) gives no token in the model, while Python finds one.
- NumberGuard.UnitOf: `upper()` is modelled on ASCII letters only. Other characters are left as they are when looking for "BP".
- NumberGuard.ExtractFinancialNumbersSpec: the tokens are not proved to be the longest possible matches, only substrings that start at a digit, do not overlap, cover every digit and keep 万亿 whole.
- Analyst.EventOf: a JSON `null` category is read like a missing one, giving "general"; Python passes `None` to `Event`, whose validation raises, so the whole clustering returns []. An item's fields are decoded as present or absent only.
- Journalist.Complete: `list(set(...))` orders outlets in Python's set order, which is unspecified. The model keeps them in first-occurrence order and states only that they are distinct and are exactly the event's outlets.
- Journalist.Complete: `impact_score` is declared `int` but assigned the event's float score without validation. The model keeps the real score.
- Auditor.RequestFor: the 25000-character cut is on code points, like Python's slice. The exact prompt around it is not modelled.
- Arithmetic is exact `real` arithmetic, not binary floating point. `float()` of a numeral is its exact decimal value.

## Findings

| source | as written | input that shows it | evidently intended | confidence | as-written member | corrected member |
|---|---|---|---|---|---|---|
| journalist_demo.py:84-90 | A completed report gets `source_refs` and `impact_score` from its event but never `event_id`. The field stays at its default "" (journalist_demo.py:36), and the requested answer format has no id. Analyst ids are "evt_…" (analyst_demo.py:98), so `batch_audit` finds no event for any report and audits nothing (auditor_demo.py:205-209). | One event with id "evt_1" and a writing model that returns a report without an id: `write_reports` gives one report, and `batch_audit` of it against that event gives []. | `report.event_id = event.event_id` alongside the other completed fields, so that every report is audited against its own event. | not executed | Pipeline.OneReportNoAudit | Pipeline.LinkedReportsAreAllAudited |

`Journalist.WriteReports`, `Pipeline.UnlinkedReportsAreNeverAudited` and `Pipeline.PipelineAuditsNothing` model the code as written. `Journalist.WriteLinkedReports` is the corrected writer. `Pipeline.LinkedReportsAuditedAgainstOwnEvent` shows that, with distinct event ids, each linked report is audited against its own event.

Two parts of the source disagree, and the model follows the code in both:

- The two `resolve_source` functions disagree. gather_demo.py takes the first matching tier; gather_tavily_demo.py's `break` leaves only the inner loop, so it takes the last. `Tavily.EditionsDisagree` exhibits a host on which they differ.
- `normalize_cn_number`'s documented examples include "3.5万亿", which the model reads as 3.5 × 10^12. However, any text containing 万亿 anywhere is scaled by 10^12, even when the number found first belongs to another unit: the unit is looked up in the whole text, not after the number. This is not listed as a finding.

=== FILE: analyst.dfy ===
/**
 * `AnalystAgent.cluster_articles` of analyst_demo.py: the clustering model
 * groups the article titles into events; its answer is turned into `Event`
 * records, events without articles are dropped, and the rest are sorted by
 * score, highest first, keeping the answer's order among equal scores.
 */
module Analyst {
  import opened Results
  import opened Text
  import opened Sources

  /** `Event`: a cluster of articles with a title, a summary and an importance score. */
  datatype Event = Event(
    eventId: string,
    mainTitle: string,
    summary: string,
    score: real,
    articles: seq<RawArticle>,
    primaryCategory: string)

  /** One element of the answer's "events" list; a key the answer lacks is `None`. */
  datatype ClusterItem = ClusterItem(
    articleIndices: Option<seq<int>>,
    mainTitle: Option<string>,
    summary: Option<string>,
    score: Option<real>,
    category: Option<string>)

  /**
   * The clustering model, given the prompt listing the titles: `Err` when
   * the call or the JSON decoding fails, `Ok(None)` when the answer has no
   * "events" key, otherwise the listed items.
   */
  type Responder = string -> Result<Option<seq<ClusterItem>>>

  /** The text of the clock when the `k`-th event is made (`datetime.now().timestamp()`). */
  type Clock = nat -> string

  const EventPrefix: string := "evt_"
  const DefaultCategory: string := "general"

  /** The line of the prompt for the `i`-th article: "ID:i Title:title". */
  function PromptLine(i: nat, a: RawArticle): string {
    "ID:" + NatToString(i) + " Title:" + a.title
  }

  /** The prompt: one line per article, in order. */
  function Prompt(articles: seq<RawArticle>): string {
    JoinWith(seq(|articles|, i requires 0 <= i < |articles| => PromptLine(i, articles[i])), "\n")
  }

  /** Python's `articles[i]` for `-n <= i < n`: a negative index counts from the end. */
  function PyIndex(i: int, n: nat): (k: nat)
    requires -(n as int) <= i < n
    ensures k < n && (i >= 0 ==> k == i) && (i < 0 ==> k == n + i)
  {
    if i >= 0 then i else n + i
  }

  /** The listed indices that pass the `i < len(articles)` test, in order. */
  function Kept(idx: seq<int>, n: nat): (r: seq<int>)
    ensures |r| <= |idx|
    ensures forall k :: 0 <= k < |r| ==> r[k] < n
    decreases |idx|
  {
    if |idx| == 0 then []
    else (if idx[0] < n then [idx[0]] else []) + Kept(idx[1..], n)
  }

  /**
   * `[articles[i] for i in indices if i < len(articles)]`: `None` when some
   * kept index is below `-len`, which raises `IndexError`.
   */
  function Pick(articles: seq<RawArticle>, idx: seq<int>): (r: Option<seq<RawArticle>>)
    decreases |idx|
  {
    if |idx| == 0 then Some([])
    else
      var i := idx[0];
      var rest := Pick(articles, idx[1..]);
      if i >= |articles| then rest
      else if i < -|articles| then None
      else match rest
        case None => None
        case Some(tail) => Some([articles[PyIndex(i, |articles|)]] + tail)
  }

  /** Picking fails exactly when a kept index is below `-len`. */
  lemma {:induction false} PickFails(articles: seq<RawArticle>, idx: seq<int>)
    ensures Pick(articles, idx).None? <==> exists k :: 0 <= k < |idx| && idx[k] < -|articles|
    decreases |idx|
  {
    if |idx| > 0 {
      PickFails(articles, idx[1..]);
      assert forall k :: 1 <= k < |idx| ==> idx[k] == idx[1..][k - 1];
    }
  }

  /**
   * When picking succeeds, the picked articles are the articles at the kept
   * indices, in the listed order and with repeats.
   */
  lemma {:induction false} PickValues(articles: seq<RawArticle>, idx: seq<int>)
    requires Pick(articles, idx).Some?
    ensures var kept := Kept(idx, |articles|);
      var rel := Pick(articles, idx).value;
      && |rel| == |kept|
      && forall k :: 0 <= k < |rel| ==> -|articles| <= kept[k] && rel[k] == articles[PyIndex(kept[k], |articles|)]
    decreases |idx|
  {
    if |idx| > 0 {
      var n := |articles|;
      PickValues(articles, idx[1..]);
      var kept := Kept(idx, n);
      var keptRest := Kept(idx[1..], n);
      if idx[0] < n {
        assert kept == [idx[0]] + keptRest;
        var rel := Pick(articles, idx).value;
        var tail := Pick(articles, idx[1..]).value;
        assert rel == [articles[PyIndex(idx[0], n)]] + tail;
        forall k | 1 <= k < |rel|
          ensures -n <= kept[k] && rel[k] == articles[PyIndex(kept[k], n)]
        {
          assert kept[k] == keptRest[k - 1];
          assert rel[k] == tail[k - 1];
        }
      } else {
        assert kept == keptRest;
      }
    }
  }

  /**
   * Whether turning an item into an event raises: no index list, an index
   * below `-len`, or, once it has articles, no title, summary or score.
   */
  predicate Raises(articles: seq<RawArticle>, item: ClusterItem) {
    || item.articleIndices.None?
    || Pick(articles, item.articleIndices.value).None?
    || (|Pick(articles, item.articleIndices.value).value| > 0
        && (item.mainTitle.None? || item.summary.None? || item.score.None?))
  }

  /** Whether an item gives an event: it does not raise and keeps at least one article. */
  predicate Makes(articles: seq<RawArticle>, item: ClusterItem) {
    !Raises(articles, item) && |Pick(articles, item.articleIndices.value).value| > 0
  }

  /**
   * One item of the answer becomes an event: `Err` when it raises,
   * `Ok(None)` when none of its indices is kept, and otherwise the event
   * with the picked articles and the item's title, summary and score.
   */
  function EventOf(articles: seq<RawArticle>, item: ClusterItem, id: string): (r: Result<Option<Event>>)
    ensures r.Err? <==> Raises(articles, item)
    ensures r.Ok? && r.value.Some? <==> Makes(articles, item)
    ensures r.Ok? && r.value.Some? ==>
      var e := r.value.value;
      && e.eventId == id
      && e.articles == Pick(articles, item.articleIndices.value).value && |e.articles| > 0
      && e.mainTitle == item.mainTitle.value && e.summary == item.summary.value && e.score == item.score.value
      && e.primaryCategory == item.category.GetOr(DefaultCategory)
  {
    match item.articleIndices
    case None => Err("KeyError: 'article_indices'")
    case Some(idx) =>
      match Pick(articles, idx)
      case None => Err("IndexError: list index out of range")
      case Some(rel) =>
        if |rel| == 0 then Ok(None)
        else if item.mainTitle.None? || item.summary.None? || item.score.None? then Err("KeyError")
        else Ok(Some(Event(id, item.mainTitle.value, item.summary.value, item.score.value, rel,
                           item.category.GetOr(DefaultCategory))))
  }

  /** The items from `i` on, appended to the events made so far; `None` as soon as one raises. */
  function BuildEvents(articles: seq<RawArticle>, items: seq<ClusterItem>, i: nat, made: seq<Event>, clock: Clock): (r: Option<seq<Event>>)
    requires i <= |items|
    ensures r.Some? ==> |made| <= |r.value| <= |made| + (|items| - i) && r.value[..|made|] == made
    decreases |items| - i
  {
    if i == |items| then Some(made)
    else match EventOf(articles, items[i], EventPrefix + clock(|made|))
      case Err(_) => None
      case Ok(None) => BuildEvents(articles, items, i + 1, made, clock)
      case Ok(Some(e)) =>
        var r := BuildEvents(articles, items, i + 1, made + [e], clock);
        assert r.Some? ==> r.value[..|made|] == r.value[..|made| + 1][..|made|];
        r
  }

  /** The positions from `i` on of the items that give an event. */
  function Making(articles: seq<RawArticle>, items: seq<ClusterItem>, i: nat): (o: seq<nat>)
    requires i <= |items|
    ensures forall k :: 0 <= k < |o| ==> i <= o[k] < |items| && Makes(articles, items[o[k]])
    ensures forall k, l :: 0 <= k < l < |o| ==> o[k] < o[l]
    decreases |items| - i
  {
    if i == |items| then []
    else
      var rest := Making(articles, items, i + 1);
      if Makes(articles, items[i]) then [i] + rest else rest
  }

  /** No item that gives an event is left out. */
  lemma {:induction false} MakingComplete(articles: seq<RawArticle>, items: seq<ClusterItem>, i: nat)
    requires i <= |items|
    ensures forall j :: i <= j < |items| && Makes(articles, items[j]) ==> j in Making(articles, items, i)
    decreases |items| - i
  {
    if i < |items| {
      MakingComplete(articles, items, i + 1);
    }
  }

  /** Building fails exactly when some item from `i` on raises. */
  lemma {:induction false} BuildEventsNone(articles: seq<RawArticle>, items: seq<ClusterItem>, i: nat, made: seq<Event>, clock: Clock)
    requires i <= |items|
    ensures BuildEvents(articles, items, i, made, clock).None? <==> exists j :: i <= j < |items| && Raises(articles, items[j])
    decreases |items| - i
  {
    if i < |items| {
      var r := EventOf(articles, items[i], EventPrefix + clock(|made|));
      if r.Ok? {
        var made' := if r.value.Some? then made + [r.value.value] else made;
        BuildEventsNone(articles, items, i + 1, made', clock);
      }
    }
  }

  /** A successful build adds one event per item that gives one. */
  lemma {:induction false} BuildEventsCount(articles: seq<RawArticle>, items: seq<ClusterItem>, i: nat, made: seq<Event>, clock: Clock)
    requires i <= |items|
    requires BuildEvents(articles, items, i, made, clock).Some?
    ensures |BuildEvents(articles, items, i, made, clock).value| == |made| + |Making(articles, items, i)|
    decreases |items| - i
  {
    if i < |items| {
      var r := EventOf(articles, items[i], EventPrefix + clock(|made|));
      if r.value.Some? {
        BuildEventsCount(articles, items, i + 1, made + [r.value.value], clock);
      } else {
        BuildEventsCount(articles, items, i + 1, made, clock);
      }
    }
  }

  /** One step of a successful build: the item at `i` either adds its event or is passed over. */
  lemma BuildEventsStep(articles: seq<RawArticle>, items: seq<ClusterItem>, i: nat, made: seq<Event>, clock: Clock)
    requires i < |items|
    requires BuildEvents(articles, items, i, made, clock).Some?
    ensures var e := EventOf(articles, items[i], EventPrefix + clock(|made|));
      && e.Ok?
      && (e.value.Some? ==>
            && BuildEvents(articles, items, i, made, clock) == BuildEvents(articles, items, i + 1, made + [e.value.value], clock)
            && Making(articles, items, i) == [i] + Making(articles, items, i + 1))
      && (e.value.None? ==>
            && BuildEvents(articles, items, i, made, clock) == BuildEvents(articles, items, i + 1, made, clock)
            && Making(articles, items, i) == Making(articles, items, i + 1))
  {
  }

  /** An event appended to those made so far stays where it was put. */
  lemma AddedEventKept(r: seq<Event>, made: seq<Event>, e: Event)
    requires |made| + 1 <= |r| && r[..|made| + 1] == made + [e]
    ensures r[|made|] == e
  {
    assert r[|made|] == r[..|made| + 1][|made|];
  }

  /**
   * The event after the `k` added before it is the event of the `k`-th item
   * that gives one, with the clock read when `|made| + k` events exist.
   */
  lemma {:induction false} BuildEventAt(articles: seq<RawArticle>, items: seq<ClusterItem>, i: nat, made: seq<Event>, clock: Clock, k: nat)
    requires i <= |items|
    requires BuildEvents(articles, items, i, made, clock).Some?
    requires k < |Making(articles, items, i)|
    ensures var r := BuildEvents(articles, items, i, made, clock).value;
      var j := Making(articles, items, i)[k];
      |made| + k < |r| && r[|made| + k] == EventOf(articles, items[j], EventPrefix + clock(|made| + k)).value.value
    decreases |items| - i, 1
  {
    BuildEventsStep(articles, items, i, made, clock);
    if EventOf(articles, items[i], EventPrefix + clock(|made|)).value.Some? {
      BuildEventAtMade(articles, items, i, made, clock, k);
    } else {
      BuildEventAt(articles, items, i + 1, made, clock, k);
    }
  }

  /** `BuildEventAt` when the item at `i` gives an event. */
  lemma {:induction false} BuildEventAtMade(articles: seq<RawArticle>, items: seq<ClusterItem>, i: nat, made: seq<Event>, clock: Clock, k: nat)
    requires i < |items|
    requires BuildEvents(articles, items, i, made, clock).Some?
    requires k < |Making(articles, items, i)|
    requires EventOf(articles, items[i], EventPrefix + clock(|made|)).Ok?
    requires EventOf(articles, items[i], EventPrefix + clock(|made|)).value.Some?
    ensures var r := BuildEvents(articles, items, i, made, clock).value;
      var j := Making(articles, items, i)[k];
      |made| + k < |r| && r[|made| + k] == EventOf(articles, items[j], EventPrefix + clock(|made| + k)).value.value
    decreases |items| - i, 0
  {
    BuildEventsStep(articles, items, i, made, clock);
    var e := EventOf(articles, items[i], EventPrefix + clock(|made|)).value.value;
    var made' := made + [e];
    BuildEventsCount(articles, items, i + 1, made', clock);
    if k > 0 {
      BuildEventAt(articles, items, i + 1, made', clock, k - 1);
      assert Making(articles, items, i)[k] == Making(articles, items, i + 1)[k - 1];
    } else {
      AddedEventKept(BuildEvents(articles, items, i + 1, made', clock).value, made, e);
    }
  }

  /**
   * The answer's items become events in order: nothing when any item
   * raises; otherwise event `k` is the event of the `k`-th item that keeps
   * an article, stamped with the clock's `k`-th reading.
   */
  lemma BuildEventsSpec(articles: seq<RawArticle>, items: seq<ClusterItem>, clock: Clock)
    ensures BuildEvents(articles, items, 0, [], clock).None? <==> exists j :: 0 <= j < |items| && Raises(articles, items[j])
    ensures BuildEvents(articles, items, 0, [], clock).Some? ==>
      var r := BuildEvents(articles, items, 0, [], clock).value;
      var o := Making(articles, items, 0);
      && |r| == |o|
      && (forall j :: 0 <= j < |items| && Makes(articles, items[j]) ==> j in o)
      && forall k :: 0 <= k < |r| ==> r[k] == EventOf(articles, items[o[k]], EventPrefix + clock(k)).value.value
  {
    BuildEventsNone(articles, items, 0, [], clock);
    MakingComplete(articles, items, 0);
    if BuildEvents(articles, items, 0, [], clock).Some? {
      BuildEventsCount(articles, items, 0, [], clock);
      var r := BuildEvents(articles, items, 0, [], clock).value;
      forall k | 0 <= k < |r|
        ensures r[k] == EventOf(articles, items[Making(articles, items, 0)[k]], EventPrefix + clock(k)).value.value
      {
        BuildEventAt(articles, items, 0, [], clock, k);
      }
    }
  }

  /** Every event made has articles, all drawn from the input, and an id "evt_" followed by the clock. */
  ghost predicate WellMade(articles: seq<RawArticle>, e: Event, clock: Clock) {
    && |e.articles| > 0
    && (forall k :: 0 <= k < |e.articles| ==> e.articles[k] in articles)
    && (exists n :: e.eventId == EventPrefix + clock(n))
  }

  lemma EventOfWellMade(articles: seq<RawArticle>, item: ClusterItem, n: nat, clock: Clock)
    requires EventOf(articles, item, EventPrefix + clock(n)).Ok?
    requires EventOf(articles, item, EventPrefix + clock(n)).value.Some?
    ensures WellMade(articles, EventOf(articles, item, EventPrefix + clock(n)).value.value, clock)
  {
    PickValues(articles, item.articleIndices.value);
  }

  lemma {:induction false} BuildEventsWellMade(articles: seq<RawArticle>, items: seq<ClusterItem>, i: nat, made: seq<Event>, clock: Clock)
    requires i <= |items|
    requires forall k :: 0 <= k < |made| ==> WellMade(articles, made[k], clock)
    requires BuildEvents(articles, items, i, made, clock).Some?
    ensures var r := BuildEvents(articles, items, i, made, clock).value;
      forall k :: 0 <= k < |r| ==> WellMade(articles, r[k], clock)
    decreases |items| - i
  {
    if i < |items| {
      var id := EventPrefix + clock(|made|);
      match EventOf(articles, items[i], id)
      case Err(_) =>
      case Ok(None) =>
        BuildEventsWellMade(articles, items, i + 1, made, clock);
      case Ok(Some(e)) =>
        EventOfWellMade(articles, items[i], |made|, clock);
        BuildEventsWellMade(articles, items, i + 1, made + [e], clock);
    }
  }

  // ---------------------------------------------------------------------------
  // `events.sort(key=lambda x: x.score, reverse=True)`
  // ---------------------------------------------------------------------------

  /** Scores never increase along the list. */
  predicate SortedByScore(s: seq<Event>) {
    forall i, j :: 0 <= i < j < |s| ==> s[i].score >= s[j].score
  }

  /** The events of score `v`, in their order. */
  function WithScore(s: seq<Event>, v: real): seq<Event>
    decreases |s|
  {
    if |s| == 0 then []
    else (if s[0].score == v then [s[0]] else []) + WithScore(s[1..], v)
  }

  lemma {:induction false} WithScoreAppend(a: seq<Event>, b: seq<Event>, v: real)
    ensures WithScore(a + b, v) == WithScore(a, v) + WithScore(b, v)
    decreases |a|
  {
    if |a| > 0 {
      assert (a + b)[1..] == a[1..] + b;
      WithScoreAppend(a[1..], b, v);
    } else {
      assert a + b == b;
    }
  }

  /** `x` placed after every leading event that scores at least as high. */
  function Insert(x: Event, s: seq<Event>): (r: seq<Event>)
    ensures multiset(r) == multiset(s) + multiset{x}
    ensures |r| == |s| + 1
    decreases |s|
  {
    if |s| == 0 || s[0].score < x.score then [x] + s
    else
      assert s == [s[0]] + s[1..];
      [s[0]] + Insert(x, s[1..])
  }

  lemma {:induction false} InsertSorted(x: Event, s: seq<Event>)
    requires SortedByScore(s)
    ensures SortedByScore(Insert(x, s))
    ensures forall k :: 0 <= k < |Insert(x, s)| ==> Insert(x, s)[k] == x || Insert(x, s)[k] in s
    decreases |s|
  {
    if |s| > 0 && s[0].score >= x.score {
      InsertSorted(x, s[1..]);
      var r := Insert(x, s);
      assert r == [s[0]] + Insert(x, s[1..]);
      forall k | 1 <= k < |r|
        ensures r[k].score <= s[0].score
      {
        assert r[k] == x || r[k] in s[1..];
      }
    }
  }

  lemma WithScoreSingle(x: Event, v: real)
    ensures WithScore([x], v) == if x.score == v then [x] else []
  {
    assert WithScore([x], v) == (if x.score == v then [x] else []) + WithScore([], v);
  }

  /** An event scoring above a sorted list goes in front of it. */
  lemma InsertFrontStable(x: Event, s: seq<Event>, v: real)
    requires SortedByScore(s)
    requires |s| == 0 || s[0].score < x.score
    ensures WithScore(Insert(x, s), v) == WithScore(s, v) + WithScore([x], v)
  {
    assert Insert(x, s) == [x] + s;
    WithScoreAppend([x], s, v);
    WithScoreSingle(x, v);
    if x.score == v {
      assert forall k :: 0 <= k < |s| ==> s[k].score <= s[0].score < v;
      NoneWithScore(s, v);
    }
  }

  /**
   * Inserting into a sorted list puts `x` after the events with its score,
   * so for every score the events with it keep their order.
   */
  lemma {:induction false} InsertStable(x: Event, s: seq<Event>, v: real)
    requires SortedByScore(s)
    ensures WithScore(Insert(x, s), v) == WithScore(s, v) + WithScore([x], v)
    decreases |s|
  {
    if |s| == 0 || s[0].score < x.score {
      InsertFrontStable(x, s, v);
    } else {
      var tail := s[1..];
      SortedTail(s);
      InsertStable(x, tail, v);
      assert Insert(x, s) == [s[0]] + Insert(x, tail);
      WithScoreAppend([s[0]], Insert(x, tail), v);
      WithScoreAppend([s[0]], tail, v);
      assert [s[0]] + tail == s;
    }
  }

  /** The events of score `v` in `s` are those before its last element, then possibly the last. */
  lemma WithScoreLast(s: seq<Event>, v: real)
    requires |s| > 0
    ensures WithScore(s, v) == WithScore(s[..|s| - 1], v) + WithScore([s[|s| - 1]], v)
  {
    WithScoreAppend(s[..|s| - 1], [s[|s| - 1]], v);
    assert s[..|s| - 1] + [s[|s| - 1]] == s;
  }

  /** The tail of a sorted list is sorted. */
  lemma SortedTail(s: seq<Event>)
    requires |s| > 0 && SortedByScore(s)
    ensures SortedByScore(s[1..])
  {
    forall i, j | 0 <= i < j < |s| - 1
      ensures s[1..][i].score >= s[1..][j].score
    {
      assert s[1..][i] == s[i + 1] && s[1..][j] == s[j + 1];
    }
  }

  lemma {:induction false} NoneWithScore(s: seq<Event>, v: real)
    requires forall k :: 0 <= k < |s| ==> s[k].score != v
    ensures WithScore(s, v) == []
    decreases |s|
  {
    if |s| > 0 {
      NoneWithScore(s[1..], v);
    }
  }

  /** The stable sort, by insertion from the front of the list. */
  function SortByScore(s: seq<Event>): (r: seq<Event>)
    ensures multiset(r) == multiset(s) && |r| == |s|
    decreases |s|
  {
    if |s| == 0 then []
    else
      assert s == s[..|s| - 1] + [s[|s| - 1]];
      Insert(s[|s| - 1], SortByScore(s[..|s| - 1]))
  }

  /**
   * The sort orders by score, highest first, and is stable: for every
   * score, the events with that score keep their order. These two facts
   * determine the result.
   */
  lemma SortByScoreSpec(s: seq<Event>)
    ensures SortedByScore(SortByScore(s))
    ensures forall v :: WithScore(SortByScore(s), v) == WithScore(s, v)
  {
    SortByScoreSorted(s);
    forall v
      ensures WithScore(SortByScore(s), v) == WithScore(s, v)
    {
      SortByScoreStable(s, v);
    }
  }

  /** The sort orders by score, highest first. */
  lemma {:induction false} SortByScoreSorted(s: seq<Event>)
    ensures SortedByScore(SortByScore(s))
    decreases |s|
  {
    if |s| > 0 {
      var init := s[..|s| - 1];
      SortByScoreSorted(init);
      InsertSorted(s[|s| - 1], SortByScore(init));
    }
  }

  /** The events of score `v` leave the sort in the order they came in. */
  lemma {:induction false} SortByScoreStable(s: seq<Event>, v: real)
    ensures WithScore(SortByScore(s), v) == WithScore(s, v)
    decreases |s|
  {
    if |s| > 0 {
      var init := s[..|s| - 1];
      var x := s[|s| - 1];
      assert SortByScore(s) == Insert(x, SortByScore(init));
      SortByScoreSorted(init);
      SortByScoreStable(init, v);
      InsertStable(x, SortByScore(init), v);
      WithScoreLast(s, v);
    }
  }

  /**
   * `cluster_articles`: no articles, a failed call, an answer without
   * events or any item that raises give no events at all; otherwise the
   * events made from the items that kept an article, sorted by score.
   */
  function ClusterArticles(articles: seq<RawArticle>, respond: Responder, clock: Clock): (r: seq<Event>)
    ensures |articles| == 0 ==> r == []
  {
    if |articles| == 0 then []
    else match respond(Prompt(articles))
      case Err(_) => []
      case Ok(None) => []
      case Ok(Some(items)) =>
        match BuildEvents(articles, items, 0, [], clock)
        case None => []
        case Some(events) => SortByScore(events)
  }

  /**
   * What clustering returns: no more events than answer items; each with
   * articles drawn from the input and an "evt_" id; highest score first,
   * equal scores in answer order; and nothing when the call or its
   * decoding fails, when the answer has no "events", or when any item raises.
   */
  lemma ClusterArticlesSpec(articles: seq<RawArticle>, respond: Responder, clock: Clock)
    ensures ClusterArticles(articles, respond, clock) != [] ==>
      && |articles| > 0 && respond(Prompt(articles)).Ok? && respond(Prompt(articles)).value.Some?
      && BuildEvents(articles, respond(Prompt(articles)).value.value, 0, [], clock).Some?
    ensures var r := ClusterArticles(articles, respond, clock);
      && SortedByScore(r)
      && (forall k :: 0 <= k < |r| ==> WellMade(articles, r[k], clock))
      && (respond(Prompt(articles)).Ok? && respond(Prompt(articles)).value.Some? ==>
            |r| <= |respond(Prompt(articles)).value.value|)
    ensures |articles| > 0 && respond(Prompt(articles)).Ok? && respond(Prompt(articles)).value.Some? ==>
      var items := respond(Prompt(articles)).value.value;
      match BuildEvents(articles, items, 0, [], clock)
      case None => ClusterArticles(articles, respond, clock) == []
      case Some(events) =>
        multiset(ClusterArticles(articles, respond, clock)) == multiset(events)
        && forall v :: WithScore(ClusterArticles(articles, respond, clock), v) == WithScore(events, v)
  {
    if |articles| > 0 && respond(Prompt(articles)).Ok? && respond(Prompt(articles)).value.Some? {
      var items := respond(Prompt(articles)).value.value;
      match BuildEvents(articles, items, 0, [], clock)
      case None =>
      case Some(events) =>
        SortByScoreSpec(events);
        BuildEventsWellMade(articles, items, 0, [], clock);
        var r := SortByScore(events);
        forall k | 0 <= k < |r|
          ensures WellMade(articles, r[k], clock)
        {
          assert r[k] in multiset(events);
        }
    }
  }
}

=== FILE: auditor.dfy ===
/**
 * `AuditorAgent` of auditor_demo.py: each report is checked against the
 * texts of the articles of its event. A fixed list of institutions is
 * looked for in the summary and in the sources; a language model gives a
 * verdict, which the pre-check can override.
 */
module Auditor {
  import opened Results
  import opened Text
  import opened Seqs
  import opened Sources
  import opened Analyst
  import opened Journalist

  /** `AuditResult`: the status is "PASS", "FIXED", "FLAGGED" or whatever the model answered. */
  datatype AuditResult = AuditResult(
    eventId: string,
    originalReport: NewsReport,
    status: string,
    correctionNotes: string,
    revisedSummary: Option<string>)

  const Pass: string := "PASS"
  const Fixed: string := "FIXED"
  const Flagged: string := "FLAGGED"

  /** The institutions a summary must not name unless a source does. */
  const CriticalEntities: seq<string> := ["中国人民银行", "财政部", "证监会", "国务院", "美联储"]

  /** How many characters of the sources the model is shown. */
  const TruthLimit: nat := 25000

  const ConsistentNote: string := "数据与事实核对一致"
  const EntityFixPrefix: string := "实体错误修正: "
  const PrecheckPassed: string := "实体检查通过。"
  const ErrorPrefix: string := "System Error: "
  const Separator: string := "; "

  /** One source as the model sees it: "【来源: outlet】 text" and a line break. */
  function SourceLine(a: RawArticle): string {
    "【来源: " + a.source.outletName + "】 " + BodyText(a) + "\n"
  }

  /** The labelled sources, in article order. */
  function TruthText(articles: seq<RawArticle>): string
    decreases |articles|
  {
    if |articles| == 0 then "" else SourceLine(articles[0]) + TruthText(articles[1..])
  }

  /** The evidence the entities are looked up in: the article texts run together. */
  function Evidence(articles: seq<RawArticle>): string
    decreases |articles|
  {
    if |articles| == 0 then "" else BodyText(articles[0]) + Evidence(articles[1..])
  }

  /** Whatever one article's text names, the evidence names too. */
  lemma {:induction false} EvidenceContains(articles: seq<RawArticle>, k: nat, x: string)
    requires k < |articles| && Contains(BodyText(articles[k]), x)
    ensures Contains(Evidence(articles), x)
    decreases k
  {
    if k == 0 {
      ContainsInPrefix(BodyText(articles[0]), Evidence(articles[1..]), x);
    } else {
      EvidenceContains(articles[1..], k - 1, x);
      ContainsInSuffix(BodyText(articles[0]), Evidence(articles[1..]), x);
    }
  }

  /** The entities of the list that the summary names and the evidence does not, in list order. */
  function FlagEntities(entities: seq<string>, summary: string, evidence: string): (r: seq<string>)
    ensures forall x :: x in r <==> x in entities && Contains(summary, x) && !Contains(evidence, x)
    ensures IsSubsequence(r, entities)
    decreases |entities|
  {
    if |entities| == 0 then []
    else
      var x := entities[0];
      var rest := FlagEntities(entities[1..], summary, evidence);
      assert forall y :: y in entities <==> y == x || y in entities[1..];
      if Contains(summary, x) && !Contains(evidence, x) then
        SubsequenceCons(x, rest, entities[1..]);
        assert [x] + entities[1..] == entities;
        [x] + rest
      else
        SubsequenceSkip(x, rest, entities[1..]);
        assert [x] + entities[1..] == entities;
        rest
  }

  /** The pre-check's finding for one entity. */
  function Warning(entity: string): string {
    "警报：简报提及'" + entity + "'，但原始来源中未发现该实体，疑似幻觉。"
  }

  /** The warnings of the pre-check: one per flagged critical entity, in registry order. */
  function Warnings(summary: string, articles: seq<RawArticle>): (w: seq<string>)
    ensures var f := FlagEntities(CriticalEntities, summary, Evidence(articles));
      |w| == |f| && forall k :: 0 <= k < |w| ==> w[k] == Warning(f[k])
  {
    var f := FlagEntities(CriticalEntities, summary, Evidence(articles));
    seq(|f|, k requires 0 <= k < |f| => Warning(f[k]))
  }

  /**
   * An entity named in any one of the sources is never warned about, and
   * one the summary does not name is never warned about either.
   */
  lemma NamedEntityNotWarned(summary: string, articles: seq<RawArticle>, x: string)
    requires !Contains(summary, x) || exists k :: 0 <= k < |articles| && Contains(BodyText(articles[k]), x)
    ensures Warning(x) !in Warnings(summary, articles)
  {
    var f := FlagEntities(CriticalEntities, summary, Evidence(articles));
    if exists k :: 0 <= k < |articles| && Contains(BodyText(articles[k]), x) {
      var k :| 0 <= k < |articles| && Contains(BodyText(articles[k]), x);
      EvidenceContains(articles, k, x);
    }
    assert x !in f;
    forall j | 0 <= j < |f|
      ensures Warning(f[j]) != Warning(x)
    {
      WarningNamesEntity(f[j], x);
    }
  }

  /** Different entities give different warnings. */
  lemma WarningNamesEntity(a: string, b: string)
    requires a != b
    ensures Warning(a) != Warning(b)
  {
    var pre := "警报：简报提及'";
    var post := "'，但原始来源中未发现该实体，疑似幻觉。";
    if |a| == |b| {
      var k :| 0 <= k < |a| && a[k] != b[k];
      assert Warning(a)[|pre| + k] == a[k];
      assert Warning(b)[|pre| + k] == b[k];
    } else {
      assert |Warning(a)| != |Warning(b)|;
    }
  }

  /** The pre-check line of the request: the warnings joined by "; ", or the all-clear. */
  function Precheck(warnings: seq<string>): string {
    if |warnings| > 0 then JoinWith(warnings, Separator) else PrecheckPassed
  }

  /** What the auditing model is shown: the first 25000 characters of the sources, the draft and the pre-check. */
  datatype Request = Request(groundTruth: string, title: string, summary: string, precheck: string)

  /** The value of one key of the model's JSON answer: missing, `null`, or a string. */
  datatype Field = Absent | Null | Text(text: string)

  /** `answer.get(key, default)`: the default for a missing key, `None` for `null`. */
  function Get(f: Field, default: string): (v: Option<string>)
    ensures f.Absent? ==> v == Some(default)
    ensures f.Null? <==> v.None?
    ensures f.Text? ==> v == Some(f.text)
  {
    match f
    case Absent => Some(default)
    case Null => None
    case Text(s) => Some(s)
  }

  /** The model's JSON answer. */
  datatype Verdict = Verdict(status: Field, errorDetail: Field, revisedSummary: Field)

  /**
   * The start of the validation error `AuditResult` raises when its status
   * is `None`; the rest of the library's message is not modelled.
   */
  const StatusNotString: string := "1 validation error for AuditResult\nstatus\n  Input should be a valid string"

  /**
   * The auditing model, given the position of the report in the batch and
   * the request: `Err` with the exception's text when the call or the JSON
   * decoding fails.
   */
  type Judge = (nat, Request) -> Result<Verdict>

  /** The request for a report and the articles of its event. */
  function RequestFor(report: NewsReport, articles: seq<RawArticle>): (q: Request)
    ensures |q.groundTruth| <= TruthLimit && |q.groundTruth| <= |TruthText(articles)|
    ensures q.groundTruth == TruthText(articles)[..|q.groundTruth|]
    ensures |TruthText(articles)| <= TruthLimit ==> q.groundTruth == TruthText(articles)
    ensures |Warnings(report.summary, articles)| == 0 <==> q.precheck == PrecheckPassed
    ensures q.summary == report.summary && q.title == report.title
  {
    Request(Take(TruthText(articles), TruthLimit), report.title, report.summary,
            Precheck(Warnings(report.summary, articles)))
  }

  /**
   * `audit_single_report`: the model's status (PASS when missing) stands
   * unless there are warnings and it is PASS, which becomes FIXED with the
   * warnings as notes; empty or `null` notes read "数据与事实核对一致"; the
   * revision is kept only for FIXED (and is `None` when the model answered
   * `null`); a failed call, or a `null` status that the result record
   * refuses, gives FLAGGED.
   */
  function AuditSingle(report: NewsReport, e: Event, n: nat, judge: Judge): (r: AuditResult)
    ensures r.eventId == report.eventId && r.originalReport == report
    ensures r.revisedSummary.Some? ==> r.status == Fixed
    ensures r.status == Fixed ==>
      && judge(n, RequestFor(report, e.articles)).Ok?
      && (r.revisedSummary.Some? <==> !judge(n, RequestFor(report, e.articles)).value.revisedSummary.Null?)
    ensures |r.correctionNotes| > 0
    ensures |Warnings(report.summary, e.articles)| > 0 ==> r.status != Pass
  {
    var warnings := Warnings(report.summary, e.articles);
    match judge(n, RequestFor(report, e.articles))
    case Err(msg) => AuditResult(report.eventId, report, Flagged, ErrorPrefix + msg, None)
    case Ok(v) =>
      var answered := Get(v.status, Pass);
      var forced := |warnings| > 0 && answered == Some(Pass);
      var status := if forced then Some(Fixed) else answered;
      var detail := if forced then Some(EntityFixPrefix + JoinWith(warnings, Separator)) else Get(v.errorDetail, "");
      match status
      case None => AuditResult(report.eventId, report, Flagged, ErrorPrefix + StatusNotString, None)
      case Some(s) =>
        AuditResult(report.eventId, report, s,
                    if detail.Some? && |detail.value| > 0 then detail.value else ConsistentNote,
                    if s == Fixed then Get(v.revisedSummary, "") else None)
  }

  /**
   * The outcome by case: a failed call is FLAGGED with the error as notes;
   * a `null` status is FLAGGED with the validation error; a PASS (or a
   * missing status) against warnings is FIXED with the warnings as notes;
   * otherwise the model's status and detail stand.
   */
  lemma AuditSingleCases(report: NewsReport, e: Event, n: nat, judge: Judge)
    ensures var r := AuditSingle(report, e, n, judge);
      var w := Warnings(report.summary, e.articles);
      match judge(n, RequestFor(report, e.articles))
      case Err(msg) => r.status == Flagged && r.correctionNotes == ErrorPrefix + msg && r.revisedSummary.None?
      case Ok(v) =>
        if v.status.Null? then
          r.status == Flagged && r.correctionNotes == ErrorPrefix + StatusNotString && r.revisedSummary.None?
        else if |w| > 0 && Get(v.status, Pass) == Some(Pass) then
          r.status == Fixed && StartsWith(r.correctionNotes, EntityFixPrefix)
          && r.revisedSummary == Get(v.revisedSummary, "")
        else
          && Some(r.status) == Get(v.status, Pass)
          && (Get(v.errorDetail, "").Some? && Get(v.errorDetail, "").value != "" ==> r.correctionNotes == v.errorDetail.text)
          && (Get(v.errorDetail, "") in {None, Some("")} ==> r.correctionNotes == ConsistentNote)
          && r.revisedSummary == (if r.status == Fixed then Get(v.revisedSummary, "") else None)
  {
    match judge(n, RequestFor(report, e.articles))
    case Err(_) =>
    case Ok(v) =>
      var w := Warnings(report.summary, e.articles);
      if !v.status.Null? && |w| > 0 && Get(v.status, Pass) == Some(Pass) {
        var notes := EntityFixPrefix + JoinWith(w, Separator);
        assert notes[..|EntityFixPrefix|] == EntityFixPrefix;
      }
  }

  /**
   * A `null` revision never gives a revised summary, whatever the status:
   * `answer.get("revised_summary", "")` gives `None`. In particular, with
   * warnings, a PASS becomes FIXED and still has no revision.
   */
  lemma NullRevisionStaysNone(report: NewsReport, e: Event, n: nat, judge: Judge)
    requires judge(n, RequestFor(report, e.articles)).Ok?
    requires judge(n, RequestFor(report, e.articles)).value.revisedSummary == Null
    ensures AuditSingle(report, e, n, judge).revisedSummary == None
    ensures |Warnings(report.summary, e.articles)| > 0 && judge(n, RequestFor(report, e.articles)).value.status == Text(Pass)
            ==> AuditSingle(report, e, n, judge).status == Fixed
  {
  }

  /** A clean pre-check and a PASS from the model give PASS and no revision. */
  lemma CleanReportPasses(report: NewsReport, e: Event, n: nat, judge: Judge)
    requires forall x :: x in CriticalEntities && Contains(report.summary, x) ==> Contains(Evidence(e.articles), x)
    requires judge(n, RequestFor(report, e.articles)).Ok?
    requires Get(judge(n, RequestFor(report, e.articles)).value.status, Pass) == Some(Pass)
    ensures AuditSingle(report, e, n, judge).status == Pass
    ensures AuditSingle(report, e, n, judge).revisedSummary.None?
  {
    assert FlagEntities(CriticalEntities, report.summary, Evidence(e.articles)) == [];
  }

  // ---------------------------------------------------------------------------
  // `batch_audit`
  // ---------------------------------------------------------------------------

  /** `{e.event_id: e for e in events}`: a later event with the same id replaces an earlier one. */
  function EventMap(events: seq<Event>): (m: map<string, Event>)
    ensures forall id :: id in m <==> exists k :: 0 <= k < |events| && events[k].eventId == id
    decreases |events|
  {
    if |events| == 0 then map[]
    else
      var init := events[..|events| - 1];
      var last := events[|events| - 1];
      assert forall k :: 0 <= k < |init| ==> init[k] == events[k];
      EventMap(init)[last.eventId := last]
  }

  /** The event an id maps to is the last event with that id. */
  lemma {:induction false} EventMapLastWins(events: seq<Event>, k: nat)
    requires k < |events|
    requires forall j :: k < j < |events| ==> events[j].eventId != events[k].eventId
    ensures EventMap(events)[events[k].eventId] == events[k]
    decreases |events|
  {
    if k < |events| - 1 {
      var init := events[..|events| - 1];
      assert init[k] == events[k];
      assert forall j :: k < j < |init| ==> init[j] == events[j];
      EventMapLastWins(init, k);
    }
  }

  /** One report audited against an event, given its position in the batch. */
  type Audit = (NewsReport, Event, nat) -> AuditResult

  /** The audits of the reports from `i` on; a report whose id names no event is skipped. */
  function AuditFrom(reports: seq<NewsReport>, i: nat, m: map<string, Event>, audit: Audit): (r: seq<AuditResult>)
    requires i <= |reports|
    ensures |r| <= |reports| - i
    decreases |reports| - i
  {
    if i == |reports| then []
    else
      var rest := AuditFrom(reports, i + 1, m, audit);
      var id := reports[i].eventId;
      if id in m then [audit(reports[i], m[id], i)] + rest else rest
  }

  /** `audit_single_report` with a fixed model. */
  function AuditWith(judge: Judge): Audit {
    (report: NewsReport, e: Event, n: nat) => AuditSingle(report, e, n, judge)
  }

  /** `batch_audit`: no reports, no results. */
  function BatchAudit(reports: seq<NewsReport>, events: seq<Event>, judge: Judge): (r: seq<AuditResult>)
    ensures |reports| == 0 ==> r == []
    ensures |r| <= |reports|
  {
    if |reports| == 0 then [] else AuditFrom(reports, 0, EventMap(events), AuditWith(judge))
  }

  /** The positions from `i` on of the reports whose id names an event. */
  function Matched(reports: seq<NewsReport>, i: nat, m: map<string, Event>): (o: seq<nat>)
    requires i <= |reports|
    ensures forall k :: 0 <= k < |o| ==> i <= o[k] < |reports| && reports[o[k]].eventId in m
    ensures forall k, l :: 0 <= k < l < |o| ==> o[k] < o[l]
    decreases |reports| - i
  {
    if i == |reports| then []
    else
      var rest := Matched(reports, i + 1, m);
      if reports[i].eventId in m then [i] + rest else rest
  }

  /** No report whose id names an event is left out. */
  lemma {:induction false} MatchedComplete(reports: seq<NewsReport>, i: nat, m: map<string, Event>)
    requires i <= |reports|
    ensures forall j :: i <= j < |reports| && reports[j].eventId in m ==> j in Matched(reports, i, m)
    decreases |reports| - i
  {
    if i < |reports| {
      MatchedComplete(reports, i + 1, m);
    }
  }

  /** Result `k` is the audit of the `k`-th report whose id names an event, against that event. */
  lemma {:induction false} AuditFromSpec(reports: seq<NewsReport>, i: nat, m: map<string, Event>, audit: Audit)
    requires i <= |reports|
    ensures var r := AuditFrom(reports, i, m, audit);
      var o := Matched(reports, i, m);
      && |r| == |o|
      && forall k :: 0 <= k < |r| ==> r[k] == audit(reports[o[k]], m[reports[o[k]].eventId], o[k])
    decreases |reports| - i
  {
    if i < |reports| {
      AuditFromSpec(reports, i + 1, m, audit);
      if reports[i].eventId in m {
        var r := AuditFrom(reports, i, m, audit);
        var o := Matched(reports, i, m);
        var rRest := AuditFrom(reports, i + 1, m, audit);
        var oRest := Matched(reports, i + 1, m);
        assert r == [audit(reports[i], m[reports[i].eventId], i)] + rRest;
        assert o == [i] + oRest;
        forall k | 1 <= k < |r|
          ensures r[k] == audit(reports[o[k]], m[reports[o[k]].eventId], o[k])
        {
          assert r[k] == rRest[k - 1] && o[k] == oRest[k - 1];
        }
      }
    }
  }

  /**
   * `batch_audit`: results follow the reports in order, one for each report
   * whose id is some event's id and none for the others; each keeps its
   * report's id and is audited against the last event with that id.
   */
  lemma BatchAuditSpec(reports: seq<NewsReport>, events: seq<Event>, judge: Judge)
    ensures var r := BatchAudit(reports, events, judge);
      var m := EventMap(events);
      var o := Matched(reports, 0, m);
      && |r| == |o|
      && (forall j :: 0 <= j < |reports| && reports[j].eventId in m ==> j in o)
      && forall k :: 0 <= k < |r| ==>
           && r[k].originalReport == reports[o[k]]
           && r[k].eventId == reports[o[k]].eventId
           && r[k] == AuditSingle(reports[o[k]], m[reports[o[k]].eventId], o[k], judge)
  {
    if |reports| > 0 {
      AuditFromSpec(reports, 0, EventMap(events), AuditWith(judge));
    }
    MatchedComplete(reports, 0, EventMap(events));
  }

  /** When no report's id is an event's id, nothing is audited. */
  lemma {:induction false} NoMatchNoAudit(reports: seq<NewsReport>, i: nat, m: map<string, Event>, audit: Audit)
    requires i <= |reports|
    requires forall j :: i <= j < |reports| ==> reports[j].eventId !in m
    ensures AuditFrom(reports, i, m, audit) == []
    decreases |reports| - i
  {
    if i < |reports| {
      NoMatchNoAudit(reports, i + 1, m, audit);
    }
  }

  /**
   * When every report's id names an event, `batch_audit` returns one result
   * per report, in order, each keeping its report and id.
   */
  lemma MatchedBatchKeepsReports(reports: seq<NewsReport>, events: seq<Event>, judge: Judge)
    requires forall j :: 0 <= j < |reports| ==> reports[j].eventId in EventMap(events)
    ensures var r := BatchAudit(reports, events, judge);
      && |r| == |reports|
      && forall k :: 0 <= k < |r| ==> r[k].originalReport == reports[k] && r[k].eventId == reports[k].eventId
  {
    if |reports| > 0 {
      var m := EventMap(events);
      AllMatchAllAudited(reports, 0, m, AuditWith(judge));
      var r := BatchAudit(reports, events, judge);
      assert r == AuditFrom(reports, 0, m, AuditWith(judge));
      forall k | 0 <= k < |r|
        ensures r[k].originalReport == reports[k] && r[k].eventId == reports[k].eventId
      {
        assert r[k] == AuditSingle(reports[k], m[reports[k].eventId], k, judge);
      }
    }
  }

  /** When every report's id is an event's id, each report is audited once, in order. */
  lemma {:induction false} AllMatchAllAudited(reports: seq<NewsReport>, i: nat, m: map<string, Event>, audit: Audit)
    requires i <= |reports|
    requires forall j :: i <= j < |reports| ==> reports[j].eventId in m
    ensures var r := AuditFrom(reports, i, m, audit);
      |r| == |reports| - i && forall k :: 0 <= k < |r| ==> r[k] == audit(reports[i + k], m[reports[i + k].eventId], i + k)
    decreases |reports| - i
  {
    if i < |reports| {
      AllMatchAllAudited(reports, i + 1, m, audit);
      var r := AuditFrom(reports, i, m, audit);
      var rest := AuditFrom(reports, i + 1, m, audit);
      assert r == [audit(reports[i], m[reports[i].eventId], i)] + rest;
      assert forall k :: 1 <= k < |r| ==> r[k] == rest[k - 1];
    }
  }
}

=== FILE: env.dfy ===
/**
 * `load_env` of gather_tavily_demo.py: reading `KEY=value` lines of a
 * `.env` file into the process environment without overriding what is
 * already set there.
 */
module Env {
  import opened Results
  import opened Text

  /** The process environment. */
  type Environ = map<string, string>

  /** The index of the first `c` in `s`. */
  function FirstIndex(s: string, c: char): (i: nat)
    requires c in s
    ensures i < |s| && s[i] == c && c !in s[..i]
  {
    if s[0] == c then 0
    else
      var i := 1 + FirstIndex(s[1..], c);
      assert s[..i] == [s[0]] + s[1..][..i - 1];
      i
  }

  /** `s.split(c, 1)` when `c` occurs: the text before the first `c` and everything after it. */
  function SplitFirst(s: string, c: char): (p: (string, string))
    requires c in s
    ensures p.0 + [c] + p.1 == s && c !in p.0
  {
    var i := FirstIndex(s, c);
    assert s == s[..i] + [c] + s[i + 1..];
    (s[..i], s[i + 1..])
  }

  predicate IsDoubleQuote(c: char) { c == '"' }
  predicate IsSingleQuote(c: char) { c == '\'' }

  /**
   * One line of the file: `None` when it is blank, a comment or has no "=";
   * otherwise the trimmed key and the value trimmed of spaces, then of
   * double quotes, then of single quotes.
   */
  function ParseLine(line: string): (a: Option<(string, string)>)
    ensures a.None? <==> var t := StripSpace(line); |t| == 0 || t[0] == '#' || '=' !in t
  {
    var t := StripSpace(line);
    if |t| == 0 || StartsWith(t, "#") || '=' !in t then None
    else
      var (k, v) := SplitFirst(t, '=');
      Some((StripSpace(k), Unquote(v)))
  }

  /** A value trimmed of spaces, then of double quotes, then of single quotes. */
  function Unquote(v: string): string {
    Strip(Strip(StripSpace(v), IsDoubleQuote), IsSingleQuote)
  }

  /** The assignments of a file, in line order. */
  function Assignments(lines: seq<string>): seq<(string, string)>
    decreases |lines|
  {
    if |lines| == 0 then []
    else
      var a := ParseLine(lines[0]);
      (if a.Some? then [a.value] else []) + Assignments(lines[1..])
  }

  /** The value the first assignment of `key` gives it, if any. */
  function FirstValue(assigns: seq<(string, string)>, key: string): (v: Option<string>)
    ensures v.Some? <==> exists j :: 0 <= j < |assigns| && assigns[j].0 == key
    decreases |assigns|
  {
    if |assigns| == 0 then None
    else if assigns[0].0 == key then Some(assigns[0].1)
    else
      var v := FirstValue(assigns[1..], key);
      assert forall j :: 1 <= j < |assigns| ==> assigns[j] == assigns[1..][j - 1];
      v
  }

  /** The operating system refuses an empty name and a NUL character in a name or a value. */
  predicate Illegal(key: string, value: string) {
    key == "" || '\0' in key || '\0' in value
  }

  /** `os.environ.setdefault(key, value)`: a name already set keeps its value. */
  function SetDefault(env: Environ, key: string, value: string): (r: Result<Environ>)
    ensures key in env ==> r == Ok(env)
    ensures key !in env && !Illegal(key, value) ==> r == Ok(env[key := value])
    ensures key !in env && Illegal(key, value) ==> r.Err?
  {
    if key in env then Ok(env)
    else if key == "" then Err("illegal environment variable name")
    else if '\0' in key || '\0' in value then Err("embedded null byte")
    else Ok(env[key := value])
  }

  /** The loop over the lines: each assignment goes through `setdefault`; a refusal ends the loading. */
  function LoadLines(lines: seq<string>, env: Environ): Result<Environ>
    decreases |lines|
  {
    if |lines| == 0 then Ok(env)
    else
      var a := ParseLine(lines[0]);
      if a.None? then LoadLines(lines[1..], env)
      else
        var r := SetDefault(env, a.value.0, a.value.1);
        if r.Err? then Err(r.msg) else LoadLines(lines[1..], r.value)
  }

  /** `load_env`: a missing file (`None`) leaves the environment as it is. */
  function LoadEnv(file: Option<seq<string>>, env: Environ): Result<Environ> {
    match file
    case None => Ok(env)
    case Some(lines) => LoadLines(lines, env)
  }

  /** The assignments applied in order through `setdefault`, stopping at the first refusal. */
  function Apply(assigns: seq<(string, string)>, env: Environ): Result<Environ>
    decreases |assigns|
  {
    if |assigns| == 0 then Ok(env)
    else match SetDefault(env, assigns[0].0, assigns[0].1)
      case Err(m) => Err(m)
      case Ok(env') => Apply(assigns[1..], env')
  }

  /** The line loop applies the file's assignments in order. */
  lemma {:induction false} LoadLinesApplies(lines: seq<string>, env: Environ)
    ensures LoadLines(lines, env) == Apply(Assignments(lines), env)
    decreases |lines|
  {
    if |lines| > 0 {
      var rest := Assignments(lines[1..]);
      var a := ParseLine(lines[0]);
      if a.None? {
        assert Assignments(lines) == rest;
        LoadLinesApplies(lines[1..], env);
      } else {
        assert Assignments(lines) == [a.value] + rest;
        assert ([a.value] + rest)[1..] == rest;
        var r := SetDefault(env, a.value.0, a.value.1);
        if r.Ok? {
          LoadLinesApplies(lines[1..], r.value);
        }
      }
    }
  }

  /**
   * What applying gives: names already set keep their value; every other
   * name assigned gets the value of its first assignment; no other name is
   * added.
   */
  lemma {:induction false} ApplySpec(assigns: seq<(string, string)>, env: Environ)
    requires Apply(assigns, env).Ok?
    ensures var e := Apply(assigns, env).value;
      && (forall k :: k in env ==> k in e && e[k] == env[k])
      && (forall k :: k !in env ==> (k in e <==> FirstValue(assigns, k).Some?))
      && (forall k :: k !in env && k in e ==> e[k] == FirstValue(assigns, k).value)
    decreases |assigns|
  {
    if |assigns| > 0 {
      ApplySpec(assigns[1..], SetDefault(env, assigns[0].0, assigns[0].1).value);
    }
  }

  /** Applying fails exactly when the first assignment of some name not yet set is refused. */
  lemma {:induction false} ApplyFails(assigns: seq<(string, string)>, env: Environ)
    ensures Apply(assigns, env).Err? <==>
      exists k :: k !in env && FirstValue(assigns, k).Some? && Illegal(k, FirstValue(assigns, k).value)
    decreases |assigns|
  {
    if |assigns| > 0 {
      var (k0, v0) := assigns[0];
      var rest := assigns[1..];
      if k0 in env {
        ApplyFails(rest, env);
        assert forall k :: k !in env ==> FirstValue(assigns, k) == FirstValue(rest, k);
      } else if Illegal(k0, v0) {
        assert SetDefault(env, k0, v0).Err?;
        assert Apply(assigns, env).Err?;
        assert FirstValue(assigns, k0) == Some(v0);
        assert k0 !in env && Illegal(k0, FirstValue(assigns, k0).value);
      } else {
        var env' := env[k0 := v0];
        ApplyFails(rest, env');
        assert forall k :: k !in env' ==> k !in env && FirstValue(assigns, k) == FirstValue(rest, k);
        assert FirstValue(assigns, k0) == Some(v0);
      }
    }
  }

  /**
   * `load_env`: names already in the environment keep their value, every
   * other name in the file gets the value of its first assignment, and
   * nothing else is added; loading fails exactly when such a first
   * assignment has an empty name or a NUL character.
   */
  lemma LoadEnvSpec(lines: seq<string>, env: Environ)
    ensures LoadEnv(Some(lines), env).Err? <==>
      exists k :: k !in env && FirstValue(Assignments(lines), k).Some? && Illegal(k, FirstValue(Assignments(lines), k).value)
    ensures LoadEnv(Some(lines), env).Ok? ==> var e := LoadEnv(Some(lines), env).value;
      && (forall k :: k in env ==> k in e && e[k] == env[k])
      && (forall k :: k !in env ==> (k in e <==> FirstValue(Assignments(lines), k).Some?))
      && (forall k :: k !in env && k in e ==> e[k] == FirstValue(Assignments(lines), k).value)
  {
    LoadLinesApplies(lines, env);
    ApplyFails(Assignments(lines), env);
    if LoadLines(lines, env).Ok? {
      ApplySpec(Assignments(lines), env);
    }
  }

  /** No space and no quote at either end. */
  predicate Bare(s: string) {
    |s| > 0 ==> && !IsSpace(s[0]) && !IsSpace(s[|s| - 1])
                && !IsDoubleQuote(s[0]) && !IsDoubleQuote(s[|s| - 1])
                && !IsSingleQuote(s[0]) && !IsSingleQuote(s[|s| - 1])
  }

  /**
   * A line written as `key=value` reads back as that key and value, for a
   * non-empty key without "=" that is not a comment and a value that may
   * itself hold "=", when neither has spaces or quotes at its ends.
   */
  lemma ParseLineReadsBack(key: string, value: string)
    requires |key| > 0 && key[0] != '#' && '=' !in key && Bare(key)
    requires Bare(value)
    ensures ParseLine(key + "=" + value) == Some((key, value))
  {
    var line := key + "=" + value;
    assert line[0] == key[0];
    assert line[|line| - 1] == if |value| > 0 then value[|value| - 1] else '=';
    StripKeeps(line, IsSpace);
    assert line[|key|] == '=';
    assert !StartsWith(line, "#");
    var (k, v) := SplitFirst(line, '=');
    SplitAtFirstUnique(k, v, key, value, '=');
    StripKeeps(key, IsSpace);
    StripKeeps(value, IsSpace);
    StripKeeps(value, IsDoubleQuote);
    StripKeeps(value, IsSingleQuote);
  }

  /**
   * A line that is not a comment reads, around its first "=", as the
   * trimmed text before it and the unquoted text after it.
   */
  lemma ParseLineSplit(line: string, k: string, v: string)
    requires StripSpace(line) == k + "=" + v
    requires '=' !in k && (|k| == 0 || k[0] != '#')
    ensures ParseLine(line) == Some((StripSpace(k), Unquote(v)))
  {
    var t := StripSpace(line);
    assert t[|k|] == '=';
    assert t[0] != '#';
    assert !StartsWith(t, "#");
    var (k', v') := SplitFirst(t, '=');
    SplitAtFirstUnique(k', v', k, v, '=');
  }

  /** A key with no space at its ends keeps its text when the space before "=" is trimmed. */
  lemma TrimmedKey(key: string)
    requires Bare(key)
    ensures StripSpace(key + " ") == key
  {
    StripFrame([], key, " ", IsSpace);
    assert [] + key + " " == key + " ";
  }

  /** A value written as ` "value"` unquotes to `value` when its ends are bare. */
  lemma UnquotedValue(value: string)
    requires Bare(value)
    ensures Unquote(" \"" + value + "\"") == value
  {
    var q := "\"" + value + "\"";
    StripFrame(" ", q, [], IsSpace);
    assert " " + q + [] == " \"" + value + "\"";
    StripFrame("\"", value, "\"", IsDoubleQuote);
    StripKeeps(value, IsSingleQuote);
  }

  /**
   * A line written as `key = "value"` reads back as that key and value: the
   * spaces around "=" and the double quotes around the value are dropped.
   */
  lemma QuotedLineReadsBack(key: string, value: string)
    requires |key| > 0 && key[0] != '#' && '=' !in key && Bare(key)
    requires Bare(value)
    ensures ParseLine(key + " = \"" + value + "\"") == Some((key, value))
  {
    var line := key + " = \"" + value + "\"";
    var k := key + " ";
    var v := " \"" + value + "\"";
    assert line == k + "=" + v;
    assert line[0] == key[0] && line[|line| - 1] == '"';
    StripKeeps(line, IsSpace);
    ParseLineSplit(line, k, v);
    TrimmedKey(key);
    UnquotedValue(value);
  }
}

=== FILE: gather.dfy ===
/**
 * `gather` of gather_demo.py: for every query, search with fallback, then
 * keep the hits that have a url and a title, come from a whitelisted
 * source and were not gathered before, up to a per-query cap.
 */
module Gather {
  import opened Results
  import opened Text
  import opened Seqs
  import opened Sources
  import opened Strategy

  /** The article id of a url (the hex md5 digest of its bytes). */
  type Hasher = string -> string

  /** How a url is placed on the whitelist; `gather` uses `resolve_source` with its whitelist. */
  type Resolver = string -> SourceInfo

  /** `resolve_source` over the whitelist `wl`. */
  function ResolverOf(wl: seq<Tier>): Resolver {
    url => ResolveSource(wl, url)
  }

  /** The urls of a list of articles, in order. */
  function Urls(arts: seq<RawArticle>): (r: seq<string>)
    ensures |r| == |arts| && forall k :: 0 <= k < |arts| ==> r[k] == arts[k].url
  {
    seq(|arts|, k requires 0 <= k < |arts| => arts[k].url)
  }

  /** The links of a list of hits, in order. */
  function Hrefs(items: seq<SearchItem>): (r: seq<string>)
    ensures |r| == |items| && forall k :: 0 <= k < |items| ==> r[k] == items[k].href
  {
    seq(|items|, k requires 0 <= k < |items| => items[k].href)
  }

  /** The article built from a hit: no full text, no date, eligible for clustering. */
  function ArticleOf(item: SearchItem, source: SourceInfo, hash: Hasher): RawArticle {
    RawArticle(hash(item.href), item.href, item.title, item.body, "", source, true, "")
  }

  /** What every gathered article satisfies. */
  predicate Admitted(resolve: Resolver, hash: Hasher, a: RawArticle) {
    && a.url != "" && a.title != ""
    && a.source == resolve(a.url) && a.source.whitelisted
    && a.eligibleForEvent && a.articleId == hash(a.url)
    && a.fullText == "" && a.publishDate == ""
  }

  predicate AllAdmitted(resolve: Resolver, hash: Hasher, arts: seq<RawArticle>) {
    forall k :: 0 <= k < |arts| ==> Admitted(resolve, hash, arts[k])
  }

  /** The largest number of articles one query can add: the cap is checked only after adding, so at least one. */
  function Cap(maxResults: int): nat {
    if maxResults < 1 then 1 else maxResults
  }

  lemma UrlsAppend(a: seq<RawArticle>, b: seq<RawArticle>)
    ensures Urls(a + b) == Urls(a) + Urls(b)
  {
  }

  /** Adding an article with a new url keeps the urls distinct. */
  lemma AppendFresh(prior: seq<RawArticle>, added: seq<RawArticle>, art: RawArticle)
    requires Distinct(Urls(prior + added)) && art.url !in Urls(prior + added)
    ensures Distinct(Urls(prior + (added + [art])))
  {
    assert prior + (added + [art]) == (prior + added) + [art];
    UrlsAppend(prior + added, [art]);
  }

  /** Taking one more hit keeps the taken urls a subsequence of the hits seen. */
  lemma TakeHit(href: string, added: seq<RawArticle>, art: RawArticle, r: seq<RawArticle>, rest: seq<string>)
    requires art.url == href
    requires |added| + 1 <= |r| && r[..|added| + 1] == added + [art]
    requires IsSubsequence(Urls(r[|added| + 1..]), rest)
    ensures IsSubsequence(Urls(r[|added|..]), [href] + rest)
  {
    assert r[|added|..] == [art] + r[|added| + 1..];
    assert Urls([art] + r[|added| + 1..]) == [href] + Urls(r[|added| + 1..]);
    SubsequenceCons(href, Urls(r[|added| + 1..]), rest);
  }

  /** Stopping right after a hit leaves exactly that hit's url. */
  lemma LastHit(href: string, added: seq<RawArticle>, art: RawArticle, rest: seq<string>)
    requires art.url == href
    ensures IsSubsequence(Urls((added + [art])[|added|..]), [href] + rest)
  {
    assert (added + [art])[|added|..] == [art];
    assert IsSubsequence([], rest);
    SubsequenceCons(href, [], rest);
  }

  /** Whether a hit can be gathered at all: it has a url and a title, and its source is whitelisted. */
  predicate Qualifies(resolve: Resolver, item: SearchItem) {
    item.href != "" && item.title != "" && resolve(item.href).whitelisted
  }

  /** Whether the loop passes over a hit: no url, no title, off the whitelist, or a url gathered before. */
  predicate Skipped(resolve: Resolver, item: SearchItem, seen: seq<RawArticle>) {
    !Qualifies(resolve, item) || item.href in Urls(seen)
  }

  /** The article made from a hit that qualifies is admitted. */
  lemma HitAdmitted(resolve: Resolver, item: SearchItem, hash: Hasher)
    requires Qualifies(resolve, item)
    ensures Admitted(resolve, hash, ArticleOf(item, resolve(item.href), hash))
  {
  }

  /**
   * The loop over one query's hits from `i` on. `prior` is what earlier
   * queries gathered, `added` what this query has added so far; the result
   * is `added` with the articles admitted from the remaining hits. The loop
   * stops once the cap is reached, which it checks after adding.
   */
  function AdmitItems(resolve: Resolver, items: seq<SearchItem>, i: nat, prior: seq<RawArticle>,
                      added: seq<RawArticle>, maxResults: int, hash: Hasher): (r: seq<RawArticle>)
    requires i <= |items|
    requires |added| == 0 || |added| < maxResults
    ensures |added| <= |r| <= Cap(maxResults) && r[..|added|] == added
    decreases |items| - i
  {
    if i == |items| then
      added
    else if Skipped(resolve, items[i], prior + added) then
      AdmitItems(resolve, items, i + 1, prior, added, maxResults, hash)
    else
      var added' := added + [ArticleOf(items[i], resolve(items[i].href), hash)];
      if |added'| >= maxResults then added'
      else
        var r := AdmitItems(resolve, items, i + 1, prior, added', maxResults, hash);
        assert r[..|added|] == r[..|added'|][..|added|];
        r
  }

  /** Every article the loop adds has a url, a title and a whitelisted source, and is eligible. */
  lemma {:induction false} AdmitItemsAdmitted(resolve: Resolver, items: seq<SearchItem>, i: nat, prior: seq<RawArticle>,
                                              added: seq<RawArticle>, maxResults: int, hash: Hasher)
    requires i <= |items|
    requires |added| == 0 || |added| < maxResults
    requires AllAdmitted(resolve, hash, added)
    ensures AllAdmitted(resolve, hash, AdmitItems(resolve, items, i, prior, added, maxResults, hash))
    decreases |items| - i
  {
    if i < |items| {
      if Skipped(resolve, items[i], prior + added) {
        AdmitItemsAdmitted(resolve, items, i + 1, prior, added, maxResults, hash);
      } else {
        var art := ArticleOf(items[i], resolve(items[i].href), hash);
        HitAdmitted(resolve, items[i], hash);
        assert AllAdmitted(resolve, hash, added + [art]);
        if |added| + 1 < maxResults {
          AdmitItemsAdmitted(resolve, items, i + 1, prior, added + [art], maxResults, hash);
        }
      }
    }
  }

  /** The loop never adds a url already gathered, by an earlier query or by this one. */
  lemma {:induction false} AdmitItemsDistinct(resolve: Resolver, items: seq<SearchItem>, i: nat, prior: seq<RawArticle>,
                                              added: seq<RawArticle>, maxResults: int, hash: Hasher)
    requires i <= |items|
    requires |added| == 0 || |added| < maxResults
    requires Distinct(Urls(prior + added))
    ensures Distinct(Urls(prior + AdmitItems(resolve, items, i, prior, added, maxResults, hash)))
    decreases |items| - i
  {
    if i < |items| {
      if Skipped(resolve, items[i], prior + added) {
        AdmitItemsDistinct(resolve, items, i + 1, prior, added, maxResults, hash);
      } else {
        var art := ArticleOf(items[i], resolve(items[i].href), hash);
        AppendFresh(prior, added, art);
        if |added| + 1 < maxResults {
          AdmitItemsDistinct(resolve, items, i + 1, prior, added + [art], maxResults, hash);
        }
      }
    }
  }

  /** The articles the loop adds follow the order of the hits they come from. */
  lemma {:induction false} AdmitItemsInOrder(resolve: Resolver, items: seq<SearchItem>, i: nat, prior: seq<RawArticle>,
                                             added: seq<RawArticle>, maxResults: int, hash: Hasher)
    requires i <= |items|
    requires |added| == 0 || |added| < maxResults
    ensures var r := AdmitItems(resolve, items, i, prior, added, maxResults, hash);
      IsSubsequence(Urls(r[|added|..]), Hrefs(items[i..]))
    decreases |items| - i
  {
    var r := AdmitItems(resolve, items, i, prior, added, maxResults, hash);
    if i == |items| {
      assert r[|added|..] == [];
    } else {
      var item := items[i];
      assert Hrefs(items[i..]) == [item.href] + Hrefs(items[i + 1..]);
      if Skipped(resolve, item, prior + added) {
        AdmitItemsInOrder(resolve, items, i + 1, prior, added, maxResults, hash);
        SubsequenceSkip(item.href, Urls(r[|added|..]), Hrefs(items[i + 1..]));
      } else {
        var art := ArticleOf(item, resolve(item.href), hash);
        if |added| + 1 >= maxResults {
          LastHit(item.href, added, art, Hrefs(items[i + 1..]));
        } else {
          AdmitItemsInOrder(resolve, items, i + 1, prior, added + [art], maxResults, hash);
          TakeHit(item.href, added, art, r, Hrefs(items[i + 1..]));
        }
      }
    }
  }

  /**
   * The articles the loop over the hits from `i` on would add if it had no
   * cap: each hit that is not skipped, given what was seen before it, in
   * the order of the hits.
   */
  function Passing(resolve: Resolver, items: seq<SearchItem>, i: nat, seen: seq<RawArticle>, hash: Hasher): (r: seq<RawArticle>)
    requires i <= |items|
    ensures |r| <= |items| - i
    decreases |items| - i
  {
    if i == |items| then []
    else if Skipped(resolve, items[i], seen) then Passing(resolve, items, i + 1, seen, hash)
    else
      var art := ArticleOf(items[i], resolve(items[i].href), hash);
      [art] + Passing(resolve, items, i + 1, seen + [art], hash)
  }

  /** Taking `n >= 1` elements of a sequence with a given head keeps that head. */
  lemma TakeCons<T>(x: T, s: seq<T>, n: int)
    requires n >= 1
    ensures Take([x] + s, n) == [x] + Take(s, n - 1)
  {
    var t := Take([x] + s, n);
    assert |t| == |[x] + Take(s, n - 1)|;
    assert t == ([x] + s)[..|t|];
  }

  /**
   * The loop adds exactly the passing articles, cut off once the cap is
   * reached: `added` followed by the first `Cap(maxResults) - |added|` of
   * the articles the hits from `i` on would give without a cap.
   */
  lemma {:induction false} AdmitItemsIsCappedPassing(resolve: Resolver, items: seq<SearchItem>, i: nat, prior: seq<RawArticle>,
                                                     added: seq<RawArticle>, maxResults: int, hash: Hasher)
    requires i <= |items|
    requires |added| == 0 || |added| < maxResults
    ensures AdmitItems(resolve, items, i, prior, added, maxResults, hash)
         == added + Take(Passing(resolve, items, i, prior + added, hash), Cap(maxResults) - |added|)
    decreases |items| - i, 1
  {
    if i == |items| {
      assert added + [] == added;
    } else if Skipped(resolve, items[i], prior + added) {
      CappedPassingSkip(resolve, items, i, prior, added, maxResults, hash);
    } else {
      CappedPassingTake(resolve, items, i, prior, added, maxResults, hash);
    }
  }

  /** `AdmitItemsIsCappedPassing` at a hit the loop passes over. */
  lemma {:induction false} CappedPassingSkip(resolve: Resolver, items: seq<SearchItem>, i: nat, prior: seq<RawArticle>,
                                             added: seq<RawArticle>, maxResults: int, hash: Hasher)
    requires i < |items| && Skipped(resolve, items[i], prior + added)
    requires |added| == 0 || |added| < maxResults
    ensures AdmitItems(resolve, items, i, prior, added, maxResults, hash)
         == added + Take(Passing(resolve, items, i, prior + added, hash), Cap(maxResults) - |added|)
    decreases |items| - i, 0
  {
    AdmitItemsIsCappedPassing(resolve, items, i + 1, prior, added, maxResults, hash);
  }

  /** `AdmitItemsIsCappedPassing` at a hit the loop takes. */
  lemma {:induction false} CappedPassingTake(resolve: Resolver, items: seq<SearchItem>, i: nat, prior: seq<RawArticle>,
                                             added: seq<RawArticle>, maxResults: int, hash: Hasher)
    requires i < |items| && !Skipped(resolve, items[i], prior + added)
    requires |added| == 0 || |added| < maxResults
    ensures AdmitItems(resolve, items, i, prior, added, maxResults, hash)
         == added + Take(Passing(resolve, items, i, prior + added, hash), Cap(maxResults) - |added|)
    decreases |items| - i, 0
  {
    var art := ArticleOf(items[i], resolve(items[i].href), hash);
    var rest := Passing(resolve, items, i + 1, prior + added + [art], hash);
    assert Passing(resolve, items, i, prior + added, hash) == [art] + rest;
    if |added| + 1 < maxResults {
      assert prior + (added + [art]) == prior + added + [art];
      AdmitItemsIsCappedPassing(resolve, items, i + 1, prior, added + [art], maxResults, hash);
    }
    TakeHead(AdmitItems(resolve, items, i, prior, added, maxResults, hash), added, art, rest, maxResults);
  }

  /** The step of `AdmitItemsIsCappedPassing` at a hit that is taken. */
  lemma TakeHead(r: seq<RawArticle>, added: seq<RawArticle>, art: RawArticle, rest: seq<RawArticle>, maxResults: int)
    requires |added| == 0 || |added| < maxResults
    requires |added| + 1 >= maxResults ==> r == added + [art]
    requires |added| + 1 < maxResults ==> r == added + [art] + Take(rest, Cap(maxResults) - |added| - 1)
    ensures r == added + Take([art] + rest, Cap(maxResults) - |added|)
  {
    var n := Cap(maxResults) - |added|;
    TakeCons(art, rest, n);
    if |added| + 1 >= maxResults {
      assert n == 1;
      assert Take(rest, 0) == [];
    } else {
      assert added + [art] + Take(rest, n - 1) == added + ([art] + Take(rest, n - 1));
    }
  }

  /** The uncapped articles are not empty when some hit from `i` on is not skipped. */
  lemma {:induction false} PassingNonEmpty(resolve: Resolver, items: seq<SearchItem>, i: nat, seen: seq<RawArticle>,
                                           hash: Hasher, j: nat)
    requires i <= j < |items|
    requires !Skipped(resolve, items[j], seen)
    ensures |Passing(resolve, items, i, seen, hash)| >= 1
    decreases j - i
  {
    if i < j && Skipped(resolve, items[i], seen) {
      PassingNonEmpty(resolve, items, i + 1, seen, hash, j);
    }
  }

  /** The first uncapped article comes from the first hit from `i` on that is not skipped. */
  lemma {:induction false} PassingFirst(resolve: Resolver, items: seq<SearchItem>, i: nat, seen: seq<RawArticle>,
                                        hash: Hasher, j: nat)
    requires i <= j < |items|
    requires !Skipped(resolve, items[j], seen)
    requires forall m :: i <= m < j ==> Skipped(resolve, items[m], seen)
    ensures |Passing(resolve, items, i, seen, hash)| >= 1
    ensures Passing(resolve, items, i, seen, hash)[0] == ArticleOf(items[j], resolve(items[j].href), hash)
    decreases j - i
  {
    if i < j {
      PassingFirst(resolve, items, i + 1, seen, hash, j);
    }
  }

  /** The hits of the `qi`-th query after the strategy fallback. */
  function HitsOf(qi: nat, query: string, days: int, search: Searcher): seq<SearchItem> {
    MultiStrategySearch(qi, query, days, search).0
  }

  /** What the `qi`-th query adds to the articles gathered before it. */
  function QueryArticles(resolve: Resolver, qi: nat, query: string, days: int, maxResults: int,
                         search: Searcher, hash: Hasher, prior: seq<RawArticle>): (r: seq<RawArticle>)
    ensures |r| <= Cap(maxResults)
  {
    AdmitItems(resolve, HitsOf(qi, query, days, search), 0, prior, [], maxResults, hash)
  }

  /**
   * One query adds only admitted articles with urls not gathered before, at
   * most `max(1, max_results)` of them, in the order of its hits.
   */
  lemma QueryArticlesSpec(resolve: Resolver, qi: nat, query: string, days: int, maxResults: int,
                          search: Searcher, hash: Hasher, prior: seq<RawArticle>)
    requires Distinct(Urls(prior))
    ensures var r := QueryArticles(resolve, qi, query, days, maxResults, search, hash, prior);
      && AllAdmitted(resolve, hash, r) && Distinct(Urls(prior + r))
      && IsSubsequence(Urls(r), Hrefs(HitsOf(qi, query, days, search)))
  {
    var hits := HitsOf(qi, query, days, search);
    assert prior + [] == prior;
    AdmitItemsAdmitted(resolve, hits, 0, prior, [], maxResults, hash);
    AdmitItemsDistinct(resolve, hits, 0, prior, [], maxResults, hash);
    AdmitItemsInOrder(resolve, hits, 0, prior, [], maxResults, hash);
    var r := AdmitItems(resolve, hits, 0, prior, [], maxResults, hash);
    assert r[0..] == r && hits[0..] == hits;
  }

  /**
   * What one query adds is exactly the first `max(1, max_results)` of the
   * articles its hits would give without a cap.
   */
  lemma QueryArticlesArePassing(resolve: Resolver, qi: nat, query: string, days: int, maxResults: int,
                                search: Searcher, hash: Hasher, prior: seq<RawArticle>)
    ensures QueryArticles(resolve, qi, query, days, maxResults, search, hash, prior)
         == Take(Passing(resolve, HitsOf(qi, query, days, search), 0, prior, hash), Cap(maxResults))
  {
    var hits := HitsOf(qi, query, days, search);
    assert prior + [] == prior;
    AdmitItemsIsCappedPassing(resolve, hits, 0, prior, [], maxResults, hash);
    assert [] + Take(Passing(resolve, hits, 0, prior, hash), Cap(maxResults)) == Take(Passing(resolve, hits, 0, prior, hash), Cap(maxResults));
  }

  /**
   * A query whose hits include one that is not skipped adds at least one
   * article, even when `max_results` is 0 or negative, and the first article
   * it adds comes from the first such hit.
   */
  lemma QueryAdmitsFirstPassing(resolve: Resolver, qi: nat, query: string, days: int, maxResults: int,
                                search: Searcher, hash: Hasher, prior: seq<RawArticle>, j: nat)
    requires j < |HitsOf(qi, query, days, search)|
    requires !Skipped(resolve, HitsOf(qi, query, days, search)[j], prior)
    requires forall m :: 0 <= m < j ==> Skipped(resolve, HitsOf(qi, query, days, search)[m], prior)
    ensures var r := QueryArticles(resolve, qi, query, days, maxResults, search, hash, prior);
      |r| >= 1 && r[0] == ArticleOf(HitsOf(qi, query, days, search)[j],
                                    resolve(HitsOf(qi, query, days, search)[j].href), hash)
  {
    var hits := HitsOf(qi, query, days, search);
    assert prior + [] == prior;
    AdmitItemsIsCappedPassing(resolve, hits, 0, prior, [], maxResults, hash);
    PassingFirst(resolve, hits, 0, prior, hash, j);
    var p := Passing(resolve, hits, 0, prior, hash);
    TakeCons(p[0], p[1..], Cap(maxResults));
    assert [p[0]] + p[1..] == p;
  }

  /** A query with any hit that is not skipped adds something, whatever `max_results` is. */
  lemma QueryAdmitsSome(resolve: Resolver, qi: nat, query: string, days: int, maxResults: int,
                        search: Searcher, hash: Hasher, prior: seq<RawArticle>, j: nat)
    requires j < |HitsOf(qi, query, days, search)|
    requires !Skipped(resolve, HitsOf(qi, query, days, search)[j], prior)
    ensures |QueryArticles(resolve, qi, query, days, maxResults, search, hash, prior)| >= 1
  {
    var hits := HitsOf(qi, query, days, search);
    assert prior + [] == prior;
    AdmitItemsIsCappedPassing(resolve, hits, 0, prior, [], maxResults, hash);
    PassingNonEmpty(resolve, hits, 0, prior, hash, j);
  }

  /**
   * The articles gathered from the queries `qi` on, appended to `articles`
   * in query order.
   */
  function GatherFrom(resolve: Resolver, queries: seq<string>, qi: nat, days: int, maxResults: int,
                      search: Searcher, hash: Hasher, articles: seq<RawArticle>): (r: seq<RawArticle>)
    requires qi <= |queries|
    requires AllAdmitted(resolve, hash, articles) && Distinct(Urls(articles))
    ensures |articles| <= |r| && r[..|articles|] == articles
    ensures AllAdmitted(resolve, hash, r) && Distinct(Urls(r))
    ensures |r| <= |articles| + (|queries| - qi) * Cap(maxResults)
    decreases |queries| - qi
  {
    if qi == |queries| then articles
    else
      var added := QueryArticles(resolve, qi, queries[qi], days, maxResults, search, hash, articles);
      QueryArticlesSpec(resolve, qi, queries[qi], days, maxResults, search, hash, articles);
      assert AllAdmitted(resolve, hash, articles + added);
      var r := GatherFrom(resolve, queries, qi + 1, days, maxResults, search, hash, articles + added);
      assert r[..|articles|] == (articles + added)[..|articles|];
      assert (|queries| - qi) * Cap(maxResults) == (|queries| - (qi + 1)) * Cap(maxResults) + Cap(maxResults);
      r
  }

  /**
   * `gather` of gather_demo.py: every article has a url and a title, a
   * whitelisted source and is eligible for clustering; no url occurs twice
   * across all queries; each query contributes at most `max(1, max_results)`.
   */
  function Gather(wl: seq<Tier>, queries: seq<string>, days: int, maxResults: int,
                  search: Searcher, hash: Hasher): (r: seq<RawArticle>)
    ensures AllAdmitted(ResolverOf(wl), hash, r)
    ensures forall k :: 0 <= k < |r| ==> r[k].source == ResolveSource(wl, r[k].url) && r[k].source.whitelisted
    ensures Distinct(Urls(r))
    ensures |r| <= |queries| * Cap(maxResults)
  {
    GatherFrom(ResolverOf(wl), queries, 0, days, maxResults, search, hash, [])
  }

  /**
   * Gathering from the queries `qi` on ends with something when a later
   * query has a hit that qualifies: either its url was gathered already, or
   * that query adds at least one article.
   */
  lemma {:induction false} GatherFromNonEmpty(resolve: Resolver, queries: seq<string>, qi: nat, days: int, maxResults: int,
                                              search: Searcher, hash: Hasher, articles: seq<RawArticle>, q: nat, j: nat)
    requires qi <= q < |queries|
    requires AllAdmitted(resolve, hash, articles) && Distinct(Urls(articles))
    requires j < |HitsOf(q, queries[q], days, search)| && Qualifies(resolve, HitsOf(q, queries[q], days, search)[j])
    ensures |GatherFrom(resolve, queries, qi, days, maxResults, search, hash, articles)| >= 1
    decreases |queries| - qi
  {
    var added := QueryArticles(resolve, qi, queries[qi], days, maxResults, search, hash, articles);
    QueryArticlesSpec(resolve, qi, queries[qi], days, maxResults, search, hash, articles);
    assert AllAdmitted(resolve, hash, articles + added);
    if qi < q {
      GatherFromNonEmpty(resolve, queries, qi + 1, days, maxResults, search, hash, articles + added, q, j);
    } else if !Skipped(resolve, HitsOf(q, queries[q], days, search)[j], articles) {
      QueryAdmitsSome(resolve, q, queries[q], days, maxResults, search, hash, articles, j);
    }
  }

  /**
   * `gather` returns at least one article as soon as any query's hits
   * include one with a url, a title and a whitelisted source.
   */
  lemma GatherNonEmpty(wl: seq<Tier>, queries: seq<string>, days: int, maxResults: int,
                       search: Searcher, hash: Hasher, q: nat, j: nat)
    requires q < |queries| && j < |HitsOf(q, queries[q], days, search)|
    requires var hit := HitsOf(q, queries[q], days, search)[j];
      hit.href != "" && hit.title != "" && ResolveSource(wl, hit.href).whitelisted
    ensures |Gather(wl, queries, days, maxResults, search, hash)| >= 1
  {
    GatherFromNonEmpty(ResolverOf(wl), queries, 0, days, maxResults, search, hash, [], q, j);
  }
}

=== FILE: journalist.dfy ===
/**
 * `JournalistAgent.write_reports` of journalist_demo.py: one research
 * report per event, for the first `max_events` events, written by a
 * language model from the texts of the event's articles and completed with
 * the event's outlets and score.
 */
module Journalist {
  import opened Results
  import opened Text
  import opened Seqs
  import opened Sources
  import opened Analyst

  /** `NewsReport`; the score is the event's, kept as the real it is assigned. */
  datatype NewsReport = NewsReport(
    eventId: string,
    title: string,
    summary: string,
    background: string,
    analysis: string,
    outlook: string,
    keyPoints: seq<string>,
    sourceRefs: seq<string>,
    impactScore: real)

  /** The value `event_id` has when the model's answer does not give one. */
  const DefaultEventId: string := ""

  /** How much of an article's text the context quotes. */
  const ContentLimit: nat := 800

  /** The text an article contributes: its full text, or its snippet when that is empty. */
  function BodyText(a: RawArticle): (t: string)
    ensures |a.fullText| > 0 ==> t == a.fullText
    ensures |a.fullText| == 0 ==> t == a.snippet
  {
    if |a.fullText| > 0 then a.fullText else a.snippet
  }

  /** One article in the context: its outlet and the first 800 characters of its text. */
  function ContextEntry(a: RawArticle): string {
    "- Source: " + a.source.outletName + "\n  Content: " + Take(BodyText(a), ContentLimit) + "...\n\n"
  }

  /** The context handed to the model: the entries of the articles, in order. */
  function Context(articles: seq<RawArticle>): string
    decreases |articles|
  {
    if |articles| == 0 then ""
    else ContextEntry(articles[0]) + Context(articles[1..])
  }

  /** The outlets of the articles, in order, with repeats. */
  function Outlets(articles: seq<RawArticle>): (r: seq<string>)
    ensures |r| == |articles| && forall k :: 0 <= k < |r| ==> r[k] == articles[k].source.outletName
  {
    seq(|articles|, k requires 0 <= k < |articles| => articles[k].source.outletName)
  }

  /**
   * The writing model, given the 1-based number of the event, the context
   * and the word guideline: `Err` when the chain raises, `Ok(None)` when it
   * gives no report.
   */
  type Generator = (nat, string, string) -> Result<Option<NewsReport>>

  /**
   * The metadata completed on a drafted report: the outlets without
   * repeats and the event's score; with `link`, also the event's id, which
   * the code as written never copies.
   */
  function Complete(draft: NewsReport, e: Event, link: bool): (r: NewsReport)
    ensures Distinct(r.sourceRefs)
    ensures forall o :: o in r.sourceRefs <==> exists k :: 0 <= k < |e.articles| && e.articles[k].source.outletName == o
    ensures r.impactScore == e.score
    ensures r.eventId == if link then e.eventId else draft.eventId
    ensures r.(sourceRefs := draft.sourceRefs, impactScore := draft.impactScore, eventId := draft.eventId) == draft
  {
    var refs := Dedup(Outlets(e.articles));
    var r := draft.(sourceRefs := refs, impactScore := e.score);
    if link then r.(eventId := e.eventId) else r
  }

  /** The model's answer for the `i`-th target event (0-based). */
  function Draft(targets: seq<Event>, i: nat, guideline: string, gen: Generator): Result<Option<NewsReport>>
    requires i < |targets|
  {
    gen(i + 1, Context(targets[i].articles), guideline)
  }

  /** How a drafted report is completed from its event. */
  type Finish = (NewsReport, Event) -> NewsReport

  /** Completion with or without the event's id. */
  function Finisher(link: bool): Finish {
    (draft: NewsReport, e: Event) => Complete(draft, e, link)
  }

  /** The reports for the target events from `i` on; an event whose draft fails is skipped. */
  function Drafts(targets: seq<Event>, i: nat, guideline: string, gen: Generator, finish: Finish): (r: seq<NewsReport>)
    requires i <= |targets|
    ensures |r| <= |targets| - i
    decreases |targets| - i
  {
    if i == |targets| then []
    else
      var d := Draft(targets, i, guideline, gen);
      var rest := Drafts(targets, i + 1, guideline, gen, finish);
      if d.Ok? && d.value.Some? then [finish(d.value.value, targets[i])] + rest
      else rest
  }

  /** `write_reports` as written: no event gives no report; only the first `max_events` events are drafted. */
  function WriteReports(events: seq<Event>, maxEvents: int, guideline: string, gen: Generator): (r: seq<NewsReport>)
    ensures |events| == 0 ==> r == []
    ensures |r| <= |Take(events, maxEvents)| <= |events|
  {
    if |events| == 0 then [] else Drafts(Take(events, maxEvents), 0, guideline, gen, Finisher(false))
  }

  /** `write_reports` as evidently intended: each report also carries the id of its event. */
  function WriteLinkedReports(events: seq<Event>, maxEvents: int, guideline: string, gen: Generator): (r: seq<NewsReport>)
    ensures |events| == 0 ==> r == []
    ensures |r| <= |Take(events, maxEvents)| <= |events|
  {
    if |events| == 0 then [] else Drafts(Take(events, maxEvents), 0, guideline, gen, Finisher(true))
  }

  /** The draft of the `i`-th target event gives a report. */
  predicate Succeeds(targets: seq<Event>, i: nat, guideline: string, gen: Generator)
    requires i < |targets|
  {
    Draft(targets, i, guideline, gen).Ok? && Draft(targets, i, guideline, gen).value.Some?
  }

  /** The positions from `i` on whose draft gives a report. */
  function Drafted(targets: seq<Event>, i: nat, guideline: string, gen: Generator): (o: seq<nat>)
    requires i <= |targets|
    ensures forall k :: 0 <= k < |o| ==> i <= o[k] < |targets|
    ensures forall k, l :: 0 <= k < l < |o| ==> o[k] < o[l]
    ensures forall k :: 0 <= k < |o| ==> Succeeds(targets, o[k], guideline, gen)
    decreases |targets| - i
  {
    if i == |targets| then []
    else
      var d := Draft(targets, i, guideline, gen);
      var rest := Drafted(targets, i + 1, guideline, gen);
      if d.Ok? && d.value.Some? then [i] + rest else rest
  }

  /** No successful draft is left out. */
  lemma {:induction false} DraftedComplete(targets: seq<Event>, i: nat, guideline: string, gen: Generator)
    requires i <= |targets|
    ensures forall j :: i <= j < |targets| && Succeeds(targets, j, guideline, gen) ==> j in Drafted(targets, i, guideline, gen)
    decreases |targets| - i
  {
    if i < |targets| {
      DraftedComplete(targets, i + 1, guideline, gen);
    }
  }

  /** Drafting from `i` gives one report per successful draft. */
  lemma {:induction false} DraftsCount(targets: seq<Event>, i: nat, guideline: string, gen: Generator, finish: Finish)
    requires i <= |targets|
    ensures |Drafts(targets, i, guideline, gen, finish)| == |Drafted(targets, i, guideline, gen)|
    decreases |targets| - i
  {
    if i < |targets| {
      DraftsCount(targets, i + 1, guideline, gen, finish);
    }
  }

  /** Report `k` is the completed draft of the `k`-th event whose draft succeeded. */
  lemma {:induction false} DraftAt(targets: seq<Event>, i: nat, guideline: string, gen: Generator, finish: Finish, k: nat)
    requires i <= |targets|
    requires k < |Drafts(targets, i, guideline, gen, finish)| && k < |Drafted(targets, i, guideline, gen)|
    ensures var j := Drafted(targets, i, guideline, gen)[k];
      Drafts(targets, i, guideline, gen, finish)[k] == finish(Draft(targets, j, guideline, gen).value.value, targets[j])
    decreases |targets| - i
  {
    if i < |targets| {
      var d := Draft(targets, i, guideline, gen);
      var r := Drafts(targets, i, guideline, gen, finish);
      var o := Drafted(targets, i, guideline, gen);
      var rRest := Drafts(targets, i + 1, guideline, gen, finish);
      var oRest := Drafted(targets, i + 1, guideline, gen);
      if d.Ok? && d.value.Some? {
        assert r == [finish(d.value.value, targets[i])] + rRest;
        assert o == [i] + oRest;
        if k > 0 {
          DraftAt(targets, i + 1, guideline, gen, finish, k - 1);
          assert r[k] == rRest[k - 1] && o[k] == oRest[k - 1];
        }
      } else {
        assert r == rRest && o == oRest;
        DraftAt(targets, i + 1, guideline, gen, finish, k);
      }
    }
  }

  /**
   * Report `k` is the completed draft of the `k`-th event whose draft
   * succeeded: events are taken in order, and a failing event only drops
   * its own report.
   */
  lemma DraftsSpec(targets: seq<Event>, i: nat, guideline: string, gen: Generator, finish: Finish)
    requires i <= |targets|
    ensures var r := Drafts(targets, i, guideline, gen, finish);
      var o := Drafted(targets, i, guideline, gen);
      && |r| == |o|
      && forall k :: 0 <= k < |r| ==> r[k] == finish(Draft(targets, o[k], guideline, gen).value.value, targets[o[k]])
  {
    DraftsCount(targets, i, guideline, gen, finish);
    forall k | 0 <= k < |Drafts(targets, i, guideline, gen, finish)|
      ensures var j := Drafted(targets, i, guideline, gen)[k];
        Drafts(targets, i, guideline, gen, finish)[k] == finish(Draft(targets, j, guideline, gen).value.value, targets[j])
    {
      DraftAt(targets, i, guideline, gen, finish, k);
    }
  }

  /**
   * `write_reports`: report `k` belongs to the `k`-th of the first
   * `max_events` events whose draft succeeded; its `source_refs` are that
   * event's outlets without repeats, its score is the event's score, and,
   * as written, its id is whatever the model's answer gave.
   */
  lemma WriteReportsSpec(events: seq<Event>, maxEvents: int, guideline: string, gen: Generator)
    requires |events| > 0
    ensures var targets := Take(events, maxEvents);
      var r := WriteReports(events, maxEvents, guideline, gen);
      var o := Drafted(targets, 0, guideline, gen);
      && |r| == |o|
      && forall k :: 0 <= k < |r| ==>
           var e := events[o[k]];
           var draft := Draft(targets, o[k], guideline, gen).value.value;
           && r[k].impactScore == e.score
           && Distinct(r[k].sourceRefs)
           && (forall x :: x in r[k].sourceRefs <==> x in Outlets(e.articles))
           && r[k].eventId == draft.eventId
  {
    var targets := Take(events, maxEvents);
    DraftsSpec(targets, 0, guideline, gen, Finisher(false));
  }

  /** When every draft from `i` on succeeds, each of those events gives a report. */
  lemma {:induction false} DraftsAll(targets: seq<Event>, i: nat, guideline: string, gen: Generator, finish: Finish)
    requires i <= |targets|
    requires forall j :: i <= j < |targets| ==> Succeeds(targets, j, guideline, gen)
    ensures |Drafts(targets, i, guideline, gen, finish)| == |targets| - i
    decreases |targets| - i
  {
    if i < |targets| {
      DraftsAll(targets, i + 1, guideline, gen, finish);
      var d := Draft(targets, i, guideline, gen);
      assert Succeeds(targets, i, guideline, gen);
      assert Drafts(targets, i, guideline, gen, finish)
        == [finish(d.value.value, targets[i])] + Drafts(targets, i + 1, guideline, gen, finish);
    }
  }

  /** When every draft succeeds, there is one report per target event. */
  lemma AllDraftedAllReported(events: seq<Event>, maxEvents: int, guideline: string, gen: Generator)
    requires |events| > 0
    requires forall j :: 0 <= j < |Take(events, maxEvents)| ==> Succeeds(Take(events, maxEvents), j, guideline, gen)
    ensures |WriteReports(events, maxEvents, guideline, gen)| == |Take(events, maxEvents)|
  {
    DraftsAll(Take(events, maxEvents), 0, guideline, gen, Finisher(false));
  }
}

=== FILE: number_guard.dfy ===
/**
 * `NumberGuard` of auditor_demo.py: reading a Chinese financial quantity such
 * as "3.5万亿", "50%" or "100BP" as one number, and listing every quantity
 * token of a text. Values are `real`, so scale rewrites agree exactly.
 */
module NumberGuard {
  import opened Results
  import opened Text

  // ---------------------------------------------------------------------------
  // The leading number: `re.search(r"[-+]?\d*\.?\d+", text)`
  // ---------------------------------------------------------------------------

  /** End of the maximal run of digits of `s` that starts at `i`. */
  function DigitRunEnd(s: string, i: nat): (j: nat)
    requires i <= |s|
    ensures i <= j <= |s|
    ensures forall k :: i <= k < j ==> IsDigit(s[k])
    ensures j < |s| ==> !IsDigit(s[j])
    decreases |s| - i
  {
    if i < |s| && IsDigit(s[i]) then DigitRunEnd(s, i + 1) else i
  }

  /**
   * Where `\d*\.?\d+` ends when tried at `j`, if it matches there. The greedy
   * `\d*` gives back its last digit when no fraction follows, so the match is
   * the digit run, extended by "." and a second run when one follows, or a
   * "." directly followed by digits.
   */
  function UnsignedEnd(s: string, j: nat): (e: Option<nat>)
    requires j <= |s|
    ensures e.Some? ==> j < e.value <= |s|
  {
    var k := DigitRunEnd(s, j);
    if k + 1 < |s| && s[k] == '.' && IsDigit(s[k + 1]) then Some(DigitRunEnd(s, k + 1))
    else if k > j then Some(k)
    else None
  }

  predicate IsSign(c: char) {
    c == '-' || c == '+'
  }

  /**
   * Where `[-+]?\d*\.?\d+` ends when tried at `i`, if it matches there. When a
   * sign is not followed by a number, dropping the optional sign cannot help,
   * because the sign itself is neither a digit nor ".".
   */
  function NumeralEnd(s: string, i: nat): (e: Option<nat>)
    requires i <= |s|
    ensures e.Some? ==> i < e.value <= |s|
  {
    if i < |s| && IsSign(s[i]) then UnsignedEnd(s, i + 1) else UnsignedEnd(s, i)
  }

  /** A match of the number pattern always contains a digit. */
  lemma NumeralHasDigit(s: string, i: nat)
    requires i <= |s|
    requires NumeralEnd(s, i).Some?
    ensures exists k :: i <= k < |s| && IsDigit(s[k])
  {
    var j := if i < |s| && IsSign(s[i]) then i + 1 else i;
    var k := DigitRunEnd(s, j);
    if k + 1 < |s| && s[k] == '.' && IsDigit(s[k + 1]) {
      assert IsDigit(s[k + 1]);
    } else {
      assert IsDigit(s[j]);
    }
  }

  /**
   * `re.search`: the leftmost position at or after `i` where the number
   * pattern matches, with the end of that match.
   */
  function Search(s: string, i: nat): (m: Option<(nat, nat)>)
    requires i <= |s|
    ensures m.Some? ==> i <= m.value.0 < m.value.1 <= |s| && NumeralEnd(s, m.value.0) == Some(m.value.1)
    ensures m.Some? ==> forall k :: i <= k < m.value.0 ==> NumeralEnd(s, k).None?
    ensures m.None? ==> forall k :: i <= k <= |s| ==> NumeralEnd(s, k).None?
    decreases |s| - i
  {
    match NumeralEnd(s, i)
    case Some(e) => Some((i, e))
    case None => if i == |s| then None else Search(s, i + 1)
  }

  /** The value of a string of digits read as a decimal integer. */
  function DigitsValue(d: string): nat
    requires forall k :: 0 <= k < |d| ==> IsDigit(d[k])
  {
    if |d| == 0 then 0 else 10 * DigitsValue(d[..|d| - 1]) + DigitValue(d[|d| - 1])
  }

  function Pow10(n: nat): (p: nat)
    ensures p >= 1
  {
    if n == 0 then 1 else 10 * Pow10(n - 1)
  }

  /** `float(t)` for an unsigned match: the integer digits plus the fraction after ".". */
  function UnsignedValue(t: string): real {
    var k := DigitRunEnd(t, 0);
    var whole := DigitsValue(t[..k]) as real;
    if k < |t| && t[k] == '.' then
      var f := DigitRunEnd(t, k + 1);
      whole + (DigitsValue(t[k + 1..f]) as real) / (Pow10(f - k - 1) as real)
    else whole
  }

  /** `float(tok)` for a match of the number pattern. */
  function NumeralValue(tok: string): real {
    if |tok| > 0 && tok[0] == '-' then -UnsignedValue(tok[1..])
    else if |tok| > 0 && tok[0] == '+' then UnsignedValue(tok[1..])
    else UnsignedValue(tok)
  }

  /** The unit strings, in the order they are looked for. */
  const TrillionUnit: string := "万亿"
  const HundredMillionUnit: string := "亿"
  const TenThousandUnit: string := "万"
  const PercentUnit: string := "%"
  const BasisPointUnit: string := "基点"
  const BasisPointAbbrev: string := "BP"

  /** The scales `normalize_cn_number` recognises, and "no unit". */
  datatype Unit = Trillions | HundredMillions | TenThousands | Percent | BasisPoints | NoUnit

  /**
   * The unit whose multiplier is applied: the first one present anywhere in
   * the text, in the order 万亿, 亿, 万, %, then "BP" in any letter case or 基点.
   */
  function UnitOf(t: string): (u: Unit)
    ensures u == Trillions <==> Contains(t, TrillionUnit)
    ensures u == HundredMillions <==> !Contains(t, TrillionUnit) && Contains(t, HundredMillionUnit)
    ensures u == TenThousands <==>
              !Contains(t, TrillionUnit) && !Contains(t, HundredMillionUnit) && Contains(t, TenThousandUnit)
    ensures u == Percent <==>
              && !Contains(t, TrillionUnit) && !Contains(t, HundredMillionUnit) && !Contains(t, TenThousandUnit)
              && Contains(t, PercentUnit)
    ensures u == BasisPoints <==>
              && !Contains(t, TrillionUnit) && !Contains(t, HundredMillionUnit) && !Contains(t, TenThousandUnit)
              && !Contains(t, PercentUnit)
              && (Contains(UpperAscii(t), BasisPointAbbrev) || Contains(t, BasisPointUnit))
    ensures u == NoUnit <==>
              && !Contains(t, TrillionUnit) && !Contains(t, HundredMillionUnit) && !Contains(t, TenThousandUnit)
              && !Contains(t, PercentUnit)
              && !Contains(UpperAscii(t), BasisPointAbbrev) && !Contains(t, BasisPointUnit)
  {
    if Contains(t, TrillionUnit) then Trillions
    else if Contains(t, HundredMillionUnit) then HundredMillions
    else if Contains(t, TenThousandUnit) then TenThousands
    else if Contains(t, PercentUnit) then Percent
    else if Contains(UpperAscii(t), BasisPointAbbrev) || Contains(t, BasisPointUnit) then BasisPoints
    else NoUnit
  }

  /** `value` times the unit's multiplier: 10^12, 10^8, 10^4, 10^-2, 10^-4 or 1. */
  function Scale(value: real, u: Unit): real {
    match u
    case Trillions => value * 1000000000000.0
    case HundredMillions => value * 100000000.0
    case TenThousands => value * 10000.0
    case Percent => value * 0.01
    case BasisPoints => value * 0.0001
    case NoUnit => value
  }

  /**
   * `NumberGuard.normalize_cn_number`: drop the thousands commas, read the
   * leftmost signed decimal, scale it by the unit; 0 when there is no number.
   */
  function NormalizeCnNumber(text: string): real {
    ReadStripped(ReplaceAll(text, ",", ""))
  }

  /** The reading of a text whose commas are already gone. */
  function ReadStripped(t: string): real {
    match Search(t, 0)
    case None => 0.0
    case Some((a, b)) => Scale(NumeralValue(t[a..b]), UnitOf(t))
  }

  // ---------------------------------------------------------------------------
  // Properties of the normaliser
  // ---------------------------------------------------------------------------

  /** A text without any digit reads as 0.0 rather than failing. */
  lemma NormalizeNoDigit(text: string)
    requires forall k :: 0 <= k < |text| ==> !IsDigit(text[k])
    ensures NormalizeCnNumber(text) == 0.0
  {
    var t := ReplaceAll(text, ",", "");
    ReplaceElementIsWithout(text, ',');
    assert forall k :: 0 <= k < |t| ==> t[k] in text;
    if Search(t, 0).Some? {
      NumeralHasDigit(t, Search(t, 0).value.0);
      assert false;
    }
  }

  /** Thousands separators never change the value: a text reads as its comma-free form. */
  lemma NormalizeIgnoresCommas(text: string)
    ensures NormalizeCnNumber(text) == NormalizeCnNumber(Without(text, ','))
  {
    ReplaceElementIsWithout(text, ',');
    ReplaceElementIsWithout(Without(text, ','), ',');
  }

  /** The run of digits starting at `i` ends at `e` when `s[i..e]` are digits and `s[e]` is not. */
  lemma {:induction false} DigitRunEndAt(s: string, i: nat, e: nat)
    requires i <= e <= |s|
    requires forall k :: i <= k < e ==> IsDigit(s[k])
    requires e < |s| ==> !IsDigit(s[e])
    ensures DigitRunEnd(s, i) == e
    decreases e - i
  {
    if i < e {
      DigitRunEndAt(s, i + 1, e);
    }
  }

  /** Appending a zero digit multiplies the integer value by ten. */
  lemma AppendZero(d: string)
    requires forall k :: 0 <= k < |d| ==> IsDigit(d[k])
    ensures DigitsValue(d + "0") == 10 * DigitsValue(d)
  {
    assert (d + "0")[..|d|] == d;
  }

  /** Appending "0000" multiplies the integer value by 10^4. */
  const FourZeros: string := "0000"

  lemma AppendFourZeros(d: string)
    requires forall k :: 0 <= k < |d| ==> IsDigit(d[k])
    ensures DigitsValue(d + FourZeros) == 10000 * DigitsValue(d)
  {
    AppendZero(d);
    AppendZero(d + "0");
    AppendZero(d + "0" + "0");
    AppendZero(d + "0" + "0" + "0");
    assert d + "0" + "0" + "0" + "0" == d + FourZeros;
  }

  /** A text without commas is left as it is by the comma removal. */
  lemma NoCommaUnchanged(s: string)
    requires ',' !in s
    ensures ReplaceAll(s, ",", "") == s
  {
    if Contains(s, ",") {
      ContainsHasElements(s, ",", 0);
    }
    ReplaceAbsent(s, ",", "");
  }

  /** In `d + u` with `d` digits and `u` starting with neither a digit nor ".", the leftmost number is `d`. */
  lemma LeadingDigitsMatch(d: string, u: string)
    requires |d| > 0 && forall k :: 0 <= k < |d| ==> IsDigit(d[k])
    requires |u| > 0 ==> !IsDigit(u[0]) && u[0] != '.'
    ensures Search(d + u, 0) == Some((0, |d|))
  {
    var s := d + u;
    DigitRunEndAt(s, 0, |d|);
    assert !IsSign(s[0]);
    assert UnsignedEnd(s, 0) == Some(|d|);
  }

  /** A digit string reads as its integer value. */
  lemma DigitsReadAsValue(d: string)
    requires |d| > 0 && forall k :: 0 <= k < |d| ==> IsDigit(d[k])
    ensures NumeralValue(d) == DigitsValue(d) as real
  {
    DigitRunEndAt(d, 0, |d|);
    assert d[..|d|] == d;
  }

  /** The leftmost number of `d + u` is `d`, scaled by the unit of the whole text. */
  lemma ReadDigitsThenUnit(d: string, u: string)
    requires |d| > 0 && forall k :: 0 <= k < |d| ==> IsDigit(d[k])
    requires |u| > 0 ==> !IsDigit(u[0]) && u[0] != '.'
    ensures ReadStripped(d + u) == Scale(DigitsValue(d) as real, UnitOf(d + u))
  {
    LeadingDigitsMatch(d, u);
    assert (d + u)[0..|d|] == d;
    DigitsReadAsValue(d);
  }

  /** Comma removal leaves `d + u` alone when neither part has a comma. */
  lemma CommaFreeConcat(d: string, u: string)
    requires forall k :: 0 <= k < |d| ==> IsDigit(d[k])
    requires ',' !in u
    ensures NormalizeCnNumber(d + u) == ReadStripped(d + u)
  {
    NotInDigitsThen(d, u, ',');
    NoCommaUnchanged(d + u);
  }

  /**
   * A digit string followed by a unit text that starts with neither a digit
   * nor "." and holds no comma reads as the digits times the unit's scale.
   */
  lemma DigitsThenUnit(d: string, u: string)
    requires |d| > 0 && forall k :: 0 <= k < |d| ==> IsDigit(d[k])
    requires |u| > 0 ==> !IsDigit(u[0]) && u[0] != '.'
    requires ',' !in u
    ensures NormalizeCnNumber(d + u) == Scale(DigitsValue(d) as real, UnitOf(d + u))
  {
    CommaFreeConcat(d, u);
    ReadDigitsThenUnit(d, u);
  }

  /** Every character of `d + u` is a digit of `d` or a character of `u`. */
  lemma NotInDigitsThen(d: string, u: string, c: char)
    requires forall k :: 0 <= k < |d| ==> IsDigit(d[k])
    requires !IsDigit(c) && c !in u
    ensures c !in d + u
  {
    var s := d + u;
    forall k | 0 <= k < |s|
      ensures s[k] != c
    {
      if k >= |d| {
        assert s[k] == u[k - |d|];
      }
    }
  }

  /** `d + u` contains the unit `u`. */
  lemma EndsWithUnit(d: string, u: string)
    ensures Contains(d + u, u)
  {
    assert StartsWith(u, u);
    if |u| == 0 {
      assert StartsWith(d + u, u);
    } else {
      assert Contains(u, u);
      ContainsInSuffix(d, u, u);
    }
  }

  /** Digits followed by 亿 are scaled by 10^8. */
  lemma ScaleOfHundredMillion(d: string)
    requires forall k :: 0 <= k < |d| ==> IsDigit(d[k])
    ensures UnitOf(d + HundredMillionUnit) == HundredMillions
  {
    NotInDigitsThen(d, HundredMillionUnit, '万');
    if Contains(d + HundredMillionUnit, TrillionUnit) {
      ContainsHasElements(d + HundredMillionUnit, TrillionUnit, 0);
    }
    EndsWithUnit(d, HundredMillionUnit);
  }

  /** Digits followed by 万 are scaled by 10^4. */
  lemma ScaleOfTenThousand(d: string)
    requires forall k :: 0 <= k < |d| ==> IsDigit(d[k])
    ensures UnitOf(d + TenThousandUnit) == TenThousands
  {
    NotInDigitsThen(d, TenThousandUnit, '亿');
    if Contains(d + TenThousandUnit, TrillionUnit) {
      ContainsHasElements(d + TenThousandUnit, TrillionUnit, 1);
    }
    if Contains(d + TenThousandUnit, HundredMillionUnit) {
      ContainsHasElements(d + TenThousandUnit, HundredMillionUnit, 0);
    }
    EndsWithUnit(d, TenThousandUnit);
  }

  /** "3万亿" and "30000亿" both read as 3 * 10^12, for any digit string in place of 3. */
  lemma TrillionRewrite(d: string)
    requires |d| > 0 && forall k :: 0 <= k < |d| ==> IsDigit(d[k])
    ensures NormalizeCnNumber(d + TrillionUnit) == NormalizeCnNumber(d + FourZeros + HundredMillionUnit) == (DigitsValue(d) as real) * 1000000000000.0
  {
    TrillionDirect(d);
    TrillionAsHundredMillions(d);
  }

  /** Digits, four zeros and 亿 are the digits' value times 10^12. */
  lemma TrillionAsHundredMillions(d: string)
    requires |d| > 0 && forall k :: 0 <= k < |d| ==> IsDigit(d[k])
    ensures NormalizeCnNumber(d + FourZeros + HundredMillionUnit) == (DigitsValue(d) as real) * 1000000000000.0
  {
    var d4 := d + FourZeros;
    assert forall k :: 0 <= k < |d4| ==> IsDigit(d4[k]);
    AppendFourZeros(d);
    assert d + FourZeros + HundredMillionUnit == d4 + HundredMillionUnit;
    DigitsThenUnit(d4, HundredMillionUnit);
    ScaleOfHundredMillion(d4);
    var v := DigitsValue(d);
    assert (v * 10000) as real == (v as real) * 10000.0;
  }

  /** Digits followed by 万亿 are scaled by 10^12. */
  lemma TrillionDirect(d: string)
    requires |d| > 0 && forall k :: 0 <= k < |d| ==> IsDigit(d[k])
    ensures NormalizeCnNumber(d + TrillionUnit) == (DigitsValue(d) as real) * 1000000000000.0
  {
    DigitsThenUnit(d, TrillionUnit);
    EndsWithUnit(d, TrillionUnit);
    assert UnitOf(d + TrillionUnit) == Trillions;
  }

  /** "5亿" and "50000万" both read as 5 * 10^8, for any digit string in place of 5. */
  lemma HundredMillionRewrite(d: string)
    requires |d| > 0 && forall k :: 0 <= k < |d| ==> IsDigit(d[k])
    ensures NormalizeCnNumber(d + HundredMillionUnit) == NormalizeCnNumber(d + FourZeros + TenThousandUnit) == (DigitsValue(d) as real) * 100000000.0
  {
    DigitsThenUnit(d, HundredMillionUnit);
    ScaleOfHundredMillion(d);
    HundredMillionAsTenThousands(d);
  }

  /** Digits, four zeros and 万 are the digits' value times 10^8. */
  lemma HundredMillionAsTenThousands(d: string)
    requires |d| > 0 && forall k :: 0 <= k < |d| ==> IsDigit(d[k])
    ensures NormalizeCnNumber(d + FourZeros + TenThousandUnit) == (DigitsValue(d) as real) * 100000000.0
  {
    var d4 := d + FourZeros;
    assert forall k :: 0 <= k < |d4| ==> IsDigit(d4[k]);
    AppendFourZeros(d);
    assert d + FourZeros + TenThousandUnit == d4 + TenThousandUnit;
    DigitsThenUnit(d4, TenThousandUnit);
    ScaleOfTenThousand(d4);
    var v := DigitsValue(d);
    assert (v * 10000) as real == (v as real) * 10000.0;
  }

  /** "7万" and "70000" both read as 7 * 10^4, for any digit string in place of 7. */
  lemma TenThousandRewrite(d: string)
    requires |d| > 0 && forall k :: 0 <= k < |d| ==> IsDigit(d[k])
    ensures NormalizeCnNumber(d + TenThousandUnit) == NormalizeCnNumber(d + FourZeros) == (DigitsValue(d) as real) * 10000.0
  {
    DigitsThenUnit(d, TenThousandUnit);
    ScaleOfTenThousand(d);
    TenThousandAsUnits(d);
  }

  /** Digits and four zeros, with no unit, are the digits' value times 10^4. */
  lemma TenThousandAsUnits(d: string)
    requires |d| > 0 && forall k :: 0 <= k < |d| ==> IsDigit(d[k])
    ensures NormalizeCnNumber(d + FourZeros) == (DigitsValue(d) as real) * 10000.0
  {
    var d4 := d + FourZeros;
    assert forall k :: 0 <= k < |d4| ==> IsDigit(d4[k]);
    AppendFourZeros(d);
    DigitsThenUnit(d4, "");
    assert d4 + "" == d4;
    NoUnitScale(d4);
    var v := DigitsValue(d);
    assert (v * 10000) as real == (v as real) * 10000.0;
  }

  /** A digit string carries no unit. */
  lemma NoUnitScale(d: string)
    requires forall k :: 0 <= k < |d| ==> IsDigit(d[k])
    ensures UnitOf(d) == NoUnit
  {
    NotInDigitsThen(d, "", '万');
    NotInDigitsThen(d, "", '亿');
    NotInDigitsThen(d, "", '%');
    NotInDigitsThen(d, "", '点');
    NotInDigitsThen(d, "", 'P');
    assert d + "" == d;
    assert forall k :: 0 <= k < |d| ==> UpperAscii(d)[k] == d[k];
    assert UpperAscii(d) == d;
    if Contains(d, TrillionUnit) { ContainsHasElements(d, TrillionUnit, 0); }
    if Contains(d, HundredMillionUnit) { ContainsHasElements(d, HundredMillionUnit, 0); }
    if Contains(d, TenThousandUnit) { ContainsHasElements(d, TenThousandUnit, 0); }
    if Contains(d, PercentUnit) { ContainsHasElements(d, PercentUnit, 0); }
    if Contains(d, BasisPointAbbrev) { ContainsHasElements(d, BasisPointAbbrev, 1); }
    if Contains(d, BasisPointUnit) { ContainsHasElements(d, BasisPointUnit, 1); }
  }

  /** Digits followed by "%" are scaled by 1/100. */
  lemma PercentOf(d: string)
    requires |d| > 0 && forall k :: 0 <= k < |d| ==> IsDigit(d[k])
    ensures NormalizeCnNumber(d + PercentUnit) == (DigitsValue(d) as real) * 0.01
  {
    DigitsThenUnit(d, PercentUnit);
    PercentUnitOf(d);
  }

  /** The unit read from digits followed by "%" is the percent. */
  lemma PercentUnitOf(d: string)
    requires forall k :: 0 <= k < |d| ==> IsDigit(d[k])
    ensures UnitOf(d + PercentUnit) == Percent
  {
    var s := d + PercentUnit;
    NotInDigitsThen(d, PercentUnit, '万');
    NotInDigitsThen(d, PercentUnit, '亿');
    if Contains(s, TrillionUnit) { ContainsHasElements(s, TrillionUnit, 0); }
    if Contains(s, HundredMillionUnit) { ContainsHasElements(s, HundredMillionUnit, 0); }
    if Contains(s, TenThousandUnit) { ContainsHasElements(s, TenThousandUnit, 0); }
    EndsWithUnit(d, PercentUnit);
  }

  /** The suffix "bp" in lower case. */
  const BasisPointLower: string := "bp"

  /** Digits followed by "bp" are scaled by 1/10000: the letter case of "BP" does not matter. */
  lemma BasisPointsOf(d: string)
    requires |d| > 0 && forall k :: 0 <= k < |d| ==> IsDigit(d[k])
    ensures NormalizeCnNumber(d + BasisPointLower) == (DigitsValue(d) as real) * 0.0001
  {
    DigitsThenUnit(d, BasisPointLower);
    BasisPointLowerUnit(d);
  }

  /** The unit read from digits followed by "bp" is the basis point. */
  lemma BasisPointLowerUnit(d: string)
    requires forall k :: 0 <= k < |d| ==> IsDigit(d[k])
    ensures UnitOf(d + BasisPointLower) == BasisPoints
  {
    var s := d + BasisPointLower;
    NotInDigitsThen(d, BasisPointLower, '万');
    NotInDigitsThen(d, BasisPointLower, '亿');
    NotInDigitsThen(d, BasisPointLower, '%');
    if Contains(s, TrillionUnit) { ContainsHasElements(s, TrillionUnit, 0); }
    if Contains(s, HundredMillionUnit) { ContainsHasElements(s, HundredMillionUnit, 0); }
    if Contains(s, TenThousandUnit) { ContainsHasElements(s, TenThousandUnit, 0); }
    if Contains(s, PercentUnit) { ContainsHasElements(s, PercentUnit, 0); }
    UpperDigitsBp(d);
    EndsWithUnit(d, BasisPointAbbrev);
  }

  /** Upper-casing digits followed by "bp" gives the digits followed by "BP". */
  lemma UpperDigitsBp(d: string)
    requires forall k :: 0 <= k < |d| ==> IsDigit(d[k])
    ensures UpperAscii(d + BasisPointLower) == d + BasisPointAbbrev
  {
    var s := d + BasisPointLower;
    assert forall k :: 0 <= k < |s| ==> UpperAscii(s)[k] == (d + BasisPointAbbrev)[k];
  }

  /** The module's own example: "3万亿" and "30000亿" are the same amount. */
  lemma TrillionExample()
    ensures NormalizeCnNumber("3万亿") == NormalizeCnNumber("30000亿") == 3000000000000.0
  {
    assert DigitsValue("3") == 3;
    TrillionRewrite("3");
    assert "3" + TrillionUnit == "3万亿";
    assert "3" + FourZeros + HundredMillionUnit == "30000亿";
  }

  /** "50%" reads as one half. */
  lemma PercentExample()
    ensures NormalizeCnNumber("50%") == 0.5
  {
    assert DigitsValue("50") == 50 by { assert "50"[..1] == "5"; }
    PercentOf("50");
    assert "50" + PercentUnit == "50%";
  }

  /** "100bp" reads as one hundredth. */
  lemma BasisPointExample()
    ensures NormalizeCnNumber("100bp") == 0.01
  {
    assert DigitsValue("100") == 100 by { assert "100"[..2] == "10"; assert "10"[..1] == "1"; }
    BasisPointsOf("100");
    assert "100" + BasisPointLower == "100bp";
  }

  /** "100BP", the module's own upper-case spelling, also reads as one hundredth. */
  lemma BasisPointUpperExample()
    ensures NormalizeCnNumber("100BP") == 0.01
  {
    var d := "100";
    assert DigitsValue(d) == 100 by { assert "100"[..2] == "10"; assert "10"[..1] == "1"; }
    assert d + BasisPointAbbrev == "100BP";
    DigitsThenUnit(d, BasisPointAbbrev);
    BasisPointUpperUnit(d);
  }

  /** The unit read from digits followed by "BP" is the basis point. */
  lemma BasisPointUpperUnit(d: string)
    requires forall k :: 0 <= k < |d| ==> IsDigit(d[k])
    ensures UnitOf(d + BasisPointAbbrev) == BasisPoints
  {
    var s := d + BasisPointAbbrev;
    NotInDigitsThen(d, BasisPointAbbrev, '万');
    NotInDigitsThen(d, BasisPointAbbrev, '亿');
    NotInDigitsThen(d, BasisPointAbbrev, '%');
    if Contains(s, TrillionUnit) { ContainsHasElements(s, TrillionUnit, 0); }
    if Contains(s, HundredMillionUnit) { ContainsHasElements(s, HundredMillionUnit, 0); }
    if Contains(s, TenThousandUnit) { ContainsHasElements(s, TenThousandUnit, 0); }
    if Contains(s, PercentUnit) { ContainsHasElements(s, PercentUnit, 0); }
    assert UpperAscii(s) == s by {
      assert forall k :: 0 <= k < |s| ==> UpperAscii(s)[k] == s[k];
    }
    EndsWithUnit(d, BasisPointAbbrev);
  }

  /** "3.5万亿" reads as 3.5 * 10^12: the fraction is read before the trillion scale. */
  lemma TrillionFractionExample()
    ensures NormalizeCnNumber("3.5万亿") == 3500000000000.0
  {
    var t := "3.5万亿";
    NoCommaUnchanged(t);
    TrillionFractionMatch();
    assert t[0..3] == "3.5";
    ThreeAndHalfReads();
    TrillionFractionUnit();
  }

  /** The leftmost number in "3.5万亿" is "3.5". */
  lemma TrillionFractionMatch()
    ensures Search("3.5万亿", 0) == Some((0, 3))
  {
    var t := "3.5万亿";
    DigitRunEndAt(t, 0, 1);
    DigitRunEndAt(t, 2, 3);
    assert NumeralEnd(t, 0) == Some(3);
  }

  /** "3.5" reads as three and a half. */
  lemma ThreeAndHalfReads()
    ensures NumeralValue("3.5") == 3.5
  {
    var tok := "3.5";
    DigitRunEndAt(tok, 0, 1);
    DigitRunEndAt(tok, 2, 3);
    assert tok[..1] == "3" && tok[2..3] == "5";
    assert DigitsValue("3") == 3 && DigitsValue("5") == 5;
  }

  /** The unit of "3.5万亿" is the trillion. */
  lemma TrillionFractionUnit()
    ensures UnitOf("3.5万亿") == Trillions
  {
    assert "3.5万亿" == "3.5" + TrillionUnit;
    EndsWithUnit("3.5", TrillionUnit);
  }

  /** The counter word and unit 个基点 ("basis points"). */
  const BasisPointWord: string := "个基点"

  /** Digits followed by 个基点 are scaled by 1/10000. */
  lemma BasisPointWordOf(d: string)
    requires |d| > 0 && forall k :: 0 <= k < |d| ==> IsDigit(d[k])
    ensures NormalizeCnNumber(d + BasisPointWord) == (DigitsValue(d) as real) * 0.0001
  {
    DigitsThenUnit(d, BasisPointWord);
    BasisPointWordUnit(d);
  }

  /** The unit read from digits followed by 个基点 is the basis point. */
  lemma BasisPointWordUnit(d: string)
    requires forall k :: 0 <= k < |d| ==> IsDigit(d[k])
    ensures UnitOf(d + BasisPointWord) == BasisPoints
  {
    var s := d + BasisPointWord;
    NotInDigitsThen(d, BasisPointWord, '万');
    NotInDigitsThen(d, BasisPointWord, '亿');
    NotInDigitsThen(d, BasisPointWord, '%');
    if Contains(s, TrillionUnit) { ContainsHasElements(s, TrillionUnit, 0); }
    if Contains(s, HundredMillionUnit) { ContainsHasElements(s, HundredMillionUnit, 0); }
    if Contains(s, TenThousandUnit) { ContainsHasElements(s, TenThousandUnit, 0); }
    if Contains(s, PercentUnit) { ContainsHasElements(s, PercentUnit, 0); }
    assert s == (d + "个") + BasisPointUnit;
    EndsWithUnit(d + "个", BasisPointUnit);
  }

  /** "1个基点" reads as one ten-thousandth. */
  lemma BasisPointWordExample()
    ensures NormalizeCnNumber("1个基点") == 0.0001
  {
    assert DigitsValue("1") == 1;
    BasisPointWordOf("1");
    assert "1" + BasisPointWord == "1个基点";
  }

  /** "1,000" and "1000" read alike, as one thousand. */
  lemma CommaExample()
    ensures NormalizeCnNumber("1,000") == NormalizeCnNumber("1000") == 1000.0
  {
    NormalizeIgnoresCommas("1,000");
    DropCommaExample();
    ThousandReads();
  }

  /** Dropping the commas of "1,000" leaves "1000". */
  lemma DropCommaExample()
    ensures Without("1,000", ',') == "1000"
  {
    var s := "1,000";
    assert s[1..] == ",000" && s[2..] == "000" && s[3..] == "00" && s[4..] == "0" && s[5..] == "";
  }

  /** "1000" reads as one thousand. */
  lemma ThousandReads()
    ensures NormalizeCnNumber("1000") == 1000.0
  {
    var d := "1000";
    assert DigitsValue("1") == 1;
    AppendZero("1");
    assert "1" + "0" == "10";
    AppendZero("10");
    assert "10" + "0" == "100";
    AppendZero("100");
    assert "100" + "0" == d;
    DigitsThenUnit(d, "");
    assert d + "" == d;
    NoUnitScale(d);
  }

  /** "0.5%" reads as five thousandths: the fraction is read before the percent scale. */
  lemma HalfPercentExample()
    ensures NormalizeCnNumber("0.5%") == 0.005
  {
    var t := "0.5%";
    NoCommaUnchanged(t);
    HalfPercentMatch();
    assert t[0..3] == "0.5";
    HalfReads();
    HalfPercentUnit();
  }

  /** The leftmost number in "0.5%" is "0.5". */
  lemma HalfPercentMatch()
    ensures Search("0.5%", 0) == Some((0, 3))
  {
    var t := "0.5%";
    DigitRunEndAt(t, 0, 1);
    DigitRunEndAt(t, 2, 3);
    assert NumeralEnd(t, 0) == Some(3);
  }

  /** "0.5" reads as one half. */
  lemma HalfReads()
    ensures NumeralValue("0.5") == 0.5
  {
    var tok := "0.5";
    DigitRunEndAt(tok, 0, 1);
    DigitRunEndAt(tok, 2, 3);
    assert tok[..1] == "0" && tok[2..3] == "5";
    assert DigitsValue("0") == 0 && DigitsValue("5") == 5;
  }

  /** The unit of "0.5%" is the percent. */
  lemma HalfPercentUnit()
    ensures UnitOf("0.5%") == Percent
  {
    var t := "0.5%";
    if Contains(t, TrillionUnit) { ContainsHasElements(t, TrillionUnit, 0); }
    if Contains(t, HundredMillionUnit) { ContainsHasElements(t, HundredMillionUnit, 0); }
    if Contains(t, TenThousandUnit) { ContainsHasElements(t, TenThousandUnit, 0); }
    assert t == "0.5" + PercentUnit;
    EndsWithUnit("0.5", PercentUnit);
  }

  // ---------------------------------------------------------------------------
  // The token list: `re.findall(r"\d+(?:\.\d+)?(?:万亿|亿|万|%|BP|个基点)?", text)`
  // ---------------------------------------------------------------------------

  /**
   * Where the optional unit `(?:万亿|亿|万|%|BP|个基点)?` ends at `k`: the
   * alternatives are tried in order, so "万亿" wins over "万".
   */
  function UnitEnd(s: string, k: nat): (e: nat)
    requires k <= |s|
    ensures k <= e <= |s|
    ensures e > k && s[e - 1] == '万' && e < |s| ==> s[e] != '亿'
  {
    var rest := s[k..];
    if StartsWith(rest, "万亿") then k + 2
    else if StartsWith(rest, "亿") then k + 1
    else if StartsWith(rest, "万") then k + 1
    else if StartsWith(rest, "%") then k + 1
    else if StartsWith(rest, "BP") then k + 2
    else if StartsWith(rest, "个基点") then k + 3
    else k
  }

  /** Where the token pattern ends when matched at the digit `s[i]`. */
  function TokenEnd(s: string, i: nat): (e: nat)
    requires i < |s| && IsDigit(s[i])
    ensures i < e <= |s|
    ensures !(s[e - 1] == '万' && e < |s| && s[e] == '亿')
  {
    var k := DigitRunEnd(s, i);
    var f := if k + 1 < |s| && s[k] == '.' && IsDigit(s[k + 1]) then DigitRunEnd(s, k + 1) else k;
    UnitEnd(s, f)
  }

  /**
   * The spans `re.findall` reports from position `i` on: at a digit a token
   * is taken and the scan resumes after it; anywhere else the scan moves on
   * by one character.
   */
  function TokenSpans(s: string, i: nat): (r: seq<(nat, nat)>)
    requires i <= |s|
    ensures forall k :: 0 <= k < |r| ==> i <= r[k].0 < r[k].1 <= |s|
    decreases |s| - i
  {
    if i == |s| then []
    else if IsDigit(s[i]) then
      var e := TokenEnd(s, i);
      var rest := TokenSpans(s, e);
      var r := [(i, e)] + rest;
      assert forall k :: 0 < k < |r| ==> r[k] == rest[k - 1];
      r
    else TokenSpans(s, i + 1)
  }

  /** At a digit, the scan takes the token there and resumes after it. */
  lemma TokenSpansAtDigit(s: string, i: nat)
    requires i < |s| && IsDigit(s[i])
    ensures TokenSpans(s, i) == [(i, TokenEnd(s, i))] + TokenSpans(s, TokenEnd(s, i))
  {
  }

  /**
   * The `k`-th reported span starts at a digit, ends before the next one
   * starts, and never separates a 万 from the 亿 right after it.
   */
  lemma TokenSpanAt(s: string, i: nat, k: nat)
    requires i <= |s| && k < |TokenSpans(s, i)|
    ensures IsDigit(s[TokenSpans(s, i)[k].0])
    ensures k + 1 < |TokenSpans(s, i)| ==> TokenSpans(s, i)[k].1 <= TokenSpans(s, i)[k + 1].0
    ensures !(s[TokenSpans(s, i)[k].1 - 1] == '万' && TokenSpans(s, i)[k].1 < |s| && s[TokenSpans(s, i)[k].1] == '亿')
  {
    TokenSpanIsToken(s, i, k);
    if k + 1 < |TokenSpans(s, i)| {
      TokenSpanIsToken(s, i, k + 1);
      TokenSpansOrdered(s, i, k);
    }
  }

  /** Every reported span is a token taken at a digit. */
  lemma {:induction false} TokenSpanIsToken(s: string, i: nat, k: nat)
    requires i <= |s| && k < |TokenSpans(s, i)|
    ensures var (a, b) := TokenSpans(s, i)[k]; a < |s| && IsDigit(s[a]) && b == TokenEnd(s, a)
    decreases |s| - i
  {
    if IsDigit(s[i]) {
      var e := TokenEnd(s, i);
      TokenSpansAtDigit(s, i);
      if k > 0 {
        TokenSpanIsToken(s, e, k - 1);
      }
    } else {
      TokenSpanIsToken(s, i + 1, k);
    }
  }

  /** A reported span ends before the next one starts. */
  lemma {:induction false} TokenSpansOrdered(s: string, i: nat, k: nat)
    requires i <= |s| && k + 1 < |TokenSpans(s, i)|
    ensures TokenSpans(s, i)[k].1 <= TokenSpans(s, i)[k + 1].0
    decreases |s| - i
  {
    if IsDigit(s[i]) {
      var e := TokenEnd(s, i);
      TokenSpansAtDigit(s, i);
      if k > 0 {
        TokenSpansOrdered(s, e, k - 1);
      }
    } else {
      TokenSpansOrdered(s, i + 1, k);
    }
  }

  /** `NumberGuard.extract_financial_numbers`: every quantity token, left to right. */
  function ExtractFinancialNumbers(text: string): seq<string> {
    var spans := TokenSpans(text, 0);
    seq(|spans|, k requires 0 <= k < |spans| => text[spans[k].0..spans[k].1])
  }

  /** Every digit of the text lies inside one of the reported tokens. */
  lemma {:induction false} DigitsCovered(s: string, i: nat, p: nat)
    requires i <= p < |s| && IsDigit(s[p])
    ensures exists k :: 0 <= k < |TokenSpans(s, i)| && TokenSpans(s, i)[k].0 <= p < TokenSpans(s, i)[k].1
    decreases |s| - i
  {
    var r := TokenSpans(s, i);
    if IsDigit(s[i]) {
      var e := TokenEnd(s, i);
      assert r[0] == (i, e);
      if e <= p {
        DigitsCovered(s, e, p);
        var k :| 0 <= k < |TokenSpans(s, e)| && TokenSpans(s, e)[k].0 <= p < TokenSpans(s, e)[k].1;
        assert r[k + 1] == TokenSpans(s, e)[k];
      }
    } else {
      DigitsCovered(s, i + 1, p);
    }
  }

  /**
   * The tokens are pieces of the text, left to right without overlap, each
   * starting with a digit; every digit of the text is inside one of them;
   * a 万 directly followed by 亿 always stays in the same token as that 亿.
   */
  lemma ExtractFinancialNumbersSpec(text: string)
    ensures var spans := TokenSpans(text, 0);
      && |ExtractFinancialNumbers(text)| == |spans|
      && (forall k :: 0 <= k < |spans| ==> ExtractFinancialNumbers(text)[k] == text[spans[k].0..spans[k].1] && IsDigit(text[spans[k].0]))
      && (forall k :: 0 <= k < |spans| - 1 ==> spans[k].1 <= spans[k + 1].0)
      && (forall p :: 0 <= p < |text| && IsDigit(text[p]) ==> exists k :: 0 <= k < |spans| && spans[k].0 <= p < spans[k].1)
  {
    var spans := TokenSpans(text, 0);
    forall k | 0 <= k < |spans|
      ensures IsDigit(text[spans[k].0])
      ensures k < |spans| - 1 ==> spans[k].1 <= spans[k + 1].0
    {
      TokenSpanAt(text, 0, k);
    }
    forall p | 0 <= p < |text| && IsDigit(text[p])
      ensures exists k :: 0 <= k < |TokenSpans(text, 0)| && TokenSpans(text, 0)[k].0 <= p < TokenSpans(text, 0)[k].1
    {
      DigitsCovered(text, 0, p);
    }
  }
}

=== FILE: pipeline.dfy ===
/**
 * The analyst, the journalist and the auditor chained as the application
 * runs them (cluster, then write, then audit against the same events).
 * Reports are matched to events by `event_id`, which `write_reports` as
 * written never fills in; the linked variant does.
 */
module Pipeline {
  import opened Results
  import opened Text
  import opened Seqs
  import opened Sources
  import opened Analyst
  import opened Journalist
  import opened Auditor

  /**
   * The writing model leaves `event_id` at its default: the answer format it
   * is asked for has no such field.
   */
  ghost predicate DraftsCarryDefaultId(gen: Generator) {
    forall n, c, g :: gen(n, c, g).Ok? && gen(n, c, g).value.Some? ==> gen(n, c, g).value.value.eventId == DefaultEventId
  }

  /** Every report written as the code stands keeps the default id. */
  lemma UnlinkedReportsKeepDefaultId(events: seq<Event>, maxEvents: int, guideline: string, gen: Generator)
    requires DraftsCarryDefaultId(gen)
    ensures var r := WriteReports(events, maxEvents, guideline, gen);
      forall k :: 0 <= k < |r| ==> r[k].eventId == DefaultEventId
  {
    if |events| > 0 {
      WriteReportsSpec(events, maxEvents, guideline, gen);
    }
  }

  /**
   * As written, no report is ever audited when no event has the empty id:
   * every report's id is "", which the event map does not hold.
   */
  lemma UnlinkedReportsAreNeverAudited(events: seq<Event>, maxEvents: int, guideline: string, gen: Generator, judge: Judge)
    requires DraftsCarryDefaultId(gen)
    requires forall k :: 0 <= k < |events| ==> events[k].eventId != DefaultEventId
    ensures BatchAudit(WriteReports(events, maxEvents, guideline, gen), events, judge) == []
  {
    var reports := WriteReports(events, maxEvents, guideline, gen);
    UnlinkedReportsKeepDefaultId(events, maxEvents, guideline, gen);
    if |reports| > 0 {
      NoMatchNoAudit(reports, 0, EventMap(events), AuditWith(judge));
    }
  }

  /** Clustered events always have ids of the form "evt_…", so never the empty id. */
  lemma ClusteredIdsAreNotDefault(articles: seq<RawArticle>, respond: Responder, clock: Clock)
    ensures var events := ClusterArticles(articles, respond, clock);
      forall k :: 0 <= k < |events| ==> events[k].eventId != DefaultEventId
  {
    ClusterArticlesSpec(articles, respond, clock);
    var events := ClusterArticles(articles, respond, clock);
    forall k | 0 <= k < |events|
      ensures events[k].eventId != DefaultEventId
    {
      var n :| events[k].eventId == EventPrefix + clock(n);
    }
  }

  /** The chain as the application runs it audits nothing, whatever the articles and the models say. */
  lemma PipelineAuditsNothing(articles: seq<RawArticle>, respond: Responder, clock: Clock,
                              maxEvents: int, guideline: string, gen: Generator, judge: Judge)
    requires DraftsCarryDefaultId(gen)
    ensures var events := ClusterArticles(articles, respond, clock);
      BatchAudit(WriteReports(events, maxEvents, guideline, gen), events, judge) == []
  {
    ClusteredIdsAreNotDefault(articles, respond, clock);
    UnlinkedReportsAreNeverAudited(ClusterArticles(articles, respond, clock), maxEvents, guideline, gen, judge);
  }

  /** A drafted report with the default id. */
  const SampleDraft: NewsReport := NewsReport(DefaultEventId, "title", "summary", "", "", "", [], [], 0.0)

  /** One analyst event. */
  const SampleEvent: Event := Event("evt_1", "title", "summary", 8.5, [], "general")

  /**
   * The concrete case: one event and a model that always drafts a report
   * gives one report, and the audit of it against that event is empty.
   */
  lemma OneReportNoAudit(judge: Judge)
    ensures var gen: Generator := (n: nat, c: string, g: string) => Ok(Some(SampleDraft));
      && |WriteReports([SampleEvent], 3, "", gen)| == 1
      && BatchAudit(WriteReports([SampleEvent], 3, "", gen), [SampleEvent], judge) == []
  {
    var gen: Generator := (n: nat, c: string, g: string) => Ok(Some(SampleDraft));
    assert Take([SampleEvent], 3) == [SampleEvent];
    AllDraftedAllReported([SampleEvent], 3, "", gen);
    UnlinkedReportsAreNeverAudited([SampleEvent], 3, "", gen, judge);
  }

  /** Every linked report carries the id of an event it was written from. */
  lemma LinkedReportIds(events: seq<Event>, maxEvents: int, guideline: string, gen: Generator)
    ensures var r := WriteLinkedReports(events, maxEvents, guideline, gen);
      var o := Drafted(Take(events, maxEvents), 0, guideline, gen);
      |r| == |o| && forall k :: 0 <= k < |r| ==> o[k] < |events| && r[k].eventId == events[o[k]].eventId
  {
    if |events| > 0 {
      DraftsSpec(Take(events, maxEvents), 0, guideline, gen, Finisher(true));
    }
  }

  /**
   * With the reports linked to their events, every report is audited, in
   * order, each result keeping its report and id.
   */
  lemma LinkedReportsAreAllAudited(events: seq<Event>, maxEvents: int, guideline: string, gen: Generator, judge: Judge)
    ensures var reports := WriteLinkedReports(events, maxEvents, guideline, gen);
      var r := BatchAudit(reports, events, judge);
      && |r| == |reports|
      && forall k :: 0 <= k < |r| ==> r[k].originalReport == reports[k] && r[k].eventId == reports[k].eventId
  {
    var reports := WriteLinkedReports(events, maxEvents, guideline, gen);
    var m := EventMap(events);
    LinkedReportIds(events, maxEvents, guideline, gen);
    var o := Drafted(Take(events, maxEvents), 0, guideline, gen);
    forall j | 0 <= j < |reports|
      ensures reports[j].eventId in m
    {
      assert events[o[j]].eventId == reports[j].eventId;
    }
    MatchedBatchKeepsReports(reports, events, judge);
  }

  /** With distinct event ids, the event map sends each linked report's id to the event it was written from. */
  lemma LinkedReportSources(events: seq<Event>, maxEvents: int, guideline: string, gen: Generator)
    requires forall i, j :: 0 <= i < j < |events| ==> events[i].eventId != events[j].eventId
    ensures var reports := WriteLinkedReports(events, maxEvents, guideline, gen);
      var o := Drafted(Take(events, maxEvents), 0, guideline, gen);
      var m := EventMap(events);
      |reports| == |o| && forall k :: 0 <= k < |reports| ==>
        o[k] < |events| && reports[k].eventId in m && m[reports[k].eventId] == events[o[k]]
  {
    var reports := WriteLinkedReports(events, maxEvents, guideline, gen);
    var o := Drafted(Take(events, maxEvents), 0, guideline, gen);
    LinkedReportIds(events, maxEvents, guideline, gen);
    forall k | 0 <= k < |reports|
      ensures reports[k].eventId in EventMap(events) && EventMap(events)[reports[k].eventId] == events[o[k]]
    {
      EventMapLastWins(events, o[k]);
    }
  }

  /**
   * When the events have distinct ids, each linked report is audited
   * against the very event it was written from.
   */
  lemma LinkedReportsAuditedAgainstOwnEvent(events: seq<Event>, maxEvents: int, guideline: string, gen: Generator, judge: Judge)
    requires forall i, j :: 0 <= i < j < |events| ==> events[i].eventId != events[j].eventId
    ensures var reports := WriteLinkedReports(events, maxEvents, guideline, gen);
      var r := BatchAudit(reports, events, judge);
      var o := Drafted(Take(events, maxEvents), 0, guideline, gen);
      |r| == |reports| == |o| && forall k :: 0 <= k < |r| ==> r[k] == AuditSingle(reports[k], events[o[k]], k, judge)
  {
    var reports := WriteLinkedReports(events, maxEvents, guideline, gen);
    var o := Drafted(Take(events, maxEvents), 0, guideline, gen);
    var m := EventMap(events);
    LinkedReportSources(events, maxEvents, guideline, gen);
    if |reports| > 0 {
      AllMatchAllAudited(reports, 0, m, AuditWith(judge));
      var r := BatchAudit(reports, events, judge);
      assert r == AuditFrom(reports, 0, m, AuditWith(judge));
      forall k | 0 <= k < |r|
        ensures r[k] == AuditSingle(reports[k], events[o[k]], k, judge)
      {
        assert m[reports[k].eventId] == events[o[k]];
        assert r[k] == AuditWith(judge)(reports[k], events[o[k]], k);
      }
    }
  }
}

=== FILE: results.dfy ===
/** Values that may be missing and steps that may raise, shared by every module of the model. */
module Results {

  /** A value that may be absent: a dictionary key that is not there, a `None`. */
  datatype Option<+T> = None | Some(value: T) {

    /** `d.get(key, default)`: the value when present, otherwise `default`. */
    function GetOr(default: T): T {
      match this
      case Some(v) => v
      case None => default
    }
  }

  /** The outcome of a step that may raise an exception; `Err` carries the exception's text. */
  datatype Result<+T> = Ok(value: T) | Err(msg: string)
}

=== FILE: seqs.dfy ===
/** Facts about sequences that the modelled list manipulations rely on. */
module Seqs {

  /** No element occurs twice. */
  predicate Distinct<T(==)>(s: seq<T>) {
    forall i, j :: 0 <= i < j < |s| ==> s[i] != s[j]
  }

  /** `s` without repeated elements: `list(set(s))` up to order (first occurrences are kept). */
  function Dedup<T(==)>(s: seq<T>): (r: seq<T>)
    ensures Distinct(r)
    ensures forall k :: 0 <= k < |r| ==> r[k] in s
    ensures forall k :: 0 <= k < |s| ==> s[k] in r
    ensures |r| <= |s|
    decreases |s|
  {
    if |s| == 0 then []
    else
      var p := Dedup(s[..|s| - 1]);
      var x := s[|s| - 1];
      assert s == s[..|s| - 1] + [x];
      if x in p then p else p + [x]
  }

  /** `a` is obtained from `b` by deleting elements, keeping the order of the rest. */
  predicate IsSubsequence<T(==)>(a: seq<T>, b: seq<T>)
    decreases |b|
  {
    |a| == 0 || (|b| > 0 && if a[0] == b[0] then IsSubsequence(a[1..], b[1..]) else IsSubsequence(a, b[1..]))
  }

  /** Keeping the first element of `b` keeps the subsequence relation. */
  lemma {:induction false} SubsequenceCons<T>(x: T, a: seq<T>, b: seq<T>)
    requires IsSubsequence(a, b)
    ensures IsSubsequence([x] + a, [x] + b)
  {
    assert ([x] + a)[1..] == a;
    assert ([x] + b)[1..] == b;
  }

  /** Dropping the first element of `b` keeps the subsequence relation. */
  lemma {:induction false} SubsequenceSkip<T>(x: T, a: seq<T>, b: seq<T>)
    requires IsSubsequence(a, b)
    ensures IsSubsequence(a, [x] + b)
    decreases |b|, 1
  {
    assert ([x] + b)[1..] == b;
    if |a| > 0 && a[0] == x {
      // The greedy match takes `x`; the rest of `a` still fits into `b`.
      SubsequenceTail(a, b);
    }
  }

  /** A subsequence without its first element is still a subsequence. */
  lemma {:induction false} SubsequenceTail<T>(a: seq<T>, b: seq<T>)
    requires |a| > 0
    requires IsSubsequence(a, b)
    ensures IsSubsequence(a[1..], b)
    decreases |b|, 0
  {
    if a[0] == b[0] {
      SubsequenceSkip(b[0], a[1..], b[1..]);
      assert [b[0]] + b[1..] == b;
    } else {
      SubsequenceTail(a, b[1..]);
      SubsequenceSkip(b[0], a[1..], b[1..]);
      assert [b[0]] + b[1..] == b;
    }
  }

  /** Every element of a subsequence is an element of the whole. */
  lemma {:induction false} SubsequenceElements<T>(a: seq<T>, b: seq<T>)
    requires IsSubsequence(a, b)
    ensures forall k :: 0 <= k < |a| ==> a[k] in b
    decreases |b|
  {
    if |a| > 0 {
      if a[0] == b[0] {
        SubsequenceElements(a[1..], b[1..]);
        assert a == [a[0]] + a[1..];
      } else {
        SubsequenceElements(a, b[1..]);
      }
    }
  }
}

=== FILE: sources.dfy ===
/**
 * Where an article comes from (gather_demo.py): the records the gatherers
 * produce, the domain whitelist, and `resolve_source`, which reads the host
 * out of a url and places it in the first whitelist tier naming a fragment of
 * it.
 */
module Sources {
  import opened Results
  import opened Text

  /** `SourceInfo`: the url, its host without "www.", the tier and whether any tier matched. */
  datatype SourceInfo = SourceInfo(url: string, domain: string, tier: string, outletName: string, whitelisted: bool)

  /** `RawArticle`: one gathered news item. */
  datatype RawArticle = RawArticle(
    articleId: string,
    url: string,
    title: string,
    snippet: string,
    fullText: string,
    source: SourceInfo,
    eligibleForEvent: bool,
    publishDate: string)

  /** One whitelist tier: its name and the domain fragments that place a host in it. */
  datatype Tier = Tier(name: string, domains: seq<string>)

  /** The tier, and the domain, of a source nothing could be said about. */
  const Unknown: string := "unknown"

  /** The whitelist of gather_demo.py: regulators first, then financial media. */
  const DuckWhitelist: seq<Tier> := [
    Tier("tier1", ["pbc.gov.cn", "mof.gov.cn", "gov.cn", "ndrc.gov.cn",
                   "stats.gov.cn", "csrc.gov.cn", "nfra.gov.cn", "safe.gov.cn"]),
    Tier("tier2", ["caixin.com", "cls.cn", "yicai.com", "21jingji.com",
                   "sina.com.cn", "news.cn", "stcn.com", "cs.com.cn",
                   "cnstock.com", "financialnews.com.cn", "ce.cn",
                   "jiemian.com", "thepaper.cn", "eeo.com.cn", "nbd.com.cn"])
  ]

  /** The fragment every government host carries. */
  const GovCn: string := "gov.cn"

  /** The prefix removed from hosts. */
  const Www: string := "www."

  /**
   * `url.split("/")[2]`: the third "/"-separated piece, present exactly when
   * the url holds at least two "/".
   */
  function HostSegment(url: string): (h: Option<string>)
    ensures h.Some? <==> Count(url, '/') >= 2
    ensures h.Some? ==> '/' !in h.value && Contains(url, h.value)
  {
    var parts := Split(url, '/');
    if |parts| >= 3 then
      HostIsPiece(parts);
      Some(parts[2])
    else None
  }

  /** The third piece of a split occurs in the joined text. */
  lemma HostIsPiece(parts: seq<string>)
    requires |parts| >= 3
    ensures Contains(JoinWith(parts, ['/']), parts[2])
  {
    var head := parts[0] + ['/'] + parts[1] + ['/'];
    var tail := if |parts| == 3 then [] else ['/'] + JoinWith(parts[3..], ['/']);
    assert parts[1..][1..] == parts[2..];
    assert parts[2..][1..] == parts[3..];
    assert JoinWith(parts[2..], ['/']) == parts[2] + tail;
    assert JoinWith(parts[1..], ['/']) == parts[1] + ['/'] + (parts[2] + tail);
    assert JoinWith(parts, ['/']) == head + (parts[2] + tail);
    assert StartsWith(parts[2] + tail, parts[2]);
    ContainsInSuffix(head, parts[2] + tail, parts[2]);
  }

  /**
   * The piece `HostSegment` picks: in a url written as
   * `p0 + "/" + p1 + "/" + h + q`, with no "/" in `p0`, `p1` or `h` and `q`
   * empty or starting with "/", it is `h`.
   */
  lemma HostSegmentOf(url: string, p0: string, p1: string, h: string, q: string)
    requires url == p0 + ['/'] + p1 + ['/'] + h + q
    requires '/' !in p0 && '/' !in p1 && '/' !in h
    requires |q| == 0 || q[0] == '/'
    ensures HostSegment(url) == Some(h)
  {
    var rest := p1 + ['/'] + (h + q);
    assert url == p0 + ['/'] + rest;
    SplitAfter(p0, rest, '/');
    SplitAfter(p1, h + q, '/');
    var tail := Split(h + q, '/');
    if |q| == 0 {
      assert h + q == h;
      SplitNone(h, '/');
    } else {
      assert h + q == h + ['/'] + q[1..];
      SplitAfter(h, q[1..], '/');
    }
    assert tail[0] == h;
    assert Split(url, '/') == [p0] + ([p1] + tail);
    assert Split(url, '/')[2] == h;
  }

  /** `host.replace("www.", "")` */
  function StripWww(host: string): string {
    ReplaceAll(host, Www, "")
  }

  /** A host without "www." is kept as it is. */
  lemma StripWwwAbsent(h: string)
    requires !Contains(h, Www)
    ensures StripWww(h) == h
  {
    ReplaceAbsent(h, Www, "");
  }

  /**
   * The removal works from the left: when the first "www." of the host starts
   * after `a`, the text before it is kept, that copy is dropped, and the rest
   * of the host is treated the same way.
   */
  lemma StripWwwFirst(a: string, b: string)
    requires forall k :: 0 <= k < |a| ==> !StartsWith((a + Www + b)[k..], Www)
    ensures StripWww(a + Www + b) == a + StripWww(b)
  {
    ReplaceFirst(a, b, Www, "");
  }

  /** The host of a url with a leading "www." loses exactly that prefix. */
  lemma StripWwwPrefix(h: string)
    requires !Contains(h, Www)
    ensures StripWww(Www + h) == h
  {
    StripWwwFirst([], h);
    assert [] + Www + h == Www + h;
    StripWwwAbsent(h);
  }

  /** `any(d in domain for d in tier.domains)` */
  predicate TierMatches(t: Tier, domain: string) {
    exists k :: 0 <= k < |t.domains| && Contains(domain, t.domains[k])
  }

  /** The index of the first tier from `i` on that matches `domain`. */
  function FirstTier(wl: seq<Tier>, domain: string, i: nat): (r: Option<nat>)
    requires i <= |wl|
    ensures r.Some? ==> i <= r.value < |wl| && TierMatches(wl[r.value], domain)
    ensures r.Some? ==> forall j :: i <= j < r.value ==> !TierMatches(wl[j], domain)
    ensures r.None? ==> forall j :: i <= j < |wl| ==> !TierMatches(wl[j], domain)
    decreases |wl| - i
  {
    if i == |wl| then None
    else if TierMatches(wl[i], domain) then Some(i)
    else FirstTier(wl, domain, i + 1)
  }

  /** No tier before the `j`-th matches `domain`. */
  predicate IsFirstMatch(wl: seq<Tier>, domain: string, j: nat)
    requires j <= |wl|
  {
    forall i :: 0 <= i < j ==> !TierMatches(wl[i], domain)
  }

  /** The domain `resolve_source` records: the host without "www.", or "unknown" when the url has none. */
  function DomainOf(url: string): string {
    match HostSegment(url)
    case Some(h) => StripWww(h)
    case None => Unknown
  }

  /**
   * `resolve_source` of gather_demo.py: the tiers are tried in order and the
   * first one naming a fragment of the domain wins; without a match the tier
   * stays "unknown". The outlet is named by its domain.
   */
  function ResolveSource(wl: seq<Tier>, url: string): (r: SourceInfo)
    ensures r.url == url && r.outletName == r.domain
    ensures !r.whitelisted ==> r.tier == Unknown
  {
    var domain := DomainOf(url);
    match FirstTier(wl, domain, 0)
    case Some(j) => SourceInfo(url, domain, wl[j].name, domain, true)
    case None => SourceInfo(url, domain, Unknown, domain, false)
  }

  /**
   * How `resolve_source` places a url: a url without a host piece has the
   * domain "unknown"; the source is whitelisted exactly when some tier names
   * a fragment of the domain, and then it takes the name of the first such
   * tier.
   */
  lemma ResolveSourceTiers(wl: seq<Tier>, url: string)
    ensures var r := ResolveSource(wl, url);
      && (HostSegment(url).None? ==> r.domain == Unknown)
      && (r.whitelisted <==> exists j :: 0 <= j < |wl| && TierMatches(wl[j], r.domain))
      && (r.whitelisted ==> exists j :: 0 <= j < |wl| && r.tier == wl[j].name && TierMatches(wl[j], r.domain) && IsFirstMatch(wl, r.domain, j))
  {
    var domain := DomainOf(url);
    match FirstTier(wl, domain, 0)
    case Some(j) =>
      assert IsFirstMatch(wl, domain, j);
    case None =>
  }

  /**
   * The domain `resolve_source` records for a url written as
   * `p0 + "/" + p1 + "/" + h + q` (the shape `HostSegmentOf` describes) is
   * `h` with every "www." removed, from the left (see `StripWwwFirst`).
   */
  lemma ResolveSourceDomain(wl: seq<Tier>, url: string, p0: string, p1: string, h: string, q: string)
    requires url == p0 + ['/'] + p1 + ['/'] + h + q
    requires '/' !in p0 && '/' !in p1 && '/' !in h
    requires |q| == 0 || q[0] == '/'
    ensures ResolveSource(wl, url).domain == StripWww(h)
  {
    HostSegmentOf(url, p0, p1, h, q);
  }

  /** When no tier is called "unknown", a source is whitelisted exactly when its tier is not "unknown". */
  lemma WhitelistedIffKnownTier(wl: seq<Tier>, url: string)
    requires forall j :: 0 <= j < |wl| ==> wl[j].name != Unknown
    ensures ResolveSource(wl, url).whitelisted <==> ResolveSource(wl, url).tier != Unknown
  {
  }

  /** A host without "." contains no fragment that has one. */
  lemma NoDotNoMatch(s: string, needle: string, k: nat)
    requires k < |needle| && needle[k] == '.'
    requires '.' !in s
    ensures !Contains(s, needle)
  {
    if Contains(s, needle) {
      ContainsHasElements(s, needle, k);
    }
  }

  /** Every fragment of the whitelist holds a "."; the position of one is given. */
  lemma DuckDomainsHaveDot(j: nat, k: nat)
    requires j < |DuckWhitelist| && k < |DuckWhitelist[j].domains|
    ensures exists p :: 0 <= p < |DuckWhitelist[j].domains[k]| && DuckWhitelist[j].domains[k][p] == '.'
  {
    var d := DuckWhitelist[j].domains[k];
    if j == 0 {
      assert d[|d| - 3] == '.';
    } else {
      assert d[|d| - 3] == '.' || d[|d| - 4] == '.';
    }
  }

  /** No tier of the whitelist matches the domain "unknown", which has no ".". */
  lemma UnknownMatchesNoTier(j: nat)
    requires j < |DuckWhitelist|
    ensures !TierMatches(DuckWhitelist[j], Unknown)
  {
    forall k | 0 <= k < |DuckWhitelist[j].domains|
      ensures !Contains(Unknown, DuckWhitelist[j].domains[k])
    {
      DuckDomainsHaveDot(j, k);
      var p :| 0 <= p < |DuckWhitelist[j].domains[k]| && DuckWhitelist[j].domains[k][p] == '.';
      NoDotNoMatch(Unknown, DuckWhitelist[j].domains[k], p);
    }
  }

  /** A url without a host is recorded as "unknown" and never whitelisted. */
  lemma NoHostNeverWhitelisted(url: string)
    requires Count(url, '/') < 2
    ensures ResolveSource(DuckWhitelist, url).domain == Unknown
    ensures !ResolveSource(DuckWhitelist, url).whitelisted
    ensures ResolveSource(DuckWhitelist, url).tier == Unknown
  {
    assert DomainOf(url) == Unknown;
    forall j | 0 <= j < |DuckWhitelist|
      ensures !TierMatches(DuckWhitelist[j], Unknown)
    {
      UnknownMatchesNoTier(j);
    }
  }

  /** Any domain containing "gov.cn" is placed in tier1, whatever else it contains. */
  lemma GovCnIsTier1(url: string)
    requires Contains(DomainOf(url), GovCn)
    ensures ResolveSource(DuckWhitelist, url).tier == "tier1"
    ensures ResolveSource(DuckWhitelist, url).whitelisted
  {
    assert DuckWhitelist[0].domains[2] == GovCn;
    assert TierMatches(DuckWhitelist[0], DomainOf(url));
  }

  /** A regulator's url: "https://www.pbc.gov.cn/x" is placed in tier1 under the domain "pbc.gov.cn". */
  lemma CentralBankExample()
    ensures ResolveSource(DuckWhitelist, "https://www.pbc.gov.cn/x").domain == "pbc.gov.cn"
    ensures ResolveSource(DuckWhitelist, "https://www.pbc.gov.cn/x").tier == "tier1"
    ensures ResolveSource(DuckWhitelist, "https://www.pbc.gov.cn/x").whitelisted
  {
    CentralBankDomain();
    CentralBankTier();
  }

  /** "pbc.gov.cn" is named by the first tier. */
  lemma CentralBankTier()
    ensures FirstTier(DuckWhitelist, "pbc.gov.cn", 0) == Some(0)
  {
    var host := "pbc.gov.cn";
    assert DuckWhitelist[0].domains[0] == host;
    assert StartsWith(host, host);
    assert TierMatches(DuckWhitelist[0], host);
  }

  /** The domain of "https://www.pbc.gov.cn/x" is its host without "www.". */
  lemma CentralBankDomain()
    ensures DomainOf("https://www.pbc.gov.cn/x") == "pbc.gov.cn"
  {
    var host := "pbc.gov.cn";
    CentralBankHost();
    CentralBankNoWww();
    StripWwwPrefix(host);
  }

  /** The host piece of "https://www.pbc.gov.cn/x" is "www.pbc.gov.cn". */
  lemma CentralBankHost()
    ensures HostSegment("https://www.pbc.gov.cn/x") == Some(Www + "pbc.gov.cn")
  {
    var url := "https://www.pbc.gov.cn/x";
    assert url == "https:" + ['/'] + "" + ['/'] + (Www + "pbc.gov.cn") + "/x";
    HostSegmentOf(url, "https:", "", Www + "pbc.gov.cn", "/x");
  }

  /** "pbc.gov.cn" holds no "www.". */
  lemma CentralBankNoWww()
    ensures !Contains("pbc.gov.cn", Www)
  {
    var host := "pbc.gov.cn";
    assert 'w' !in host;
    if Contains(host, Www) { ContainsHasElements(host, Www, 0); }
  }
}

=== FILE: strategy.dfy ===
/**
 * `_multi_strategy_search` of gather_demo.py: how many days back a search
 * looks, and the order in which the search is retried with looser settings
 * until one call returns anything.
 */
module Strategy {
  import opened Results
  import opened Text

  /** One search hit as the search engine returns it; a missing field reads as "". */
  datatype SearchItem = SearchItem(href: string, title: string, body: string)

  /**
   * One call of the search engine: the query, the region, the time window
   * ('d', 'w', 'm', 'y' or none) and how many calls for this query came
   * before it, so that a retry may see a different answer.
   */
  datatype SearchCall = SearchCall(query: string, region: string, timelimit: Option<char>, ordinal: nat)

  /**
   * The search engine, seen from one query: the position of the query in
   * the batch and the call give the hits (an exception is seen as no hits).
   */
  type Searcher = (nat, SearchCall) -> seq<SearchItem>

  /** The region searched first and the two tried after it. */
  const WorldRegion: string := "wt-wt"
  const UsRegion: string := "us-en"
  const CnRegion: string := "cn-zh"

  /** The number of days a time window spans. */
  function WindowDays(t: char): nat {
    match t
    case 'd' => 1
    case 'w' => 7
    case 'm' => 30
    case _ => 365
  }

  /** The windows the search engine offers, narrowest first. */
  const Windows: seq<char> := ['d', 'w', 'm', 'y']

  /**
   * The time window for a look-back of `days`: the narrowest window that
   * covers it, or none when even a year is too short.
   */
  function TimeLimit(days: int): (t: Option<char>)
    ensures t.None? <==> days > 365
    ensures t.Some? ==> t.value in Windows && days <= WindowDays(t.value)
    ensures t.Some? ==> forall k :: 0 <= k < |Windows| && days <= WindowDays(Windows[k]) ==> WindowDays(t.value) <= WindowDays(Windows[k])
  {
    if days <= 1 then Some('d')
    else if days <= 7 then Some('w')
    else if days <= 30 then Some('m')
    else if days <= 365 then Some('y')
    else None
  }

  /** The span a setting searches, with "no window" as the widest. */
  function Span(t: Option<char>): nat {
    match t
    case Some(c) => WindowDays(c)
    case None => 366
  }

  /** Looking further back never narrows the window. */
  lemma TimeLimitMonotone(d1: int, d2: int)
    requires d1 <= d2
    ensures Span(TimeLimit(d1)) <= Span(TimeLimit(d2))
  {
    if TimeLimit(d2).Some? {
      var k :| 0 <= k < |Windows| && Windows[k] == TimeLimit(d2).value;
    }
  }

  /** The path label of strategy A, "A(时限:x)" for the window x. */
  function LabelA(t: char): string {
    "A(时限:" + [t] + ")"
  }

  const LabelB: string := "B(无时限)"

  /** The path label of strategy C for a region, "C(region)". */
  function LabelC(region: string): string {
    "C(" + region + ")"
  }

  const Arrow: string := "→"
  const FailedSuffix: string := "(失败)"

  /** The strategy path as reported: the labels joined by arrows. */
  function Path(labels: seq<string>): string {
    JoinWith(labels, Arrow)
  }

  /**
   * `_multi_strategy_search` as written: A (two attempts with the window, if
   * there is one), then B (no window), then C in "us-en" and in "cn-zh";
   * the first call with any hits returns them with the path so far.
   */
  function MultiStrategySearch(qi: nat, query: string, days: int, search: Searcher): (seq<SearchItem>, string) {
    var tl := TimeLimit(days);
    var pathA: seq<string> := if tl.Some? then [LabelA(tl.value)] else [];
    var n := if tl.Some? then 2 else 0;
    var a0 := if tl.Some? then search(qi, SearchCall(query, WorldRegion, tl, 0)) else [];
    var a1 := if tl.Some? then search(qi, SearchCall(query, WorldRegion, tl, 1)) else [];
    if tl.Some? && |a0| > 0 then (a0, Path(pathA))
    else if tl.Some? && |a1| > 0 then (a1, Path(pathA))
    else
      var pathB := pathA + [LabelB];
      var b := search(qi, SearchCall(query, WorldRegion, None, n));
      if |b| > 0 then (b, Path(pathB))
      else
        var pathUs := pathB + [LabelC(UsRegion)];
        var us := search(qi, SearchCall(query, UsRegion, None, n + 1));
        if |us| > 0 then (us, Path(pathUs))
        else
          var pathCn := pathUs + [LabelC(CnRegion)];
          var cn := search(qi, SearchCall(query, CnRegion, None, n + 2));
          if |cn| > 0 then (cn, Path(pathCn))
          else ([], Path(pathCn) + FailedSuffix)
  }

  /** One step of the fallback plan: the call, and the label it adds to the path when it starts a strategy. */
  datatype Step = Step(call: SearchCall, opens: Option<string>)

  /** The labels the first `i` steps add to the path. */
  function Opened(steps: seq<Step>, i: nat): seq<string>
    requires i <= |steps|
  {
    if i == 0 then []
    else Opened(steps, i - 1) + (match steps[i - 1].opens case Some(l) => [l] case None => [])
  }

  /**
   * The plan of calls for one query: two windowed attempts when the look-back
   * has a window, then no window, then the two other regions; each call
   * carries its position in the plan.
   */
  function Plan(query: string, days: int): (steps: seq<Step>)
    ensures |steps| == if TimeLimit(days).Some? then 5 else 3
    ensures forall i :: 0 <= i < |steps| ==> steps[i].call.ordinal == i && steps[i].call.query == query
    ensures forall i :: 0 <= i < |steps| ==> (steps[i].call.timelimit.Some? <==> i < |steps| - 3)
    ensures steps[|steps| - 3].call.region == WorldRegion
    ensures steps[|steps| - 2].call.region == UsRegion && steps[|steps| - 1].call.region == CnRegion
  {
    var tl := TimeLimit(days);
    var n := if tl.Some? then 2 else 0;
    var rest := [
      Step(SearchCall(query, WorldRegion, None, n), Some(LabelB)),
      Step(SearchCall(query, UsRegion, None, n + 1), Some(LabelC(UsRegion))),
      Step(SearchCall(query, CnRegion, None, n + 2), Some(LabelC(CnRegion)))];
    if tl.Some? then
      [Step(SearchCall(query, WorldRegion, tl, 0), Some(LabelA(tl.value))),
       Step(SearchCall(query, WorldRegion, tl, 1), None)] + rest
    else rest
  }

  /**
   * The first step of the plan from `i` on whose call has hits, or none.
   * Every step before the one chosen found nothing.
   */
  function FirstHit(qi: nat, steps: seq<Step>, i: nat, search: Searcher): (h: Option<nat>)
    requires i <= |steps|
    ensures h.Some? ==> i <= h.value < |steps| && |search(qi, steps[h.value].call)| > 0
    ensures h.Some? ==> forall j :: i <= j < h.value ==> |search(qi, steps[j].call)| == 0
    ensures h.None? ==> forall j :: i <= j < |steps| ==> |search(qi, steps[j].call)| == 0
    decreases |steps| - i
  {
    if i == |steps| then None
    else if |search(qi, steps[i].call)| > 0 then Some(i)
    else FirstHit(qi, steps, i + 1, search)
  }

  /**
   * The fallback described by its plan: the hits of the first successful
   * call with the labels of the strategies tried up to it, or nothing with
   * the full path marked as failed.
   */
  function FallbackSpec(qi: nat, query: string, days: int, search: Searcher): (seq<SearchItem>, string) {
    var steps := Plan(query, days);
    match FirstHit(qi, steps, 0, search)
    case Some(i) => (search(qi, steps[i].call), Path(Opened(steps, i + 1)))
    case None => ([], Path(Opened(steps, |steps|)) + FailedSuffix)
  }

  /** The written search is the plan walked in order. */
  lemma MultiStrategySearchFollowsPlan(qi: nat, query: string, days: int, search: Searcher)
    ensures MultiStrategySearch(qi, query, days, search) == FallbackSpec(qi, query, days, search)
  {
    var steps := Plan(query, days);
    var tl := TimeLimit(days);
    if tl.Some? {
      assert Opened(steps, 1) == [LabelA(tl.value)];
      assert Opened(steps, 2) == [LabelA(tl.value)];
      assert Opened(steps, 3) == [LabelA(tl.value), LabelB];
      assert Opened(steps, 4) == [LabelA(tl.value), LabelB, LabelC(UsRegion)];
      assert Opened(steps, 5) == [LabelA(tl.value), LabelB, LabelC(UsRegion), LabelC(CnRegion)];
    } else {
      assert Opened(steps, 1) == [LabelB];
      assert Opened(steps, 2) == [LabelB, LabelC(UsRegion)];
      assert Opened(steps, 3) == [LabelB, LabelC(UsRegion), LabelC(CnRegion)];
    }
  }

  /** With no hits anywhere the search gives nothing and the path ends in "(失败)". */
  lemma FailedSearchIsMarked(qi: nat, query: string, days: int, search: Searcher)
    requires |MultiStrategySearch(qi, query, days, search).0| == 0
    ensures forall j :: 0 <= j < |Plan(query, days)| ==> |search(qi, Plan(query, days)[j].call)| == 0
    ensures exists p :: MultiStrategySearch(qi, query, days, search).1 == p + FailedSuffix
  {
    MultiStrategySearchFollowsPlan(qi, query, days, search);
  }
}

=== FILE: tavily.dfy ===
/**
 * The Tavily edition of the gatherer (gather_tavily_demo.py): its own
 * `resolve_source`, which keeps the last whitelist tier that matches and
 * has no fallback for urls without a host, and a `gather` that keeps every
 * hit, fetching the page body only for whitelisted sources.
 */
module Tavily {
  import opened Results
  import opened Text
  import opened Sources
  import opened Env

  /** The whitelist of gather_tavily_demo.py. */
  const TavilyWhitelist: seq<Tier> := [
    Tier("tier1", ["pbc.gov.cn", "mof.gov.cn", "gov.cn"]),
    Tier("tier2", ["stcn.com", "caixin.com", "cls.cn", "yicai.com"])
  ]

  /** The name of the variable holding the API key. */
  const ApiKeyName: string := "TAVILY_API_KEY"

  /**
   * The tier loop as written: every tier is visited, and a matching one
   * overwrites the tier found so far (the `break` leaves only the loop over
   * that tier's domains).
   */
  function TierScan(wl: seq<Tier>, domain: string, i: nat, tier: string, whitelisted: bool): (string, bool)
    requires i <= |wl|
    decreases |wl| - i
  {
    if i == |wl| then (tier, whitelisted)
    else if TierMatches(wl[i], domain) then TierScan(wl, domain, i + 1, wl[i].name, true)
    else TierScan(wl, domain, i + 1, tier, whitelisted)
  }

  /** The last tier from `i` on that matches `domain`. */
  function LastMatch(wl: seq<Tier>, domain: string, i: nat): (r: Option<nat>)
    requires i <= |wl|
    ensures r.Some? ==> i <= r.value < |wl| && TierMatches(wl[r.value], domain)
    ensures r.Some? ==> forall j :: r.value < j < |wl| ==> !TierMatches(wl[j], domain)
    ensures r.None? ==> forall j :: i <= j < |wl| ==> !TierMatches(wl[j], domain)
    decreases |wl| - i
  {
    if i == |wl| then None
    else match LastMatch(wl, domain, i + 1)
      case Some(j) => Some(j)
      case None => if TierMatches(wl[i], domain) then Some(i) else None
  }

  /** The tier loop ends with the last matching tier, or with what it started from when none matches. */
  lemma {:induction false} TierScanIsLast(wl: seq<Tier>, domain: string, i: nat, tier: string, whitelisted: bool)
    requires i <= |wl|
    ensures TierScan(wl, domain, i, tier, whitelisted) ==
      match LastMatch(wl, domain, i)
      case Some(j) => (wl[j].name, true)
      case None => (tier, whitelisted)
    decreases |wl| - i
  {
    if i < |wl| {
      if TierMatches(wl[i], domain) {
        TierScanIsLast(wl, domain, i + 1, wl[i].name, true);
      } else {
        TierScanIsLast(wl, domain, i + 1, tier, whitelisted);
      }
    }
  }

  /**
   * `resolve_source` of gather_tavily_demo.py: a url without a host raises;
   * otherwise the tier is the last one naming a fragment of the domain.
   */
  function ResolveSource(wl: seq<Tier>, url: string): (r: Result<SourceInfo>)
    ensures r.Ok? <==> Count(url, '/') >= 2
    ensures r.Ok? ==> r.value.url == url && r.value.domain == DomainOf(url) && r.value.outletName == r.value.domain
  {
    match HostSegment(url)
    case None => Err("list index out of range")
    case Some(h) =>
      var domain := StripWww(h);
      var (tier, whitelisted) := TierScan(wl, domain, 0, Unknown, false);
      Ok(SourceInfo(url, domain, tier, domain, whitelisted))
  }

  /** The variant is whitelisted when any tier matches, and then names the last matching tier. */
  lemma ResolveSourceLastTier(wl: seq<Tier>, url: string)
    requires ResolveSource(wl, url).Ok?
    ensures var s := ResolveSource(wl, url).value;
      && (s.whitelisted <==> exists j :: 0 <= j < |wl| && TierMatches(wl[j], s.domain))
      && (s.whitelisted ==> (exists j :: 0 <= j < |wl| && TierMatches(wl[j], s.domain) && s.tier == wl[j].name
                                          && forall i :: j < i < |wl| ==> !TierMatches(wl[i], s.domain)))
      && (!s.whitelisted ==> s.tier == Unknown)
  {
    TierScanIsLast(wl, DomainOf(url), 0, Unknown, false);
  }

  /**
   * The two editions disagree on a host matching both tiers: gather_demo.py
   * files it under tier1, gather_tavily_demo.py under tier2.
   */
  lemma EditionsDisagree(url: string)
    requires Count(url, '/') >= 2
    requires Contains(DomainOf(url), GovCn) && Contains(DomainOf(url), "cls.cn")
    ensures Sources.ResolveSource(DuckWhitelist, url).tier == "tier1"
    ensures ResolveSource(TavilyWhitelist, url).value.tier == "tier2"
  {
    GovCnIsTier1(url);
    var d := DomainOf(url);
    assert TavilyWhitelist[1].domains[2] == "cls.cn";
    assert TierMatches(TavilyWhitelist[1], d);
    TierScanIsLast(TavilyWhitelist, d, 0, Unknown, false);
  }

  /** One search hit; a key missing from the response is `None`. */
  datatype TavilyItem = TavilyItem(url: Option<string>, title: Option<string>, content: Option<string>)

  /**
   * The search service: the position of the query, the query, the look-back
   * and the result count give the hits, or an error.
   */
  type TavilySearch = (nat, string, int, int) -> Result<seq<TavilyItem>>

  /** `extract_body`: the text of the page at a url ("" when it cannot be fetched). */
  type Extractor = string -> string

  /** The full text kept for an article: the fetched body when it is longer than 50 characters, else the snippet. */
  function FullText(body: string, content: string): (t: string)
    ensures |body| > 50 ==> t == body
    ensures |body| <= 50 ==> t == content
  {
    if |body| > 50 then body else content
  }

  /** Whether an item can be turned into an article: all three keys present and a url with a host. */
  predicate WellFormed(item: TavilyItem) {
    item.url.Some? && item.title.Some? && item.content.Some? && Count(item.url.value, '/') >= 2
  }

  /** The article for a well-formed item; only a whitelisted source has its page fetched. */
  function ArticleOf(item: TavilyItem, extract: Extractor, hash: string -> string): (a: RawArticle)
    requires WellFormed(item)
  {
    var url := item.url.value;
    var source := ResolveSource(TavilyWhitelist, url).value;
    var body := if source.whitelisted then extract(url) else "";
    RawArticle(hash(url), url, item.title.value, item.content.value,
               FullText(body, item.content.value), source, true, "")
  }

  /** How a well-formed hit becomes an article. */
  type Maker = TavilyItem --> RawArticle

  /** A maker defined on every well-formed hit. */
  ghost predicate MakesWellFormed(make: Maker) {
    forall item :: WellFormed(item) ==> make.requires(item)
  }

  /** The conversion `gather` applies, with its page fetcher and id hash. */
  function MakerOf(extract: Extractor, hash: string -> string): (make: Maker)
    ensures MakesWellFormed(make)
    ensures forall item :: WellFormed(item) ==> make(item) == ArticleOf(item, extract, hash)
  {
    item requires WellFormed(item) => ArticleOf(item, extract, hash)
  }

  /**
   * The loop over one query's hits from `i` on: a hit missing a key or
   * whose url has no host raises, which ends this query's loop but keeps
   * the articles made before it.
   */
  function ItemArticles(items: seq<TavilyItem>, i: nat, make: Maker): seq<RawArticle>
    requires i <= |items| && MakesWellFormed(make)
    decreases |items| - i
  {
    if i == |items| || !WellFormed(items[i]) then []
    else [make(items[i])] + ItemArticles(items, i + 1, make)
  }

  /**
   * The hits become articles one to one and in order, up to the first hit
   * that raises; nothing is filtered out and nothing is deduplicated.
   */
  lemma {:induction false} ItemArticlesSpec(items: seq<TavilyItem>, i: nat, make: Maker)
    requires i <= |items| && MakesWellFormed(make)
    ensures var r := ItemArticles(items, i, make);
      && i + |r| <= |items|
      && (forall j :: i <= j < i + |r| ==> WellFormed(items[j]) && r[j - i] == make(items[j]))
      && (i + |r| < |items| ==> !WellFormed(items[i + |r|]))
    decreases |items| - i
  {
    ItemArticlesStop(items, i, make);
    var r := ItemArticles(items, i, make);
    forall j | i <= j < i + |r|
      ensures WellFormed(items[j]) && r[j - i] == make(items[j])
    {
      ItemArticlesAt(items, i, make, j);
    }
  }

  /** The loop makes one article per hit until it reaches a hit that raises. */
  lemma {:induction false} ItemArticlesStop(items: seq<TavilyItem>, i: nat, make: Maker)
    requires i <= |items| && MakesWellFormed(make)
    ensures var r := ItemArticles(items, i, make);
      i + |r| <= |items| && (i + |r| < |items| ==> !WellFormed(items[i + |r|]))
    decreases |items| - i
  {
    if i < |items| && WellFormed(items[i]) {
      var rest := ItemArticles(items, i + 1, make);
      assert ItemArticles(items, i, make) == [make(items[i])] + rest;
      ItemArticlesStop(items, i + 1, make);
    }
  }

  /** The article at position `j - i` is the one made from hit `j`. */
  lemma {:induction false} ItemArticlesAt(items: seq<TavilyItem>, i: nat, make: Maker, j: nat)
    requires MakesWellFormed(make) && i <= j < |items| && j - i < |ItemArticles(items, i, make)|
    ensures WellFormed(items[j]) && ItemArticles(items, i, make)[j - i] == make(items[j])
    decreases j - i
  {
    if j > i {
      ItemArticlesAt(items, i + 1, make, j);
    }
  }

  /** Every article made carries its url, title and snippet, is eligible, and its full text follows the 50-character rule. */
  lemma ArticleOfSpec(item: TavilyItem, extract: Extractor, hash: string -> string)
    requires WellFormed(item)
    ensures var a := ArticleOf(item, extract, hash);
      && a.url == item.url.value && a.title == item.title.value && a.snippet == item.content.value
      && a.articleId == hash(a.url) && a.eligibleForEvent
      && a.source == ResolveSource(TavilyWhitelist, a.url).value
      && (!a.source.whitelisted ==> a.fullText == a.snippet)
      && (a.source.whitelisted && |extract(a.url)| > 50 ==> a.fullText == extract(a.url))
      && (a.source.whitelisted && |extract(a.url)| <= 50 ==> a.fullText == a.snippet)
  {
  }

  /** The articles of the queries from `qi` on; a query whose search fails adds nothing. */
  function QueriesFrom(queries: seq<string>, qi: nat, days: int, maxResults: int,
                       search: TavilySearch, extract: Extractor, hash: string -> string): seq<RawArticle>
    requires qi <= |queries|
    decreases |queries| - qi
  {
    if qi == |queries| then []
    else
      var found := match search(qi, queries[qi], days, maxResults)
        case Ok(items) => ItemArticles(items, 0, MakerOf(extract, hash))
        case Err(_) => [];
      found + QueriesFrom(queries, qi + 1, days, maxResults, search, extract, hash)
  }

  /**
   * `gather` of gather_tavily_demo.py: without a non-empty API key in the
   * environment it raises before any search.
   */
  function Gather(env: Environ, queries: seq<string>, days: int, maxResults: int,
                  search: TavilySearch, extract: Extractor, hash: string -> string): (r: Result<seq<RawArticle>>)
    ensures r.Err? <==> ApiKeyName !in env || env[ApiKeyName] == ""
  {
    if ApiKeyName !in env || env[ApiKeyName] == "" then Err("missing TAVILY_API_KEY")
    else Ok(QueriesFrom(queries, 0, days, maxResults, search, extract, hash))
  }

  /** When every search succeeds with well-formed hits, every hit becomes exactly one article, in order. */
  lemma {:induction false} NoFilterNoDedup(queries: seq<string>, qi: nat, days: int, maxResults: int,
                                           search: TavilySearch, extract: Extractor, hash: string -> string)
    requires qi <= |queries|
    requires forall q :: qi <= q < |queries| ==> search(q, queries[q], days, maxResults).Ok?
    requires forall q, k :: qi <= q < |queries| && 0 <= k < |search(q, queries[q], days, maxResults).value| ==>
      WellFormed(search(q, queries[q], days, maxResults).value[k])
    ensures |QueriesFrom(queries, qi, days, maxResults, search, extract, hash)| ==
      HitCount(queries, qi, days, maxResults, search)
    decreases |queries| - qi
  {
    if qi < |queries| {
      var items := search(qi, queries[qi], days, maxResults).value;
      ItemArticlesSpec(items, 0, MakerOf(extract, hash));
      NoFilterNoDedup(queries, qi + 1, days, maxResults, search, extract, hash);
    }
  }

  /** The number of hits the searches of the queries from `qi` on return. */
  function HitCount(queries: seq<string>, qi: nat, days: int, maxResults: int, search: TavilySearch): nat
    requires qi <= |queries|
    decreases |queries| - qi
  {
    if qi == |queries| then 0
    else
      (match search(qi, queries[qi], days, maxResults) case Ok(items) => |items| case Err(_) => 0)
      + HitCount(queries, qi + 1, days, maxResults, search)
  }

  /**
   * A key the environment lacks but the `.env` file assigns first with a
   * non-empty value lets the gatherer start.
   */
  lemma KeyFromFile(lines: seq<string>, env: Environ, queries: seq<string>, days: int, maxResults: int,
                    search: TavilySearch, extract: Extractor, hash: string -> string)
    requires ApiKeyName !in env
    requires FirstValue(Assignments(lines), ApiKeyName).Some? && FirstValue(Assignments(lines), ApiKeyName).value != ""
    requires LoadEnv(Some(lines), env).Ok?
    ensures Gather(LoadEnv(Some(lines), env).value, queries, days, maxResults, search, extract, hash).Ok?
  {
    LoadEnvSpec(lines, env);
  }
}

=== FILE: text.dfy ===
/**
 * Python's string built-ins as the modelled code uses them, over `seq<char>`
 * (and, where nothing depends on characters, over any sequence):
 * `in`, `startswith`, `replace`, `split`, `"sep".join`, `strip`, `upper`,
 * prefix slicing `s[:n]` and `str(n)` for a natural number.
 */
module Text {

  /** An ASCII decimal digit. */
  predicate IsDigit(c: char) {
    '0' <= c <= '9'
  }

  function DigitValue(c: char): nat
    requires IsDigit(c)
  {
    (c as int) - ('0' as int)
  }

  /** `s.startswith(p)` */
  predicate StartsWith<T(==)>(s: seq<T>, p: seq<T>) {
    |p| <= |s| && s[..|p|] == p
  }

  /** Python's `needle in s`: `needle` occurs in `s` as a contiguous block (case-sensitive). */
  predicate Contains<T(==)>(s: seq<T>, needle: seq<T>)
    decreases |s|
  {
    StartsWith(s, needle) || (|s| > 0 && Contains(s[1..], needle))
  }

  /** Every element of an occurring needle is an element of the text. */
  lemma {:induction false} ContainsHasElements<T>(s: seq<T>, needle: seq<T>, k: nat)
    requires Contains(s, needle)
    requires k < |needle|
    ensures needle[k] in s
  {
    if StartsWith(s, needle) {
      assert s[k] == needle[k];
    } else {
      ContainsHasElements(s[1..], needle, k);
    }
  }

  /** An occurrence in a suffix is an occurrence in the whole. */
  lemma {:induction false} ContainsInSuffix<T>(a: seq<T>, b: seq<T>, needle: seq<T>)
    requires Contains(b, needle)
    ensures Contains(a + b, needle)
    decreases |a|
  {
    if |a| > 0 {
      assert (a + b)[1..] == a[1..] + b;
      ContainsInSuffix(a[1..], b, needle);
    } else {
      assert a + b == b;
    }
  }

  /** An occurrence in a prefix is an occurrence in the whole. */
  lemma {:induction false} ContainsInPrefix<T>(a: seq<T>, b: seq<T>, needle: seq<T>)
    requires Contains(a, needle)
    ensures Contains(a + b, needle)
    decreases |a|
  {
    if StartsWith(a, needle) {
      assert (a + b)[..|needle|] == a[..|needle|];
    } else {
      assert (a + b)[1..] == a[1..] + b;
      ContainsInPrefix(a[1..], b, needle);
    }
  }

  /** `s.replace(pat, rep)`: left-to-right, non-overlapping occurrences of a non-empty `pat`. */
  function ReplaceAll<T(==)>(s: seq<T>, pat: seq<T>, rep: seq<T>): seq<T>
    requires |pat| > 0
    decreases |s|
  {
    if |s| == 0 then s
    else if StartsWith(s, pat) then rep + ReplaceAll(s[|pat|..], pat, rep)
    else [s[0]] + ReplaceAll(s[1..], pat, rep)
  }

  /** Replacing a pattern that does not occur changes nothing. */
  lemma {:induction false} ReplaceAbsent<T>(s: seq<T>, pat: seq<T>, rep: seq<T>)
    requires |pat| > 0
    requires !Contains(s, pat)
    ensures ReplaceAll(s, pat, rep) == s
    decreases |s|
  {
    if |s| > 0 {
      ReplaceAbsent(s[1..], pat, rep);
    }
  }

  /**
   * The left-to-right replacement reaches the first occurrence of `pat` that
   * starts at `|a|`, when none starts inside `a`: `a` is kept, that
   * occurrence becomes `rep`, and the rest is replaced on its own.
   */
  lemma {:induction false} ReplaceFirst<T>(a: seq<T>, b: seq<T>, pat: seq<T>, rep: seq<T>)
    requires |pat| > 0
    requires forall k :: 0 <= k < |a| ==> !StartsWith((a + pat + b)[k..], pat)
    ensures ReplaceAll(a + pat + b, pat, rep) == a + rep + ReplaceAll(b, pat, rep)
    decreases |a|
  {
    var s := a + pat + b;
    if |a| == 0 {
      assert s == pat + b;
      assert s[|pat|..] == b;
    } else {
      assert s[0..] == s;
      assert s[1..] == a[1..] + pat + b;
      forall k | 0 <= k < |a[1..]|
        ensures !StartsWith((a[1..] + pat + b)[k..], pat)
      {
        assert (a[1..] + pat + b)[k..] == s[k + 1..];
      }
      ReplaceFirst(a[1..], b, pat, rep);
      assert [s[0]] + a[1..] == a;
    }
  }

  /** The elements of `s` other than `x`, in their order. */
  function Without<T(==)>(s: seq<T>, x: T): (r: seq<T>)
    ensures x !in r
    ensures forall k :: 0 <= k < |r| ==> r[k] in s
    ensures x !in s ==> r == s
    decreases |s|
  {
    if |s| == 0 then []
    else if s[0] == x then Without(s[1..], x)
    else [s[0]] + Without(s[1..], x)
  }

  /** Replacing a one-element pattern by nothing deletes every copy of that element. */
  lemma {:induction false} ReplaceElementIsWithout<T>(s: seq<T>, x: T)
    ensures ReplaceAll(s, [x], []) == Without(s, x)
    decreases |s|
  {
    if |s| > 0 {
      ReplaceElementIsWithout(s[1..], x);
    }
  }

  /** The number of copies of `x` in `s`. */
  function Count<T(==)>(s: seq<T>, x: T): nat
    decreases |s|
  {
    if |s| == 0 then 0 else (if s[0] == x then 1 else 0) + Count(s[1..], x)
  }

  /** `sep.join(parts)` */
  function JoinWith<T>(parts: seq<seq<T>>, sep: seq<T>): seq<T>
    decreases |parts|
  {
    if |parts| == 0 then []
    else if |parts| == 1 then parts[0]
    else parts[0] + sep + JoinWith(parts[1..], sep)
  }

  /** `s.split(sep)` for a one-element separator: joining the pieces back gives `s`. */
  function Split<T(==)>(s: seq<T>, sep: T): (parts: seq<seq<T>>)
    ensures |parts| == Count(s, sep) + 1
    ensures forall k :: 0 <= k < |parts| ==> sep !in parts[k]
    ensures JoinWith(parts, [sep]) == s
    decreases |s|
  {
    if |s| == 0 then [[]]
    else
      var rest := Split(s[1..], sep);
      if s[0] == sep then
        assert JoinWith([[]] + rest, [sep]) == [sep] + JoinWith(rest, [sep]);
        [[]] + rest
      else
        var parts := [[s[0]] + rest[0]] + rest[1..];
        assert parts[1..] == rest[1..];
        assert JoinWith(parts, [sep]) == [s[0]] + JoinWith(rest, [sep]);
        parts
  }

  /** In `a + [c] + b` with no `c` in `a`, the first `c` is at `|a|`. */
  lemma FirstAt<T>(a: seq<T>, b: seq<T>, c: T)
    requires c !in a
    ensures (a + [c] + b)[|a|] == c
    ensures forall j :: 0 <= j < |a| ==> (a + [c] + b)[j] != c
  {
    assert forall j :: 0 <= j < |a| ==> (a + [c] + b)[j] == a[j];
  }

  /** Where the first `c` is, the text before it and the text after it are determined. */
  lemma SplitAtFirstUnique<T>(a: seq<T>, b: seq<T>, a': seq<T>, b': seq<T>, c: T)
    requires a + [c] + b == a' + [c] + b'
    requires c !in a && c !in a'
    ensures a == a' && b == b'
  {
    var s := a + [c] + b;
    FirstAt(a, b, c);
    FirstAt(a', b', c);
    assert |a| == |a'|;
    assert a == s[..|a|] == a';
    assert b == s[|a| + 1..] == b';
  }

  /** A sequence without the separator splits into itself alone. */
  lemma {:induction false} SplitNone<T>(a: seq<T>, sep: T)
    requires sep !in a
    ensures Split(a, sep) == [a]
    decreases |a|
  {
    if |a| > 0 {
      SplitNone(a[1..], sep);
    }
  }

  /** Splitting at the first separator: the piece before it, then the split of the rest. */
  lemma {:induction false} SplitAfter<T>(a: seq<T>, b: seq<T>, sep: T)
    requires sep !in a
    ensures Split(a + [sep] + b, sep) == [a] + Split(b, sep)
    decreases |a|
  {
    var s := a + [sep] + b;
    if |a| == 0 {
      assert s[1..] == b;
    } else {
      assert s[1..] == a[1..] + [sep] + b;
      SplitAfter(a[1..], b, sep);
      assert [s[0]] + a[1..] == a;
    }
  }

  /** The number of leading elements of `s` that `drop` accepts. */
  function LeadCount<T>(s: seq<T>, drop: T -> bool): (n: nat)
    ensures n <= |s|
    ensures forall k :: 0 <= k < n ==> drop(s[k])
    ensures n < |s| ==> !drop(s[n])
    decreases |s|
  {
    if |s| > 0 && drop(s[0]) then 1 + LeadCount(s[1..], drop) else 0
  }

  /** The number of trailing elements of `s` that `drop` accepts. */
  function TrailCount<T>(s: seq<T>, drop: T -> bool): (n: nat)
    ensures n <= |s|
    ensures forall k :: |s| - n <= k < |s| ==> drop(s[k])
    ensures n < |s| ==> !drop(s[|s| - 1 - n])
    decreases |s|
  {
    if |s| > 0 && drop(s[|s| - 1]) then 1 + TrailCount(s[..|s| - 1], drop) else 0
  }

  /**
   * `s.strip(chars)`: `s` without its leading and its trailing run of elements
   * that `drop` accepts; what remains is a block of `s` that neither starts nor
   * ends with a dropped element, and everything cut off was dropped.
   */
  function Strip<T>(s: seq<T>, drop: T -> bool): (r: seq<T>)
    ensures |r| > 0 ==> !drop(r[0]) && !drop(r[|r| - 1])
    ensures LeadCount(s, drop) + |r| <= |s|
    ensures r == s[LeadCount(s, drop)..LeadCount(s, drop) + |r|]
    ensures forall k :: LeadCount(s, drop) + |r| <= k < |s| ==> drop(s[k])
  {
    var t := s[LeadCount(s, drop)..];
    t[..|t| - TrailCount(t, drop)]
  }

  /** Stripping a sequence whose ends are kept changes nothing. */
  lemma StripKeeps<T>(s: seq<T>, drop: T -> bool)
    requires |s| > 0 ==> !drop(s[0]) && !drop(s[|s| - 1])
    ensures Strip(s, drop) == s
  {
    assert LeadCount(s, drop) == 0;
    assert TrailCount(s, drop) == 0;
  }

  /** Stripping `a + b + c` leaves `b` when all of `a` and `c` is dropped and `b`'s ends are kept. */
  lemma StripFrame<T>(a: seq<T>, b: seq<T>, c: seq<T>, drop: T -> bool)
    requires forall k :: 0 <= k < |a| ==> drop(a[k])
    requires forall k :: 0 <= k < |c| ==> drop(c[k])
    requires |b| > 0 ==> !drop(b[0]) && !drop(b[|b| - 1])
    ensures Strip(a + b + c, drop) == b
  {
    var s := a + b + c;
    var n := LeadCount(s, drop);
    var r := Strip(s, drop);
    assert forall k :: 0 <= k < |a| ==> s[k] == a[k];
    assert forall k :: 0 <= k < |c| ==> s[|a| + |b| + k] == c[k];
    if |b| == 0 {
      assert n == |s|;
    } else {
      assert s[|a|] == b[0];
      assert n == |a|;
      assert s[|a| + |b| - 1] == b[|b| - 1];
      assert |r| == |b|;
      assert s[|a|..|a| + |b|] == b;
    }
  }

  /** Python's `str.isspace()` for one character: the characters `str.strip()` removes. */
  predicate IsSpace(c: char) {
    var n := c as int;
    || 9 <= n <= 13
    || 28 <= n <= 32
    || n == 0x85 || n == 0xA0 || n == 0x1680
    || 0x2000 <= n <= 0x200A
    || n == 0x2028 || n == 0x2029 || n == 0x202F || n == 0x205F || n == 0x3000
  }

  /** `s.strip()` */
  function StripSpace(s: string): string {
    Strip(s, IsSpace)
  }

  function UpperChar(c: char): char {
    if 'a' <= c <= 'z' then ((c as int) - 32) as char else c
  }

  /** `s.upper()` on the ASCII letters, which is all the modelled tests look for. */
  function UpperAscii(s: string): string {
    seq(|s|, k requires 0 <= k < |s| => UpperChar(s[k]))
  }

  /** Python's `s[:n]`; a negative `n` counts from the end. */
  function Take<T>(s: seq<T>, n: int): (r: seq<T>)
    ensures |r| <= |s| && r == s[..|r|]
    ensures 0 <= n ==> |r| == (if n < |s| then n else |s|)
    ensures n < 0 ==> |r| == (if |s| + n > 0 then |s| + n else 0)
  {
    if n >= |s| then s
    else if n >= 0 then s[..n]
    else if |s| + n > 0 then s[..|s| + n]
    else []
  }

  /** `str(n)` for a natural number: its decimal digits. */
  function NatToString(n: nat): (r: string)
    ensures |r| > 0
    ensures forall k :: 0 <= k < |r| ==> IsDigit(r[k])
    decreases n
  {
    var d := ((n % 10) + ('0' as int)) as char;
    if n < 10 then [d] else NatToString(n / 10) + [d]
  }
}
